=== FILE: README.md ===
# ui-showcase: the behaviour of its components, in Dafny

ui-showcase is a React and TypeScript component library that is also a
design-token theme showcase. This project models the behaviour of its
components, not their markup.

Each handler (`toggleItem`, `handleSubmit`, `showToast`, and so on) becomes a
pure function. It takes the component's props and state and returns the new
state together with the effects the handler fires, in order: the callbacks
it calls and, where the source moves focus, the focus moves. Pure helpers
become Dafny functions: `getPageNumbers`, `getDaysInMonth`, `getGlassClasses`,
`createLinearGradient` and so on. The properties each piece promises are
stated in its contract, or proved as lemmas about several calls.

The modules follow the source:

- `Js` holds the JavaScript behaviour the components rely on:
  - `Option`/`Result` (a thrown error is `Thrown(message)`);
  - `join`, `filter(Boolean)`, `slice` with negative indices, `padStart`;
  - `String(n)` for integers, ASCII `toLowerCase`, `includes`;
  - `Set` as an insertion-ordered list without duplicates.
- `Calendar` holds proleptic Gregorian dates and the normalisation done by
  `new Date(y, m, d)` and `setMonth`. The day number is the count of days
  since 1 January 1970.
- Theming:
  - `ThemeTypes` is the token schema;
  - `SlateTheme` is the one concrete theme;
  - `ThemeRegistry` is the registry with `getTheme` and `getAllThemes`;
  - `ThemeProvider` is the provider. Its effect writes CSS custom properties into a style store.
- `GlassUtils`, `GradientUtils`: the class-name and inline-style builders.
- Components:
  - `Pagination`, `Table`, `Accordion`, `Tree`;
  - `OtpInput`, `FileUpload`, `TimePicker`, `DatePicker`;
  - `Stepper`, `Toast`.
- Patterns: `FirstTimeUse`, `SearchFilter`, `BulkAction`, `FormPattern`, `CrudPattern`.

Time is modelled without a clock:
- A `Date` is a civil date plus milliseconds since midnight.
- "Today" is a parameter.
- Toast ids, which the source draws from `Math.random`, are supplied by the caller.

Four behaviours of the source that readers may not expect are kept as
written:
- The theme provider writes radius and font families from the theme held
  *before* the switch. They lag one switch behind.
- The date picker's next-month button goes from 31 January to early March.
- The table's `selectedItems` default makes every table controlled.
- With `maxVisiblePages` of 2, pagination can drop the current page.

Lemmas make each of these explicit.

## Model

| member | source | states |
|---|---|---|
| Js.JoinShape | src/lib/glass-utils.tsx:62-70 | `join(sep)` of a non-empty list starts with the first part, followed by the separator when there are more, and ends with the last part |
| Js.JoinLength | src/lib/glass-utils.tsx:62-70 | the joined string is as long as all the parts plus one separator between each two |
| Js.NonEmpty | src/lib/gradient-utils.tsx:117 | `filter(Boolean)` on strings keeps exactly the non-empty parts, never lengthens the list, and leaves no empty string |
| Js.NonEmptyAppend | src/lib/glass-utils.tsx:62-69 | filtering a concatenation is the concatenation of the filtered parts |
| Js.JoinAppend | src/lib/gradient-utils.tsx:188-193 | joining two non-empty lists is joining each, glued with one more separator |
| Js.NatToString | src/lib/gradient-utils.tsx:153 | `String(n)` of a natural number is non-empty decimal digits with no leading zero, and is one digit exactly below ten |
| Js.NatToStringInjective | src/lib/gradient-utils.tsx:153 | distinct naturals print differently |
| Js.IntToStringChars | src/lib/gradient-utils.tsx:153 | `String(i)` is digits with at most a leading minus; it starts with a digit exactly when `i` is non-negative |
| Js.IntToStringInjective | src/lib/gradient-utils.tsx:153 | distinct integers print differently, so a printed angle can be read back |
| Js.PadStart2 | src/components/ui/time-picker.tsx:59 | `padStart(2, '0')` leaves two or more characters alone, else left-pads with zeros to exactly two, ending in the original |
| Js.SliceFrom | src/components/ui/toast.tsx:146 | `xs.slice(k)` is a suffix of `xs`: from position `k` when `0 <= k <= len`, empty past the end, the last `-k` elements for a negative `k` down to `-len`, all of `xs` below that |
| Js.SliceTo | src/components/ui/otp-input.tsx:78 | `xs.slice(0, n)` is a prefix of `xs`: `n` long when `0 <= n <= len`, all of `xs` past the end, `len + n` long for a negative `n` down to `-len`, empty below that |
| Js.SliceSplit | src/components/ui/toast.tsx:146 | for every index, `slice(0, k)` followed by `slice(k)` gives the whole list back |
| Js.LowerChar | src/components/patterns/crud-pattern.tsx:65 | `toLowerCase` on one character: an ASCII capital becomes the letter 32 code points higher, a lower-case letter; every other character is kept; no capital is left |
| Js.Lower | src/components/patterns/crud-pattern.tsx:65 | `toLowerCase` keeps the length, leaves no ASCII capital, lowers each capital by the case offset and keeps every other character; a string without capitals is unchanged |
| Js.LowerAppend | src/components/patterns/crud-pattern.tsx:65 | lowercasing distributes over concatenation |
| Js.LowerIdempotent | src/components/patterns/crud-pattern.tsx:65 | lowercasing twice is lowercasing once |
| Js.ContainsPrefix | src/components/patterns/crud-pattern.tsx:65 | a string that `includes(a + b)` also includes `a` |
| Js.SetAdd | src/components/ui/accordion.tsx:63 | `set.add(x)`: membership gains `x`, a present `x` changes nothing, an absent one is appended last, no duplicates appear |
| Js.Remove | src/components/ui/accordion.tsx:60 | `set.delete(x)`: exactly `x` leaves, an absent `x` changes nothing, and a present one shortens a duplicate-free list by one |
| Js.RemoveAppend | src/components/ui/accordion.tsx:60 | deletion acts element by element: removing from a concatenation is removing from each part, so the remaining ids keep their insertion order |
| Js.SetOf | src/components/ui/accordion.tsx:48 | `new Set(xs)`: duplicate-free, same members as `xs`, and `xs` itself when it has no duplicates |
| Calendar.DaysInMonth | src/components/ui/date-picker.tsx:78-79 | a month has 28 to 31 days, and February has 29 exactly in a leap year |
| Calendar.WeekDay | src/components/ui/date-picker.tsx:80 | `getDay()` lies in 0..6, and 1 January 1970 is a Thursday (4) |
| Calendar.WeekDayShift | src/components/ui/date-picker.tsx:80 | `n` days later is `n` weekdays later modulo 7; in particular the next day is the next weekday |
| Calendar.KnownWeekDays | src/components/ui/date-picker.tsx:80 | 1 January 2024 is a Monday and 29 February 2024 a Thursday |
| Calendar.MonthStep | src/components/ui/date-picker.tsx:167-170 | the first of the next month is the month's length in days after the first of this month, and stepping back from it returns here |
| Calendar.NormalizeDay | src/components/ui/date-picker.tsx:86 | an out-of-range day of a month is carried into a valid date |
| Calendar.MakeDate | src/components/ui/date-picker.tsx:77-78 | `new Date(y, m, d)` always denotes a valid date, whatever the month and day overflow (years 0..99 excepted, see Left out) |
| Calendar.MakeDateKeepsValid | src/components/ui/date-picker.tsx:91 | in-range fields are kept as given |
| Calendar.MakeDateDayNumber | src/components/ui/date-picker.tsx:86 | `new Date(y, m, d)` is `d - 1` days after the first of month `m mod 12` of year `y + floor(m / 12)` |
| Calendar.DayNumberInjective | src/components/ui/date-picker.tsx:97-103 | a valid date is determined by its day number |
| Calendar.WithinYear | src/components/ui/date-picker.tsx:77 | a valid date's day number lies inside its year's range |
| ThemeTypes.SemanticColors | src/themes/types.ts:1-21 | the eighteen semantic color roles in declaration order, `background` first, `primary` ninth, `warning` last |
| SlateTheme.SlateGrayKeys | src/themes/slate-theme.ts:7-18 | slate's gray ramp has exactly the steps 0 through 9 |
| SlateTheme.SlateValues | src/themes/slate-theme.ts:4-44 | slate's name, background, primary, medium radius and medium glass blur are the literal values of the theme file |
| SlateTheme.SlateGrayMatchesRoles | src/themes/slate-theme.ts:7-27 | the first gray steps coincide with the background, surface/subtle-border and elevated/default-border roles |
| SlateTheme.SlateHasAllOptionalGroups | src/themes/slate-theme.ts:82-142 | slate defines glass, gradient, motion, typography, z-index and opacity |
| SlateTheme.SlateRolesNonEmpty | src/themes/slate-theme.ts:7-27 | every semantic color of slate is non-empty |
| SlateTheme.SlateBlurRamp | src/themes/slate-theme.ts:84 | slate's glass blur ramp is 12px, 20px, 28px, 36px |
| ThemeRegistry.AllThemes | src/themes/index.ts:31-33 | `Object.values(themes)` has nine entries, slate first and the default theme second |
| ThemeRegistry.IdsDistinct | src/themes/index.ts:13-23 | the nine registry keys are pairwise distinct |
| ThemeRegistry.ThemesAt | src/themes/index.ts:13-23 | position i of `Object.values` holds the theme stored under the i-th key |
| ThemeRegistry.ThemesKeys | src/themes/index.ts:13-23 | the registry's keys are exactly the nine ids |
| ThemeRegistry.GetTheme | src/themes/index.ts:27-29 | `getTheme(name)`: a registered name gives its own theme, any other name the default theme; the result is always one of the registered themes |
| ThemeRegistry.DefaultRegistered | src/themes/index.ts:25 | the default id is a key, so the fallback always finds a theme |
| ThemeRegistry.AllThemesMatchRegistry | src/themes/index.ts:31-33 | `getAllThemes()` lists exactly the registry's values, position i being `getTheme` of the i-th id |
| ThemeRegistry.SlateNameRoundTrip | src/themes/index.ts:14 | the name slate reports is its own key, so sending it back resolves to slate |
| ThemeRegistry.JsGetTheme | src/themes/index.ts:27-29 | the lookup as written: own keys win, an inherited `Object.prototype` member is returned instead of a theme, other names fall back to the default |
| ThemeRegistry.ToStringEscapesFallback | src/themes/index.ts:28 | `getTheme("toString")` as written yields a prototype function, not the default theme |
| ThemeRegistry.ReceiverSplit | src/themes/index.ts:27-29 | the twelve inherited names split into the four that return when called without a receiver and the eight that need one, with no name in both |
| ThemeProvider.UseTheme | src/lib/theme-provider.tsx:13-19 | `useTheme()` returns the context, and throws the "must be used within a ThemeProvider" error exactly when there is none |
| ThemeProvider.GrayNamesDistinct | src/lib/theme-provider.tsx:39-41 | distinct gray steps write distinct properties |
| ThemeProvider.AssignedByGroup | src/lib/theme-provider.tsx:39-155 | the write pass assigns gray steps and colors from the new theme; radius and fonts from the previous theme; and, for each optional group the new theme has, every glass token but the glow border and the xl shadow, every gradient, every duration and every easing but in-out, the typography line heights, letter spacings and weights, every z-index layer and every opacity step, each from the new theme |
| ThemeProvider.Sync | src/lib/theme-provider.tsx:30-157 | after one pass every property the pass assigns holds its assigned value (group by group in AssignedByGroup) and every other property keeps its old one |
| ThemeProvider.AbsentGroupsUntouched | src/lib/theme-provider.tsx:75-155 | an absent optional group leaves all of its properties as they were |
| ThemeProvider.UnpropagatedTokensUntouched | src/lib/theme-provider.tsx:75-125 | schema tokens the pass never writes (glass glow border, xl shadow, ease-in-out) and properties outside the schema are never changed |
| ThemeProvider.SyncIdempotent | src/lib/theme-provider.tsx:30-157 | running the pass twice with the same inputs is running it once |
| ThemeProvider.Resolve | src/lib/theme-provider.tsx:30-41 | the provider's `getTheme(name)`: a registered name, or any name that is not an inherited `Object.prototype` member, gives the `getTheme` theme; a prototype member yields a value without `colors` (a function, or `Object.prototype` itself for `__proto__`), and reading `colors.gray` throws the TypeError |
| ThemeProvider.InitialRender | src/lib/theme-provider.tsx:28 | `useState(getTheme(name))` on the first render: the render throws exactly for the eight inherited members that convert an undefined `this` to an object, with the conversion's TypeError rather than the `gray` one; every other name passes with the value `getTheme` returned |
| ThemeProvider.Mount | src/lib/theme-provider.tsx:26-41 | on mount both states come from the requested name and the effect runs once, so colors, radius and glass are all the requested theme's; an inherited member name throws instead, in the render with the receiver TypeError for the eight receiver-converting members and in the effect with the `gray` TypeError for the other four |
| ThemeProvider.SetTheme | src/lib/theme-provider.tsx:159-161 | `setTheme(name)` stores the raw name; the held name changes nothing; any other name runs one pass (lines 30-41) with the held theme as the previous one, or throws when it resolves to a prototype member |
| ThemeProvider.PrototypeNameThrows | src/lib/theme-provider.tsx:26-41 | switching to any inherited prototype name throws the TypeError reading `gray`; mounting on one throws that error for `constructor`, `toString`, `isPrototypeOf` and `__proto__`, and the receiver TypeError from the initializer for the other eight |
| ThemeProvider.MountFailurePoints | src/lib/theme-provider.tsx:26-41 | concrete witnesses: mounting on `valueOf` fails in the render, mounting on `toString` fails in the effect, and the two errors differ |
| ThemeProvider.RadiusLagsOneSwitch | src/lib/theme-provider.tsx:64-72 | after a switch the colors are the new theme's while radius and fonts are still the previous theme's |
| ThemeProvider.TwoSwitches | src/lib/theme-provider.tsx:64-72 | mount on a, switch to b, then to c: radius shows b's value while colors show c's |
| ThemeProvider.SetThemeIdempotent | src/lib/theme-provider.tsx:30 | setting the same name again after a successful switch changes nothing, because the effect is keyed on the name |
| ThemeProvider.UnknownNameKeptVerbatim | src/lib/theme-provider.tsx:159-161 | an unregistered name is stored as given with the default theme resolved, except an inherited prototype name, which throws |
| ThemeProvider.SlateResolves | src/lib/theme-provider.tsx:31 | the name "slate" resolves to slate's background, radius and glass blur |
| ThemeProvider.LandsAfterSwitch | src/lib/theme-provider.tsx:44-80 | after a switch the background and medium glass blur are the new theme's |
| ThemeProvider.SwitchToSlate | src/lib/theme-provider.tsx:44-80 | switching to slate writes slate's background and blur, while the radius keeps the previous theme's value |
| ThemeProvider.MountOnSlate | src/lib/theme-provider.tsx:64-65 | mounting on slate writes slate's own `--radius-md` |
| ThemeProvider.GlassSurvivesSwitch | src/lib/theme-provider.tsx:75-95 | leaving slate for a theme without glass keeps `--glass-blur-md` at slate's 20px |
| Pagination.ComputeWindow | src/components/ui/pagination.tsx:50-62 | the window never starts below page 1 or ends past the last page |
| Pagination.RunPages | src/components/ui/pagination.tsx:71-73 | the loop lists exactly the pages `lo..hi`, no "...", and forms a well-formed list |
| Pagination.WindowBounds | src/components/ui/pagination.tsx:50-62 | in range the window lies inside the page range and is empty only for two pages shown two at a time |
| Pagination.AssembleShape | src/components/ui/pagination.tsx:64-80 | the lead, run and trail form a list that starts at page 1, ends at the last page, and is well formed |
| Pagination.PagesInRange | src/components/ui/pagination.tsx:49-83 | every listed page lies in `[1, totalPages]`, for any current page and any window width |
| Pagination.PageListShape | src/components/ui/pagination.tsx:49-83 | in range the list starts at page 1, ends at the last page, consecutive pages are adjacent, and every "..." hides at least one page |
| Pagination.WellFormedIncreasing | src/components/ui/pagination.tsx:64-80 | a well-formed list has strictly increasing page numbers |
| Pagination.PagesIncrease | src/components/ui/pagination.tsx:49-83 | the listed pages strictly increase, so none repeats |
| Pagination.CurrentPageListed | src/components/ui/pagination.tsx:49-83 | with a window of three or more the current page is always listed |
| Pagination.CurrentPageMissedWithTwo | src/components/ui/pagination.tsx:49-83 | with a window of two, page 4 of 5 lists `1 ... 5` and leaves the current page out |
| Pagination.Disabled | src/components/ui/pagination.tsx:102-173 | first/previous are disabled exactly on page 1, next/last exactly on the last page, a page button exactly on the current page |
| Pagination.Click | src/components/ui/pagination.tsx:102-173 | an enabled button fires `onPageChange` once with its target, a page button with its own page; a disabled one fires nothing |
| Pagination.NavigationStaysInRange | src/components/ui/pagination.tsx:102-173 | from a page in range every button asks only for pages in range |
| Table.AlwaysControlled | src/components/ui/table.tsx:57-65 | the defaulted `selectedItems` makes every table controlled, so the displayed selection is the prop, empty when it is omitted |
| Table.HandleSort | src/components/ui/table.tsx:67-73 | nothing unless sortable; otherwise one `onSort` for that column, descending exactly when re-clicking the ascending column |
| Table.SortToggles | src/components/ui/table.tsx:67-73 | the first click on a column sorts ascending, and a parent echoing the sort makes the next click flip the direction |
| Table.HandleSelectAll | src/components/ui/table.tsx:75-84 | state unchanged; one callback with every row key (duplicates collapsed) when checked, or the empty set |
| Table.HandleSelectRow | src/components/ui/table.tsx:86-98 | one callback with the displayed selection plus or minus exactly that key |
| Table.SelectionFlagsExclusive | src/components/ui/table.tsx:100-102 | the header is never both checked and indeterminate, and an empty selection sets neither |
| Table.SelectAllChecksHeader | src/components/ui/table.tsx:75-102 | with distinct keys, echoing a checked select-all checks the header |
| Table.DuplicateKeysLeaveHeaderIndeterminate | src/components/ui/table.tsx:77-102 | two rows sharing a key collapse to one, so select-all leaves the header indeterminate |
| Accordion.OpenSetOf | src/components/ui/accordion.tsx:47-54 | the open set from `value`/`defaultValue`: an array's members, a truthy single id alone, else nothing; never duplicates |
| Accordion.Toggled | src/components/ui/accordion.tsx:56-68 | an open item closes leaving the rest; a closed item opens alongside the others when multiple, alone otherwise |
| Accordion.Emitted | src/components/ui/accordion.tsx:74-75 | `onValueChange` gets the open list when multiple, else the first open id or `''` |
| Accordion.ToggleItem | src/components/ui/accordion.tsx:56-76 | internal state follows only when uncontrolled; the callback always fires with the toggled set |
| Accordion.ToggleTwiceRestores | src/components/ui/accordion.tsx:56-68 | in multiple mode a toggle is a symmetric difference with `{id}`, so toggling twice restores the set |
| Accordion.SingleModeKeepsOneOpen | src/components/ui/accordion.tsx:64-67 | in single mode, from at most one open item, a toggle leaves at most one open |
| Accordion.UncontrolledStart | src/components/ui/accordion.tsx:47-49 | an uncontrolled accordion starts from `defaultValue`, and `''` opens nothing |
| Accordion.ControlledIgnoresClicks | src/components/ui/accordion.tsx:51-54 | a controlled accordion keeps showing `value`, whatever is clicked |
| Tree.ToggleExpand | src/components/ui/tree.tsx:36-46 | flips only `id`'s membership and fires `onCollapse` or `onExpand` matching the direction |
| Tree.ToggleTwice | src/components/ui/tree.tsx:36-46 | toggling twice restores the expanded set, after one expand and one collapse |
| Tree.ClickNode | src/components/ui/tree.tsx:95-101 | a disabled node does nothing; a node with children toggles then selects; a leaf only selects |
| Tree.Indent | src/components/ui/tree.tsx:108 | the padding is at least 8 pixels and 8 more than a multiple of 16, and it gives back the depth |
| Tree.IndentOrdersDepths | src/components/ui/tree.tsx:108 | a child is indented exactly 16 pixels past its parent, deeper rows sit strictly further right, and equal padding means equal depth |
| Tree.HiddenBelowCollapsed | src/components/ui/tree.tsx:135 | nothing below a collapsed ancestor is rendered |
| Tree.RowsAreExpandedPaths | src/components/ui/tree.tsx:135-152 | under expanded ancestors, the recursive rendering of a list equals the preorder of its nodes filtered to those whose every ancestor is expanded |
| Tree.NodeRowsAreExpandedPaths | src/components/ui/tree.tsx:135-152 | the same for one node and its subtree, under expanded ancestors |
| Tree.RenderedRows | src/components/ui/tree.tsx:54-66 | from the roots, a node is rendered exactly when all its ancestors are expanded, in preorder, at its depth's indent |
| OtpInput.Split | src/components/ui/otp-input.tsx:60 | `value.split('')` gives one one-character string per character |
| OtpInput.Assign | src/components/ui/otp-input.tsx:64-75 | assigning past the end grows the array to `index + 1` |
| OtpInput.ConcatSplit | src/components/ui/otp-input.tsx:60-78 | `split('')` then `join('')` gives the string back |
| OtpInput.WriteBox | src/components/ui/otp-input.tsx:60-78 | writing a character or `''` into box `index` replaces or removes that character inside the value, and appends or does nothing past its end |
| OtpInput.HandleChange | src/components/ui/otp-input.tsx:54-90 | input failing the pattern does nothing; otherwise state follows only when uncontrolled, and the effects are one focus move when the neighbour exists (the next box after typing before the last box, the previous box after clearing a filled box past the first) and none otherwise, then `onChange` with the new value, then `onComplete` exactly when it is `length` long |
| OtpInput.TypedValue | src/components/ui/otp-input.tsx:60-78 | the new value is the old one with the box's character replaced by the typed first character (or removed), cut to `length` |
| OtpInput.KeystrokeMovesLengthByOne | src/components/ui/otp-input.tsx:54-78 | one keystroke moves the length by at most one, stays within `length`, and keeps the value all digits |
| OtpInput.HandleKeyDown | src/components/ui/otp-input.tsx:92-100 | backspace on an empty box focuses the previous box; arrows move while a neighbour exists; focus never leaves the boxes |
| OtpInput.ChangeFocusInRange | src/components/ui/otp-input.tsx:66-74 | focus moves after typing or clearing stay within the boxes |
| OtpInput.HandlePaste | src/components/ui/otp-input.tsx:102-118 | the first `length` characters are accepted only if all digits, reported, and complete exactly at full length |
| OtpInput.TruncateEffect | src/components/ui/otp-input.tsx:125-133 | an over-long value is cut to `length` and reported; a short one is left alone |
| OtpInput.TruncateSettles | src/components/ui/otp-input.tsx:125-133 | once truncated, an uncontrolled value fires the effect no more |
| FileUpload.ValidateFile | src/components/ui/file-upload.tsx:50-56 | a file passes exactly when there is no size limit or it fits, else the size message names it |
| FileUpload.ValidateAll | src/components/ui/file-upload.tsx:67-71 | the loop keeps exactly the valid files, and any error it leaves comes from an incoming file |
| FileUpload.HandleFiles | src/components/ui/file-upload.tsx:58-79 | too many files: only the count message is set; otherwise the callback fires exactly when a file is valid, with the list appended (multiple) or replaced (single) and the error cleared |
| FileUpload.AcceptedBatchWithinLimits | src/components/ui/file-upload.tsx:62-78 | after an accepted batch the list respects the count limit and each new file the size limit |
| FileUpload.SingleModeCannotReplaceAtLimit | src/components/ui/file-upload.tsx:62-65 | a single-file picker at a one-file limit refuses a replacement, because the count adds the file being replaced |
| FileUpload.DragOver | src/components/ui/file-upload.tsx:81-86 | dragging over shows the drag state unless disabled, and changes nothing else |
| FileUpload.DragLeave | src/components/ui/file-upload.tsx:88-91 | leaving the zone clears the drag state, disabled or not, and keeps the files and the error |
| FileUpload.DragOverThenLeave | src/components/ui/file-upload.tsx:81-91 | dragging over and back out restores the zone; over an enabled zone the drag state shows in between |
| FileUpload.Drop | src/components/ui/file-upload.tsx:93-100 | a drop clears the drag state and hands the files to `handleFiles` unless disabled |
| FileUpload.FilterOutIndex | src/components/ui/file-upload.tsx:109 | `filter((_, i) => i !== index)` removes exactly that position when it exists, else keeps everything |
| FileUpload.RemoveFile | src/components/ui/file-upload.tsx:108-112 | drops exactly position `index`, keeps the others in order, and reports the new list |
| TimePicker.Init | src/components/ui/time-picker.tsx:40-42 | initial state: midnight shows as 12 through `\|\|`, and the period is `pm` for no value or any non-zero hour |
| TimePicker.ValueEffect | src/components/ui/time-picker.tsx:45-51 | a present value sets hour and period so that the 12-hour face converts back to the value's hour, and sets its minute; no value changes nothing; the popover is untouched |
| TimePicker.MountRepairsPeriod | src/components/ui/time-picker.tsx:42-51 | for a morning value the initial period is wrong (`pm`) and the mount effect sets `am` |
| TimePicker.Display12 | src/components/ui/time-picker.tsx:56 | `h % 12 \|\| 12` lies in 1..12 |
| TimePicker.To24Bijective | src/components/ui/time-picker.tsx:65 | the 12-to-24 conversion is a bijection from 1..12 and a period onto 0..23, inverse to the 12-hour face |
| TimePicker.TwoDigits | src/components/ui/time-picker.tsx:57-59 | a padded number below 100 is two digits and reads back as itself |
| TimePicker.Format24RoundTrip | src/components/ui/time-picker.tsx:59 | the 24-hour label is `HH:MM` and reads back as the same hour and minute |
| TimePicker.Format12Shape | src/components/ui/time-picker.tsx:54-57 | the 12-hour label shows an hour in 1..12, two-digit minutes that read back, and `pm` exactly from noon |
| TimePicker.Hours | src/components/ui/time-picker.tsx:93-95 | the hour buttons are 1..12 on a 12-hour face, 0..23 otherwise |
| TimePicker.Minutes | src/components/ui/time-picker.tsx:97 | the minute buttons are 0..59 |
| TimePicker.ExactlyOneHourHighlighted | src/components/ui/time-picker.tsx:154 | for every held hour exactly one hour button is highlighted |
| TimePicker.SetHours | src/components/ui/time-picker.tsx:68-72 | `setHours(h)` on today keeps 0..23 on today and rolls larger hours into following days |
| TimePicker.FinalHour | src/components/ui/time-picker.tsx:63-66 | the hour Apply evidently means: the shown 12-hour value on the chosen period |
| TimePicker.FinalHourAsWritten | src/components/ui/time-picker.tsx:63-66 | Apply as written: a 24-hour face keeps the held hour; a held 1..12 on a 12-hour face becomes the hour it shows on the period; a held 13..23 on `pm` becomes 12 more, past the day's end |
| TimePicker.ApplyAsWrittenSkipsADay | src/components/ui/time-picker.tsx:47-69 | as written, 15:00 on a 12-hour face becomes hour 27, i.e. 03:00 the next day |
| TimePicker.HandleTimeSelect | src/components/ui/time-picker.tsx:62-76 | corrected Apply: emits one time of today with seconds and milliseconds zeroed, the chosen minute, and closes |
| TimePicker.ApplyUnchangedKeepsValue | src/components/ui/time-picker.tsx:45-76 | corrected Apply: opening on a value and pressing Apply re-emits that same time on either face |
| TimePicker.ApplyPickedHour | src/components/ui/time-picker.tsx:62-72 | corrected Apply: picking hour `h` and a period then Apply emits `h` on that period, today |
| DatePicker.Cell | src/components/ui/date-picker.tsx:86-91 | every grid cell is a valid date |
| DatePicker.Grid | src/components/ui/date-picker.tsx:74-95 | `getDaysInMonth` yields only valid dates |
| DatePicker.MakeDateNear | src/components/ui/date-picker.tsx:78-86 | `new Date(y, m + k, d)` for `k` in -1..1 is normalisation within the neighbouring month |
| DatePicker.MonthLengthIsDaysInMonth | src/components/ui/date-picker.tsx:78-79 | `new Date(y, m + 1, 0).getDate()` is the length of month `m` |
| DatePicker.GridAt | src/components/ui/date-picker.tsx:85-92 | the grid has `startDayOfWeek + daysInMonth` cells: leading dates `1 - start + i`, then days `1..n` |
| DatePicker.GridLength | src/components/ui/date-picker.tsx:74-95 | the grid holds 28 to 37 cells |
| DatePicker.CellDayNumber | src/components/ui/date-picker.tsx:85-92 | cell `i` lies `i - start` days after the first of the month |
| DatePicker.GridConsecutive | src/components/ui/date-picker.tsx:85-92 | the cells are consecutive days |
| DatePicker.GridStartsOnSunday | src/components/ui/date-picker.tsx:80-87 | the first cell is a Sunday, matching the `Su`-first header row |
| DatePicker.GridMonthDays | src/components/ui/date-picker.tsx:90-92 | after the leading cells come days 1..n of the shown month in order |
| DatePicker.GridLeadingCells | src/components/ui/date-picker.tsx:85-87 | the leading cells are the last days of the previous month |
| DatePicker.LeadingCellInPreviousMonth | src/components/ui/date-picker.tsx:86 | a day between -5 and 0 normalises into the previous month |
| DatePicker.SameDayIsSameDayNumber | src/components/ui/date-picker.tsx:97-103 | same-day is reflexive and symmetric, and on valid dates means equal day numbers |
| DatePicker.IsSelected | src/components/ui/date-picker.tsx:109-111 | false with no value, otherwise same-day with the value |
| DatePicker.CellBeforeMin | src/components/ui/date-picker.tsx:113-114 | a midnight cell is before `minDate` exactly when its day is earlier, or the same day with `minDate` past midnight |
| DatePicker.LeadingCellsDisabled | src/components/ui/date-picker.tsx:211-217 | leading cells are never clickable |
| DatePicker.HandleDateSelect | src/components/ui/date-picker.tsx:52-57 | emits `onChange` and closes exactly when the date is within bounds; otherwise nothing |
| DatePicker.ClickEnabledCell | src/components/ui/date-picker.tsx:210-217 | clicking an enabled cell selects that day of the shown month at midnight and closes |
| DatePicker.ToggleOpen | src/components/ui/date-picker.tsx:133 | the trigger flips the popover and keeps the shown month |
| DatePicker.NavigationSteps | src/components/ui/date-picker.tsx:167-186 | when the day exists in the adjacent month, prev/next land on the same day there |
| DatePicker.NextSkipsShortMonth | src/components/ui/date-picker.tsx:183-186 | from a day the next month lacks, next overflows into the month after |
| DatePicker.NextFromJanuary31 | src/components/ui/date-picker.tsx:183-186 | 31 January 2023 goes to 3 March; 31 January 2024 to 2 March |
| Stepper.StepStatus | src/components/ui/stepper.tsx:52-56 | complete before the current step, current at it, pending after |
| Stepper.EffectiveStatus | src/components/ui/stepper.tsx:70 | an explicit status wins over the computed one |
| Stepper.ExactlyOneCurrent | src/components/ui/stepper.tsx:52-56 | exactly one step is computed current when `currentStep` indexes a step, none otherwise |
| Stepper.HandleStepClick | src/components/ui/stepper.tsx:58-62 | `onStepClick(index)` fires exactly when clickable and before the current step |
| Stepper.ClickForwardedIffEnabled | src/components/ui/stepper.tsx:58-71 | the button is enabled exactly when the handler forwards the click |
| Stepper.OverrideDoesNotEnableClick | src/components/ui/stepper.tsx:70-71 | an explicit `complete` at or after the current step shows a check but stays unclickable |
| Stepper.ConnectorAfter | src/components/ui/stepper.tsx:116-120 | a connector follows a step only in horizontal layout and not after the last; it is the primary line exactly when the step is complete |
| Stepper.IndicatorContent | src/components/ui/stepper.tsx:164-177 | a check when complete, else the icon if any, else the number `index + 1` |
| Stepper.NumbersArePositions | src/components/ui/stepper.tsx:164-177 | a step without icon that is not complete shows its position counted from one |
| Toast.ShowToast | src/components/ui/toast.tsx:142-149 | appends the toast and keeps the last `maxToasts`; a limit of 0 keeps all, a negative one drops that many from the front; returns the id |
| Toast.Ids | src/components/ui/toast.tsx:109-112 | the queue's ids in order |
| Toast.ShowKeepsBound | src/components/ui/toast.tsx:144-147 | with a positive limit the queue never exceeds it, the new toast is last, and a full queue evicts exactly its oldest entry |
| Toast.ZeroLimitKeepsAll | src/components/ui/toast.tsx:146 | `slice(-0)` keeps every toast |
| Toast.RemoveToast | src/components/ui/toast.tsx:151-153 | every entry with that id goes; the others stay, and the result is never longer |
| Toast.RemoveToastAppend | src/components/ui/toast.tsx:151-153 | removal works entry by entry over a concatenation, so the survivors keep their order and repetitions |
| Toast.RemoveAbsent | src/components/ui/toast.tsx:151-153 | removing an absent id changes nothing |
| Toast.ShowThenRemove | src/components/ui/toast.tsx:142-153 | showing a fresh id while there is room, then removing it, restores the queue |
| Toast.ProviderDispatch | src/components/ui/toast.tsx:170 | the provider answers `onClose` with `removeToast` of that toast's id |
| Toast.CloseRemovesFromQueue | src/components/ui/toast.tsx:59-62 | closing a provider-rendered toast removes its id from the queue and keeps the others |
| Toast.UseToast | src/components/ui/toast.tsx:121-127 | the context, or the "must be used within a ToastProvider" error |
| FirstTimeUse.HandleNext | src/components/patterns/first-time-use.tsx:42-55 | throws exactly off the steps; otherwise runs the step's action if it has label and handler, then advances, or completes on the last step |
| FirstTimeUse.HandlePrevious | src/components/patterns/first-time-use.tsx:57-61 | steps back unless on the first step |
| FirstTimeUse.JumpTo | src/components/patterns/first-time-use.tsx:141 | a dot click jumps to its step, always a valid one |
| FirstTimeUse.CursorStaysInRange | src/components/patterns/first-time-use.tsx:45-61 | every move keeps the cursor on a step, so the flow never throws once started on one |
| FirstTimeUse.NoStepsThrows | src/components/patterns/first-time-use.tsx:40-42 | with no steps the first render reads `steps[0]` and throws |
| FirstTimeUse.NextWalksToTheEnd | src/components/patterns/first-time-use.tsx:50-54 | next stays put and completes exactly on the last step |
| FirstTimeUse.PrimaryLabel | src/components/patterns/first-time-use.tsx:129-131 | the complete label on the last step, else the step's action label, else the next label |
| FirstTimeUse.ButtonsMatchHandlers | src/components/patterns/first-time-use.tsx:115-131 | Previous shows exactly when it moves; the complete label shows exactly when next completes; Skip shows only where next advances |
| FirstTimeUse.DotState | src/components/patterns/first-time-use.tsx:144-148 | a dot is active, visited or upcoming exactly as its index equals, precedes or follows the current step |
| SearchFilter.Keys | src/components/patterns/search-filter-pattern.tsx:121 | a record's keys, one per entry |
| SearchFilter.Get | src/components/patterns/search-filter-pattern.tsx:58 | `r[key]` is defined exactly for present keys |
| SearchFilter.Put | src/components/patterns/search-filter-pattern.tsx:63 | `{ ...r, [key]: v }` sets that key, keeps every other, and appends a new key last (for group ids that are not integer-like, see Left out) |
| SearchFilter.Toggle | src/components/patterns/search-filter-pattern.tsx:59-61 | a present value is removed everywhere, an absent one appended |
| SearchFilter.ToggleTwice | src/components/patterns/search-filter-pattern.tsx:59-61 | toggling twice restores which values are chosen |
| SearchFilter.TypingKeepsFilters | src/components/patterns/search-filter-pattern.tsx:51-68 | typing stores and reports the query only: every checkbox and the badge stay, and a later filter toggle reports the same filters as without the typing |
| SearchFilter.HandleFilterChange | src/components/patterns/search-filter-pattern.tsx:56-68 | both maps become the updated record, which is reported; only that group changes, by one toggle |
| SearchFilter.FilterChangeFlipsOne | src/components/patterns/search-filter-pattern.tsx:56-68 | a toggle flips exactly that value in that group |
| SearchFilter.FilterChangeTwice | src/components/patterns/search-filter-pattern.tsx:56-68 | toggling the same value twice restores every group's choices |
| SearchFilter.ClearAllFilters | src/components/patterns/search-filter-pattern.tsx:70-74 | both maps empty, `{}` reported, nothing chosen, query kept |
| SearchFilter.FlatIsChosen | src/components/patterns/search-filter-pattern.tsx:118-132 | a chip shows for a value exactly when some group has it chosen |
| SearchFilter.CountIsTotal | src/components/patterns/search-filter-pattern.tsx:76 | `Object.values(...).flat().length` counts every chosen value, duplicates included |
| SearchFilter.PutCount | src/components/patterns/search-filter-pattern.tsx:63-76 | setting a key changes the count by the change in that key's list length |
| SearchFilter.CountAfterToggle | src/components/patterns/search-filter-pattern.tsx:56-76 | choosing a new value raises the badge by one; clearing sets it to zero |
| SearchFilter.OptionValue | src/components/patterns/search-filter-pattern.tsx:179-180 | `option.value \|\| option.id` |
| SearchFilter.CheckboxFlips | src/components/patterns/search-filter-pattern.tsx:177-180 | a checkbox click flips that box and leaves other groups' boxes alone |
| SearchFilter.ChipRemoves | src/components/patterns/search-filter-pattern.tsx:131-132 | a chip's remove button unchooses its value |
| BulkAction.HandleSelectAll | src/components/patterns/bulk-action-pattern.tsx:36-42 | every item id (duplicates collapsed) when checked, else nothing; reported |
| BulkAction.HandleSelectItem | src/components/patterns/bulk-action-pattern.tsx:44-53 | only `id` is added or deleted; a new id goes last; reported |
| BulkAction.CheckUncheckRestores | src/components/patterns/bulk-action-pattern.tsx:44-53 | checking then unchecking an unselected item restores the selection exactly |
| BulkAction.SelectionFlagsExclusive | src/components/patterns/bulk-action-pattern.tsx:60-61 | the header is never both checked and indeterminate |
| BulkAction.SelectAllThenClear | src/components/patterns/bulk-action-pattern.tsx:36-61 | with distinct ids select-all checks the header and clearing resets both flags |
| BulkAction.StaleSelectionReadsAsAll | src/components/patterns/bulk-action-pattern.tsx:60 | the flags compare sizes only: a stale selected id can make the header read "all" while an item is unselected |
| BulkAction.CheckedItemReachesActions | src/components/patterns/bulk-action-pattern.tsx:44-84 | after checking an item the bar shows and any action receives it |
| FormPattern.HandleChange | src/components/patterns/form-pattern.tsx:47-53 | stores the value; a showing error of that field is blanked, others kept |
| FormPattern.ChangeIsLocal | src/components/patterns/form-pattern.tsx:47-53 | typing touches no other field's value or error, and leaves its own error hidden |
| FormPattern.Find | src/components/patterns/form-pattern.tsx:58 | `fields.find` returns a field with that name, and none exactly when no field has it |
| FormPattern.HandleBlur | src/components/patterns/form-pattern.tsx:55-62 | marks the field touched and flags it exactly when required and empty |
| FormPattern.Validate | src/components/patterns/form-pattern.tsx:68-73 | the error keys are exactly the required empty fields, each with a "is required" message of a field of that name |
| FormPattern.HandleSubmit | src/components/patterns/form-pattern.tsx:64-82 | with a missing required field: errors replaced, every field touched, nothing submitted; otherwise `onSubmit` with the values |
| FormPattern.SubmitIffComplete | src/components/patterns/form-pattern.tsx:64-82 | `onSubmit` fires exactly when every required field is filled |
| FormPattern.RejectedSubmitShowsErrors | src/components/patterns/form-pattern.tsx:75-121 | after a rejected submit each empty required field shows its error, which typing hides |
| CrudPattern.Filter | src/components/patterns/crud-pattern.tsx:61-67 | keeps exactly the items with a truthy field whose lowercased text contains the lowercased query, in order |
| CrudPattern.FilterAppend | src/components/patterns/crud-pattern.tsx:61-67 | filtering distributes over concatenation |
| CrudPattern.FilteredData | src/components/patterns/crud-pattern.tsx:58-68 | an empty query lists everything, otherwise exactly the matching items |
| CrudPattern.MatchesPrefix | src/components/patterns/crud-pattern.tsx:64-65 | an item matching a query matches every prefix of it |
| CrudPattern.FilterNarrows | src/components/patterns/crud-pattern.tsx:61-67 | filtering by a longer query equals filtering the shorter query's results by it |
| CrudPattern.ExtendingQueryNarrows | src/components/patterns/crud-pattern.tsx:58-68 | typing more only narrows the list |
| CrudPattern.FilterLowerQuery | src/components/patterns/crud-pattern.tsx:65 | lowercasing the query first changes no result |
| CrudPattern.SearchIgnoresCase | src/components/patterns/crud-pattern.tsx:58-68 | the search ignores the case of ASCII letters in the query |
| CrudPattern.ZeroIsNeverFound | src/components/patterns/crud-pattern.tsx:64 | falsy fields are never searched: number 0 is not found by "0", the string "0" is |
| CrudPattern.SetQuery | src/components/patterns/crud-pattern.tsx:151 | the search box stores the query and nothing else |
| CrudPattern.HandleDelete | src/components/patterns/crud-pattern.tsx:70-73 | records the item and opens the dialog |
| CrudPattern.ConfirmDelete | src/components/patterns/crud-pattern.tsx:75-81 | with an item recorded: reports it when `onDelete` is given, closes and forgets; otherwise nothing |
| CrudPattern.CancelDelete | src/components/patterns/crud-pattern.tsx:174 | closes the dialog only; the recorded item stays |
| CrudPattern.DeleteConfirmedOnce | src/components/patterns/crud-pattern.tsx:70-81 | delete then confirm reports exactly that item once; a second confirm does nothing |
| CrudPattern.CancelThenDeleteOther | src/components/patterns/crud-pattern.tsx:70-81 | after a cancel the next delete replaces the recorded item, and confirming reports only the new one |
| CrudPattern.ActionButtons | src/components/patterns/crud-pattern.tsx:83-124 | view, edit and delete buttons appear exactly when their callbacks are given, each once |
| CrudPattern.ClickAction | src/components/patterns/crud-pattern.tsx:88-115 | view and edit report the item; delete only opens the dialog |
| CrudPattern.DeleteNeedsConfirmation | src/components/patterns/crud-pattern.tsx:111-115 | no row button deletes by itself; the confirmation then reports that row's item |
| CrudPattern.ClickCreate | src/components/patterns/crud-pattern.tsx:140-141 | the header's create button reports `onCreate` and changes no state |
| CrudPattern.CreateOnlyFromHeader | src/components/patterns/crud-pattern.tsx:140-141 | `onCreate` comes only from the header button, which exists exactly when the callback is given; no row button or delete confirmation reports it |
| CrudPattern.TableColumns | src/components/patterns/crud-pattern.tsx:158 | the caller's columns in order, then the actions column |
| GlassUtils.Resolve | src/lib/glass-utils.tsx:41-47 | the defaults: `default` variant, `md` blur, border on, shadow off, light mode |
| GlassUtils.ResolveExplicit | src/lib/glass-utils.tsx:41-47 | fully specified options resolve to themselves |
| GlassUtils.BlurName | src/lib/glass-utils.tsx:6 | a blur step's name is two characters |
| GlassUtils.BlurClass | src/lib/glass-utils.tsx:52-57 | every blur class is 16 characters long |
| GlassUtils.BlurClassInjective | src/lib/glass-utils.tsx:52-57 | distinct steps give distinct blur classes |
| GlassUtils.VariantClasses | src/lib/glass-utils.tsx:19-35 | each variant's entry opens with its own intrinsic blur class and a space, in the light and the dark table |
| GlassUtils.VariantEntriesDistinct | src/lib/glass-utils.tsx:19-35 | within one table two variants share an entry only when they are the same variant |
| GlassUtils.ClassParts | src/lib/glass-utils.tsx:59-68 | `relative`, the blur class, the variant classes, then the border and shadow classes when enabled |
| GlassUtils.NonEmptyThenOptional | src/lib/glass-utils.tsx:62-69 | `filter(Boolean)` over three present parts and two optional ones keeps the present ones in order |
| GlassUtils.GlassClasses | src/lib/glass-utils.tsx:40-71 | `getGlassClasses` is the resolved parts joined with single spaces |
| GlassUtils.BlurOptionMeetsVariant | src/lib/glass-utils.tsx:49-57 | the blur option's class equals the variant's own blur class exactly when the option is the variant's blur, as with the defaults |
| GlassUtils.BlurPx | src/lib/glass-utils.tsx:79 | the pixel radius is a multiple of 4 between 12 and 36 |
| GlassUtils.BlurPxIncreasing | src/lib/glass-utils.tsx:79 | the radius grows strictly with the blur step and determines it |
| GlassUtils.BackdropFilter | src/lib/glass-utils.tsx:87 | the filter string starts with `blur(` |
| GlassUtils.BackdropFilterDecodes | src/lib/glass-utils.tsx:87-88 | different blur steps give different filter strings |
| GlassUtils.GlassStyles | src/lib/glass-utils.tsx:76-94 | both filter spellings carry the same filter, the background follows variant and mode, and the borders are fixed |
| GlassUtils.PxTexts | src/lib/glass-utils.tsx:79 | the radii print as 12px, 20px, 28px, 36px |
| GlassUtils.SlateBlurTokensMatch | src/lib/glass-utils.tsx:79 | the inline-style radii equal slate's glass blur tokens step for step |
| GlassUtils.WithGlassClassName | src/lib/glass-utils.tsx:111-121 | the variant prop, else a truthy default variant, else `default`; then the glass classes, one space, and the class name or nothing |
| GlassUtils.WithGlassAppends | src/lib/glass-utils.tsx:116-119 | a non-empty class name is appended as one more part; without one the string ends in a stray space |
| GlassUtils.Responsive | src/lib/glass-utils.tsx:155-159 | each breakpoint's blur is its variant's own blur |
| GlassUtils.ResponsiveBlurGrows | src/lib/glass-utils.tsx:155-159 | wider screens get strictly more blur: 12, 20, 28 pixels |
| GradientUtils.PresetOf | src/lib/gradient-utils.tsx:38-79 | only mesh-sunset lacks colors, and a preset has colors exactly when it has an angle |
| GradientUtils.DirectionToAngle | src/lib/gradient-utils.tsx:84-93 | every direction maps to a multiple of 45 in 0..315 |
| GradientUtils.AnglesDistinctAndOpposed | src/lib/gradient-utils.tsx:84-93 | the eight angles are distinct and opposite directions lie half a turn apart |
| GradientUtils.VariantClass | src/lib/gradient-utils.tsx:103-112 | every variant class starts with `gradient-` |
| GradientUtils.GradientClassParts | src/lib/gradient-utils.tsx:98-117 | `gradient-base`, the variant's class (primary by default), then `gradient-animated` when animated |
| GradientUtils.GradientClasses | src/lib/gradient-utils.tsx:117 | the parts joined with single spaces |
| GradientUtils.AnimatedVariantRepeatsClass | src/lib/gradient-utils.tsx:110-115 | the animated variant with `animated: true` lists `gradient-animated` twice |
| GradientUtils.LinearGradient | src/lib/gradient-utils.tsx:149-154 | the string starts with `linear-gradient(` and ends with `)` |
| GradientUtils.LinearGradientDecodes | src/lib/gradient-utils.tsx:153 | equal linear gradients have equal angles and equal joined colour lists |
| GradientUtils.SplitAtMarker | src/lib/gradient-utils.tsx:153 | a marker-free head followed by the marker splits uniquely |
| GradientUtils.CreateLinearGradient | src/lib/gradient-utils.tsx:149-154 | an explicit angle is used as given |
| GradientUtils.CreateRadialGradient | src/lib/gradient-utils.tsx:159-165 | the string starts with `radial-gradient(` and ends with `)` |
| GradientUtils.CreateConicGradient | src/lib/gradient-utils.tsx:170-176 | the string starts with `conic-gradient(from ` and ends with `)` |
| GradientUtils.BuilderDefaults | src/lib/gradient-utils.tsx:149-176 | omitted arguments equal their defaults: 135 degrees; circle at center; 0 degrees at center |
| GradientUtils.PrimaryPresetIsLinear | src/lib/gradient-utils.tsx:44-48 | the primary preset's background is the linear gradient of its colours at 0% and 100% at its angle |
| GradientUtils.MeshLayers | src/lib/gradient-utils.tsx:188-191 | one layer per stop, in order |
| GradientUtils.CreateMeshGradient | src/lib/gradient-utils.tsx:181-194 | no stops give `""`, one stop gives its layer alone |
| GradientUtils.MeshLayersAppend | src/lib/gradient-utils.tsx:188-191 | layers of a concatenation concatenate |
| GradientUtils.MeshConcat | src/lib/gradient-utils.tsx:181-194 | the mesh of two non-empty stop lists is the two meshes comma-separated |
| GradientUtils.StyleAngle | src/lib/gradient-utils.tsx:128 | an explicit angle (0 included), else the direction's angle, else 135 |
| GradientUtils.GradientBackground | src/lib/gradient-utils.tsx:123-144 | non-empty colours give a linear gradient at the style angle; otherwise the variant's preset, with `custom` falling back to primary |
| GradientUtils.TextGradientStyles | src/lib/gradient-utils.tsx:243-263 | colours, else a non-custom variant's preset, else white to grey at the angle; text clip and transparent fill always |
| GradientUtils.TextMatchesBox | src/lib/gradient-utils.tsx:123-263 | without colours, the text style and the box style use the same preset background for every non-custom variant |
| GradientUtils.TextFallbackIsNotPrimary | src/lib/gradient-utils.tsx:123-263 | with neither colours nor a variant, the text falls back to a stop-less white-to-grey gradient that differs from the primary preset the box uses |
| GradientUtils.GradientAnimation | src/lib/gradient-utils.tsx:230-232 | `gradient-` followed by the type, `gradient-flow` by default |
| GradientUtils.MeshAnimationIsMeshClass | src/lib/gradient-utils.tsx:103-232 | the mesh animation class is the mesh-sunset variant's class, `gradient-mesh` |

## Left out

- Markup, class strings for styling variants (`cva` tables such as `toastVariants`, `positionClasses`), animation props and icons: they have no behaviour.
- Clocks and timers: "today" for the time picker and `isToday`, the toast auto-dismiss timer (only `AutoDismisses` records when one is set), click-outside listeners and focus effects.
- `Math.random` toast ids: the caller supplies the id.
- Time zones and daylight saving: a `Date` is a civil date plus milliseconds since midnight; invalid dates (`NaN`) are not modelled.
- Floating point: the first-time-use progress percentage and the CRUD/search result-count labels are not modelled; gradient angles are integers.
- `formatBytes`, `formatDate` and `toLocaleDateString`: locale formatting is outside the model.
- `supportsBackdropFilter` (a DOM probe), `getGlassFallback` and `withGradient`: not modelled; `withGlass` is modelled only for the class name it passes down.
- `gradientPalettes` and the `gradientAnimations` keyframe text: constant data with no behaviour.
- The glass `liquid` entry of the light variant table: no `GlassVariant` selects it.
- GradientUtils.PresetOf: the mesh-sunset and animated preset strings are stated through their shape only; only the primary preset is proved equal to its builder call.
- CrudPattern: object-valued fields are not modelled (the search sees strings, integers, booleans, `null` and `undefined`); the unused `selectedItems` state is left out.
- The eight themes other than slate are not part of this model: the registry is parameterised by a catalog of abstract themes, and only slate's values are concrete.
- React's batching and strict-mode double invocation of state updaters: each handler is one atomic transition.
- ThemeProvider.InitialRender: the receiver TypeError carries V8's wording for converting `undefined` to an object; V8 words the `toLocaleString` case differently, and the model does not distinguish the engines' texts, only that it is not the `gray` error. What the initializer returns for the four receiver-free names is not stored, since the effect looks the name up again.
- ThemeProvider.SetTheme: the TypeError a prototype-member name raises is returned as `Thrown`; what React does with an error thrown in an effect (unmounting the tree) is not modelled.
- SearchFilter.Get: a group id that names an inherited `Object.prototype` member (`constructor`, `toString`) is treated as absent, whereas `prev[groupId] || []` as written would read the inherited function; group ids are assumed to be plain ids.
- SearchFilter.Put: a new group id is appended after the existing keys; JavaScript lists integer-like keys ("1", "42") first in ascending order, so with such ids the key order, and with it the chip order from `Object.values(...).flat()`, differs. Group ids are assumed not to be integer-like.
- FormPattern.Validate: a field named after an inherited `Object.prototype` member counts as empty when it has no value, whereas `!formData[name]` as written sees the inherited function as filled; field names are assumed to be plain names.
- Js.LowerChar: only the ASCII capitals A..Z are lowercased; `toLowerCase` also maps every other Unicode capital ('Ä' to 'ä'), which the model leaves unchanged.
- Js.Lower: ASCII only, as for Js.LowerChar.
- Optional callbacks: in OtpInput, FileUpload, FirstTimeUse, SearchFilter, BulkAction, Table, Accordion, Pagination, TimePicker and DatePicker a handler's callback is recorded whether or not the prop was passed; with the prop absent `?.()` calls nothing, so the recorded list means "what would be called".
- OtpInput.HandleChange: the `pattern` prop is fixed to its default `/^[0-9]*$/`; a caller-supplied pattern is not modelled.
- Calendar.MakeDate: `new Date(y, m, d)` maps years 0..99 to 1900 + y; the model takes every year as given. The components only pass years read back from existing dates.
- Toast.ShowToast: `maxToasts` is any integer; the negative case follows `slice` exactly but has no further lemma.

## Findings

| source | as written | input that shows it | evidently intended | confidence | as-written member | corrected member |
|---|---|---|---|---|---|---|
| src/themes/index.ts:28 | `themes[name] \|\| themes[defaultTheme]` on a plain object: inherited `Object.prototype` members are truthy and escape the fallback | `getTheme("toString")` returns a function, not a theme | any unregistered name falls back to the default theme | high, not executed | ThemeRegistry.JsGetTheme (shown by ThemeRegistry.ToStringEscapesFallback; in the provider, ThemeProvider.PrototypeNameThrows) | ThemeRegistry.GetTheme |
| src/components/ui/time-picker.tsx:47,65 | the effect stores `getHours()` (0..23) in `hour`, and Apply adds 12 again for `pm` on a 12-hour face | value 15:00, `hour12`, press Apply: `setHours(27)` emits 03:00 the next day | Apply re-emits the shown time: 15:00 today | high, not executed | TimePicker.FinalHourAsWritten (shown by TimePicker.ApplyAsWrittenSkipsADay) | TimePicker.FinalHour (with TimePicker.HandleTimeSelect, TimePicker.ApplyUnchangedKeepsValue) |

=== FILE: accordion.dfy ===
/**
 The accordion's open set. `value` and `defaultValue` are either a single id
 or a list of ids; the open set is an insertion-ordered `Set<string>`.
 */
module Accordion {
  import opened Js

  datatype Value = Single(id: string) | Many(ids: seq<string>)

  datatype AccordionProps = AccordionProps(
    multiple: bool,
    defaultValue: Option<Value>,
    value: Option<Value>)

  datatype AccordionState = AccordionState(internalOpen: seq<string>)

  /** `new Set(Array.isArray(v) ? v : v ? [v] : [])`. */
  function OpenSetOf(v: Option<Value>): (r: seq<string>)
    ensures NoDup(r)
    ensures v.Some? && v.value.Many? ==> forall x :: x in r <==> x in v.value.ids
    ensures v.Some? && v.value.Single? ==> r == if v.value.id != "" then [v.value.id] else []
    ensures v.None? ==> r == []
  {
    if v.None? then []
    else match v.value
      case Many(ids) => SetOf(ids)
      case Single(id) => if id != "" then [id] else []
  }

  function Init(p: AccordionProps): AccordionState
  {
    AccordionState(OpenSetOf(p.defaultValue))
  }

  function IsControlled(p: AccordionProps): bool
  {
    p.value.Some?
  }

  /** The open set the accordion renders: derived from `value` when controlled. */
  function OpenItems(p: AccordionProps, st: AccordionState): seq<string>
  {
    if IsControlled(p) then OpenSetOf(p.value) else st.internalOpen
  }

  predicate Valid(st: AccordionState)
  {
    NoDup(st.internalOpen)
  }

  /** The new open set after clicking `id`. */
  function Toggled(multiple: bool, open: seq<string>, id: string): (r: seq<string>)
    requires NoDup(open)
    ensures NoDup(r)
    // an open item closes and nothing else changes
    ensures id in open ==> forall x :: x in r <==> x in open && x != id
    // a closed item opens: alongside the others when multiple, alone otherwise
    ensures id !in open && multiple ==> r == open + [id]
    ensures id !in open && !multiple ==> r == [id]
  {
    if id in open then Remove(open, id)
    else if multiple then SetAdd(open, id)
    else [id]
  }

  /** What `onValueChange` receives: the open ids when multiple, else the first open id or `''`. */
  function Emitted(multiple: bool, open: seq<string>): (v: Value)
    ensures multiple ==> v == Many(open)
    ensures !multiple ==> v.Single? && (v.id == "" <==> |open| == 0 || open[0] == "")
    ensures !multiple && |open| > 0 ==> v == Single(open[0])
  {
    if multiple then Many(open)
    else Single(if |open| > 0 then open[0] else "")
  }

  /** `toggleItem(id)`: the internal set follows only when uncontrolled; the callback always fires. */
  function ToggleItem(p: AccordionProps, st: AccordionState, id: string): (r: (AccordionState, seq<Value>))
    requires Valid(st)
    ensures Valid(r.0)
    ensures IsControlled(p) ==> r.0 == st
    ensures !IsControlled(p) ==> r.0.internalOpen == Toggled(p.multiple, st.internalOpen, id)
    ensures r.1 == [Emitted(p.multiple, Toggled(p.multiple, OpenItems(p, st), id))]
  {
    var newOpen := Toggled(p.multiple, OpenItems(p, st), id);
    var st' := if !IsControlled(p) then AccordionState(newOpen) else st;
    (st', [Emitted(p.multiple, newOpen)])
  }

  /** In multiple mode a toggle is a symmetric difference with `{id}`, so toggling twice restores the set. */
  lemma ToggleTwiceRestores(open: seq<string>, id: string)
    requires NoDup(open)
    ensures forall x :: x in Toggled(true, open, id) <==> (x in open) != (x == id)
    ensures forall x :: x in Toggled(true, Toggled(true, open, id), id) <==> x in open
  {
  }

  /** In single mode at most one item stays open once one has been toggled. */
  lemma SingleModeKeepsOneOpen(open: seq<string>, id: string)
    requires NoDup(open) && |open| <= 1
    ensures |Toggled(false, open, id)| <= 1
  {
  }

  /** An uncontrolled accordion shows its own state, whose open set starts from `defaultValue`. */
  lemma UncontrolledStart(p: AccordionProps)
    requires !IsControlled(p)
    ensures OpenItems(p, Init(p)) == OpenSetOf(p.defaultValue)
    ensures p.defaultValue == Some(Single("")) ==> OpenItems(p, Init(p)) == []
  {
  }

  /** A controlled accordion keeps showing `value`, whatever is clicked. */
  lemma ControlledIgnoresClicks(p: AccordionProps, st: AccordionState, id: string)
    requires IsControlled(p) && Valid(st)
    ensures OpenItems(p, ToggleItem(p, st, id).0) == OpenItems(p, st) == OpenSetOf(p.value)
  {
  }
}

=== FILE: bulk_action.dfy ===
/**
 The bulk-action list: a selection `Set<string>` of item ids, the select-all
 header, per-item toggles, the action bar and its actions.
 */
module BulkAction {
  import opened Js

  datatype BulkState = BulkState(selected: seq<string>)

  datatype Callback = OnSelectChange(ids: seq<string>) | ActionClick(actionId: string, ids: seq<string>)

  function Init(): BulkState
  {
    BulkState([])
  }

  predicate Valid(st: BulkState)
  {
    NoDup(st.selected)
  }

  /** `handleSelectAll(checked)`: every item id (duplicates collapsed), or nothing. */
  function HandleSelectAll(items: seq<string>, checked: bool): (r: (BulkState, seq<Callback>))
    ensures Valid(r.0)
    ensures forall id :: id in r.0.selected <==> checked && id in items
    ensures checked && NoDup(items) ==> r.0.selected == items
    ensures r.1 == [OnSelectChange(r.0.selected)]
  {
    var selection := if checked then SetOf(items) else [];
    (BulkState(selection), [OnSelectChange(selection)])
  }

  /** `handleSelectItem(id, checked)`: a copy of the selection with only `id` added or deleted. */
  function HandleSelectItem(st: BulkState, id: string, checked: bool): (r: (BulkState, seq<Callback>))
    requires Valid(st)
    ensures Valid(r.0)
    ensures forall x :: x in r.0.selected <==> if x == id then checked else x in st.selected
    ensures checked && id !in st.selected ==> r.0.selected == st.selected + [id]
    ensures r.1 == [OnSelectChange(r.0.selected)]
  {
    var selection := if checked then SetAdd(st.selected, id) else Remove(st.selected, id);
    (BulkState(selection), [OnSelectChange(selection)])
  }

  /** `clearSelection()`. */
  function ClearSelection(): (r: (BulkState, seq<Callback>))
    ensures r.0.selected == [] && r.1 == [OnSelectChange([])]
  {
    (BulkState([]), [OnSelectChange([])])
  }

  /** Checking then unchecking an item that was not selected restores the selection exactly. */
  lemma CheckUncheckRestores(st: BulkState, id: string)
    requires Valid(st) && id !in st.selected
    ensures HandleSelectItem(HandleSelectItem(st, id, true).0, id, false).0 == st
  {
    RemoveAppended(st.selected, id);
  }

  lemma {:induction false} RemoveAppended(s: seq<string>, x: string)
    requires x !in s
    ensures Remove(s + [x], x) == s
    decreases |s|
  {
    if |s| == 0 {
      assert Remove([x], x) == Remove([], x);
    } else {
      assert (s + [x])[1..] == s[1..] + [x];
      RemoveAppended(s[1..], x);
    }
  }

  function AllSelected(items: seq<string>, st: BulkState): bool
  {
    |items| > 0 && |st.selected| == |items|
  }

  function SomeSelected(items: seq<string>, st: BulkState): bool
  {
    |st.selected| > 0 && |st.selected| < |items|
  }

  /** The header is never both checked and indeterminate. */
  lemma SelectionFlagsExclusive(items: seq<string>, st: BulkState)
    ensures !(AllSelected(items, st) && SomeSelected(items, st))
  {
  }

  /** With distinct ids, select-all checks the header, and clearing empties it. */
  lemma SelectAllThenClear(items: seq<string>)
    requires NoDup(items) && |items| > 0
    ensures AllSelected(items, HandleSelectAll(items, true).0)
    ensures !AllSelected(items, ClearSelection().0) && !SomeSelected(items, ClearSelection().0)
  {
  }

  /**
   The flags compare sizes only: once `items` no longer holds a selected id,
   the header can read "all selected" while an item is unselected.
   */
  lemma StaleSelectionReadsAsAll()
    ensures var st := BulkState(["gone"]);
      AllSelected(["kept"], st) && "kept" !in st.selected
  {
  }

  /** The action bar shows exactly when something is selected. */
  predicate ActionBarVisible(st: BulkState)
  {
    |st.selected| > 0
  }

  /** `selectedCountLabel` by default: the selection size followed by " selected". */
  function CountLabel(st: BulkState): string
  {
    NatToString(|st.selected|) + " selected"
  }

  /** An action button hands the action the current selection, in insertion order. */
  function RunAction(st: BulkState, actionId: string): (calls: seq<Callback>)
    ensures calls == [ActionClick(actionId, st.selected)]
  {
    [ActionClick(actionId, st.selected)]
  }

  /** After checking an item the bar shows, and any action receives that item. */
  lemma CheckedItemReachesActions(st: BulkState, id: string, actionId: string)
    requires Valid(st)
    ensures var st' := HandleSelectItem(st, id, true).0;
      ActionBarVisible(st') && id in RunAction(st', actionId)[0].ids
  {
  }
}

=== FILE: calendar.dfy ===
/**
 The proleptic Gregorian calendar of ECMAScript `Date` values, in local time.
 A date is a year, a zero-based month and a day of the month, as `getFullYear`,
 `getMonth` and `getDate` report them. `MakeDate` is what `new Date(y, m, d)`
 and `setMonth` do to out-of-range fields (MakeDay, section 21.4.1 of
 ECMA-262): the month carries into the year, then the day carries across
 months.
 */
module Calendar {

  datatype CivilDate = CivilDate(year: int, month: int, day: int)

  const MsPerDay: int := 86400000

  predicate InLeapYear(y: int)
  {
    y % 4 == 0 && (y % 100 != 0 || y % 400 == 0)
  }

  function DaysInYear(y: int): (n: int)
    ensures n == 365 || n == 366
  {
    if InLeapYear(y) then 366 else 365
  }

  function DaysInMonth(y: int, m: int): (n: int)
    requires 0 <= m < 12
    ensures 28 <= n <= 31
    ensures m == 1 ==> (n == 29 <==> InLeapYear(y))
  {
    if m == 1 then (if InLeapYear(y) then 29 else 28)
    else if m == 3 || m == 5 || m == 8 || m == 10 then 30
    else 31
  }

  predicate Valid(c: CivilDate)
  {
    0 <= c.month < 12 && 1 <= c.day <= DaysInMonth(c.year, c.month)
  }

  /** DayFromYear: the day number of 1 January of `y`, counted from 1 January 1970. */
  function DayFromYear(y: int): int
  {
    365 * (y - 1970) + (y - 1969) / 4 - (y - 1901) / 100 + (y - 1601) / 400
  }

  /** Days of the year before the first of month `m`. */
  function DaysBeforeMonth(y: int, m: int): int
    requires 0 <= m < 12
  {
    var table := [0, 31, 59, 90, 120, 151, 181, 212, 243, 273, 304, 334];
    table[m] + (if m >= 2 && InLeapYear(y) then 1 else 0)
  }

  /** The day number of a valid date, counted from 1 January 1970. */
  function DayNumber(c: CivilDate): int
    requires 0 <= c.month < 12
  {
    DayFromYear(c.year) + DaysBeforeMonth(c.year, c.month) + c.day - 1
  }

  /** `getDay()`: 0 is Sunday; 1 January 1970 was a Thursday. */
  function WeekDay(c: CivilDate): (w: int)
    requires 0 <= c.month < 12
    ensures 0 <= w < 7
    ensures c == CivilDate(1970, 0, 1) ==> w == 4
  {
    (DayNumber(c) + 4) % 7
  }

  /** Weekdays advance with the day number: `n` days later is `n` weekdays later, modulo a week. */
  lemma WeekDayShift(a: CivilDate, b: CivilDate)
    requires 0 <= a.month < 12 && 0 <= b.month < 12
    ensures WeekDay(b) == (WeekDay(a) + (DayNumber(b) - DayNumber(a))) % 7
    ensures DayNumber(b) == DayNumber(a) + 1 ==> WeekDay(b) == (WeekDay(a) + 1) % 7
  {
    var x, y := DayNumber(a) + 4, DayNumber(b) + 4;
    assert x == 7 * (x / 7) + x % 7;
    assert y == x % 7 + (y - x) + 7 * (x / 7);
    ModShift(x % 7 + (y - x), x / 7);
  }

  /** Adding whole weeks does not change the remainder modulo 7. */
  lemma ModShift(z: int, q: int)
    ensures (z + 7 * q) % 7 == z % 7
  {
  }

  /** Two anchors: 1 January 2024 was a Monday and 29 February 2024 a Thursday. */
  lemma KnownWeekDays()
    ensures WeekDay(CivilDate(2024, 0, 1)) == 1
    ensures WeekDay(CivilDate(2024, 1, 29)) == 4
  {
  }

  /** From year `y` to `y + 1` each quotient of DayFromYear grows exactly when `y` is a multiple of its divisor. */
  lemma QuotientSteps(y: int)
    ensures (y - 1968) / 4 - (y - 1969) / 4 == (if y % 4 == 0 then 1 else 0)
    ensures (y - 1900) / 100 - (y - 1901) / 100 == (if y % 100 == 0 then 1 else 0)
    ensures (y - 1600) / 400 - (y - 1601) / 400 == (if y % 400 == 0 then 1 else 0)
  {
    assert (y - 1968) % 4 == y % 4;
    assert (y - 1900) % 100 == y % 100;
    assert (y - 1600) % 400 == y % 400;
  }

  /** A multiple of 400 is a multiple of 100. */
  lemma Multiple400(y: int)
    requires y % 400 == 0
    ensures y % 100 == 0
  {
    assert y == 100 * (4 * (y / 400));
  }

  /** A multiple of 100 is a multiple of 4. */
  lemma Multiple100(y: int)
    requires y % 100 == 0
    ensures y % 4 == 0
  {
    assert y == 4 * (25 * (y / 100));
  }

  lemma YearStep(y: int)
    ensures DayFromYear(y + 1) == DayFromYear(y) + DaysInYear(y)
  {
    QuotientSteps(y);
    if y % 400 == 0 {
      Multiple400(y);
    }
    if y % 100 == 0 {
      Multiple100(y);
    }
  }

  /** The first of the month following `(y, m)`. */
  function NextFirst(y: int, m: int): CivilDate
    requires 0 <= m < 12
  {
    if m == 11 then CivilDate(y + 1, 0, 1) else CivilDate(y, m + 1, 1)
  }

  /** The first of the month preceding `(y, m)`. */
  function PrevFirst(y: int, m: int): CivilDate
    requires 0 <= m < 12
  {
    if m == 0 then CivilDate(y - 1, 11, 1) else CivilDate(y, m - 1, 1)
  }

  /** A month is as many day numbers long as it has days. */
  lemma MonthStep(y: int, m: int)
    requires 0 <= m < 12
    ensures DayNumber(NextFirst(y, m)) == DayNumber(CivilDate(y, m, 1)) + DaysInMonth(y, m)
    ensures PrevFirst(NextFirst(y, m).year, NextFirst(y, m).month) == CivilDate(y, m, 1)
  {
    if m == 11 {
      YearStep(y);
    }
  }

  /** Carries an out-of-range day of month `m` of year `y` across months. */
  function NormalizeDay(y: int, m: int, d: int): (c: CivilDate)
    requires 0 <= m < 12
    ensures Valid(c)
    decreases (if d < 1 then 1 - d else 0), (if d < 1 then 0 else d)
  {
    if d < 1 then
      var p := PrevFirst(y, m);
      NormalizeDay(p.year, p.month, d + DaysInMonth(p.year, p.month))
    else if d > DaysInMonth(y, m) then
      var n := NextFirst(y, m);
      NormalizeDay(n.year, n.month, d - DaysInMonth(y, m))
    else CivilDate(y, m, d)
  }

  /** `new Date(y, m, d)` at midnight, and the date part of `setMonth(m)` on a date of day `d`. */
  function MakeDate(y: int, m: int, d: int): (c: CivilDate)
    ensures Valid(c)
  {
    NormalizeDay(y + m / 12, m % 12, d)
  }

  /** In-range fields are kept as they are. */
  lemma MakeDateKeepsValid(c: CivilDate)
    requires Valid(c)
    ensures MakeDate(c.year, c.month, c.day) == c
  {
  }

  lemma {:induction false} NormalizeDayNumber(y: int, m: int, d: int)
    requires 0 <= m < 12
    ensures DayNumber(NormalizeDay(y, m, d)) == DayNumber(CivilDate(y, m, 1)) + d - 1
    decreases (if d < 1 then 1 - d else 0), (if d < 1 then 0 else d)
  {
    if d < 1 {
      var p := PrevFirst(y, m);
      MonthStep(p.year, p.month);
      assert NextFirst(p.year, p.month) == CivilDate(y, m, 1);
      NormalizeDayNumber(p.year, p.month, d + DaysInMonth(p.year, p.month));
    } else if d > DaysInMonth(y, m) {
      var n := NextFirst(y, m);
      MonthStep(y, m);
      NormalizeDayNumber(n.year, n.month, d - DaysInMonth(y, m));
    }
  }

  /**
   MakeDay: the date `new Date(y, m, d)` denotes is `d - 1` days after the
   first of month `m % 12` of year `y + floor(m / 12)`.
   */
  lemma MakeDateDayNumber(y: int, m: int, d: int)
    ensures DayNumber(MakeDate(y, m, d)) == DayNumber(CivilDate(y + m / 12, m % 12, 1)) + d - 1
  {
    NormalizeDayNumber(y + m / 12, m % 12, d);
  }

  /** Distinct valid dates have distinct day numbers: the day number determines the date. */
  lemma {:induction false} DayNumberInjective(a: CivilDate, b: CivilDate)
    requires Valid(a) && Valid(b) && DayNumber(a) == DayNumber(b)
    ensures a == b
  {
    if a.year != b.year {
      YearsApart(a, b);
    }
  }

  /** A valid date lies within its year's day numbers. */
  lemma WithinYear(c: CivilDate)
    requires Valid(c)
    ensures DayFromYear(c.year) <= DayNumber(c) < DayFromYear(c.year) + DaysInYear(c.year)
  {
  }

  lemma {:induction false} YearsMonotone(y: int, z: int)
    requires y < z
    ensures DayFromYear(y) + DaysInYear(y) <= DayFromYear(z)
    decreases z - y
  {
    YearStep(y);
    if y + 1 < z {
      YearsMonotone(y + 1, z);
      YearStep(y + 1);
    }
  }

  lemma YearsApart(a: CivilDate, b: CivilDate)
    requires Valid(a) && Valid(b) && a.year != b.year
    ensures DayNumber(a) != DayNumber(b)
  {
    WithinYear(a);
    WithinYear(b);
    if a.year < b.year {
      YearsMonotone(a.year, b.year);
    } else {
      YearsMonotone(b.year, a.year);
    }
  }
}

=== FILE: crud_pattern.dfy ===
/**
 The CRUD list: the free-text search over every field of every item, the
 two-phase delete (record the item and open the dialog, then confirm), the
 per-row action buttons and the columns handed to the table.
 */
module CrudPattern {
  import opened Js

  /** A field value as the search sees it; object-valued fields are not modelled. */
  datatype Value = Str(s: string) | Num(n: int) | Bool(b: bool) | Null | Undefined

  /** An item, seen through `Object.values(item)`: its field values in property order. */
  datatype Item = Item(values: seq<Value>)

  datatype Column = Column(id: string, header: string)

  /** Which optional callbacks the caller passed. */
  datatype CrudProps = CrudProps(hasOnCreate: bool, hasOnEdit: bool, hasOnDelete: bool, hasOnView: bool)

  datatype CrudState = CrudState(query: string, deleteDialogOpen: bool, itemToDelete: Option<Item>)

  datatype Callback = OnCreate | OnEdit(item: Item) | OnDelete(item: Item) | OnView(item: Item)

  datatype ActionButton = ViewButton | EditButton | DeleteButton

  function Init(): CrudState
  {
    CrudState("", false, None)
  }

  // ----- search -----

  /** JavaScript truthiness of a field value. */
  predicate Truthy(v: Value)
  {
    match v
    case Str(s) => s != ""
    case Num(n) => n != 0
    case Bool(b) => b
    case Null => false
    case Undefined => false
  }

  /** `String(value)`. */
  function Text(v: Value): string
  {
    match v
    case Str(s) => s
    case Num(n) => IntToString(n)
    case Bool(b) => if b then "true" else "false"
    case Null => "null"
    case Undefined => "undefined"
  }

  /** Some truthy field, lowercased, contains the lowercased query. */
  predicate Matches(item: Item, query: string)
  {
    exists i :: 0 <= i < |item.values| && Truthy(item.values[i])
      && Contains(Lower(Text(item.values[i])), Lower(query))
  }

  /** `data.filter(item => …)`: the matching items, in their original order. */
  function Filter(data: seq<Item>, query: string): (r: seq<Item>)
    ensures forall x :: x in r <==> x in data && Matches(x, query)
    ensures |r| <= |data|
  {
    if |data| == 0 then []
    else (if Matches(data[0], query) then [data[0]] else []) + Filter(data[1..], query)
  }

  /** Filtering a concatenation filters each part and keeps the parts in order. */
  lemma {:induction false} FilterAppend(a: seq<Item>, b: seq<Item>, query: string)
    ensures Filter(a + b, query) == Filter(a, query) + Filter(b, query)
    decreases |a|
  {
    if |a| == 0 {
      assert a + b == b;
    } else {
      assert (a + b)[1..] == a[1..] + b;
      FilterAppend(a[1..], b, query);
    }
  }

  /** `filteredData`: everything for an empty query, else the matching items. */
  function FilteredData(data: seq<Item>, query: string): (r: seq<Item>)
    ensures query == "" ==> r == data
    ensures query != "" ==> forall x :: x in r <==> x in data && Matches(x, query)
  {
    if query == "" then data else Filter(data, query)
  }

  /** An item matching a query also matches every prefix of it. */
  lemma MatchesPrefix(item: Item, q: string, e: string)
    requires Matches(item, q + e)
    ensures Matches(item, q)
  {
    LowerAppend(q, e);
    var i :| 0 <= i < |item.values| && Truthy(item.values[i])
      && Contains(Lower(Text(item.values[i])), Lower(q + e));
    ContainsPrefix(Lower(Text(item.values[i])), Lower(q), Lower(e));
  }

  lemma {:induction false} FilterNarrows(data: seq<Item>, q: string, e: string)
    ensures Filter(data, q + e) == Filter(Filter(data, q), q + e)
    decreases |data|
  {
    if |data| > 0 {
      FilterNarrows(data[1..], q, e);
      var head := if Matches(data[0], q) then [data[0]] else [];
      assert Filter(data, q) == head + Filter(data[1..], q);
      FilterAppend(head, Filter(data[1..], q), q + e);
      if Matches(data[0], q + e) {
        MatchesPrefix(data[0], q, e);
      }
      assert Filter(head, q + e) == if Matches(data[0], q + e) then [data[0]] else [] by {
        if |head| == 1 {
          assert head[1..] == [];
        }
      }
    }
  }

  /**
   Typing more characters only narrows the list: the results for the longer
   query are exactly the results for the longer query searched within the
   results for the shorter one.
   */
  lemma ExtendingQueryNarrows(data: seq<Item>, q: string, e: string)
    ensures FilteredData(data, q + e) == FilteredData(FilteredData(data, q), q + e)
    ensures forall x :: x in FilteredData(data, q + e) ==> x in FilteredData(data, q)
  {
    if q == "" {
      assert q + e == e;
    } else {
      FilterNarrows(data, q, e);
      assert q + e != "" by {
        assert |q + e| >= |q| > 0;
      }
    }
  }

  lemma {:induction false} FilterLowerQuery(data: seq<Item>, query: string)
    ensures Filter(data, Lower(query)) == Filter(data, query)
    decreases |data|
  {
    LowerIdempotent(query);
    if |data| > 0 {
      FilterLowerQuery(data[1..], query);
    }
  }

  /** The search ignores the case of ASCII letters in the query. */
  lemma SearchIgnoresCase(data: seq<Item>, query: string)
    ensures FilteredData(data, Lower(query)) == FilteredData(data, query)
  {
    if query != "" {
      assert |Lower(query)| == |query| > 0;
      FilterLowerQuery(data, query);
    }
  }

  /**
   A falsy field is never searched: the number `0` is not found by the query
   "0", while the string "0" is.
   */
  lemma ZeroIsNeverFound()
    ensures !Matches(Item([Num(0), Null, Bool(false), Str("")]), "0")
    ensures Matches(Item([Str("0")]), "0")
  {
    var item := Item([Str("0")]);
    assert Lower("0") == "0";
    assert OccursAt(Lower(Text(item.values[0])), Lower("0"), 0);
  }

  /** The search box writes the query verbatim. */
  function SetQuery(st: CrudState, query: string): (st': CrudState)
    ensures st'.query == query
    ensures st'.deleteDialogOpen == st.deleteDialogOpen && st'.itemToDelete == st.itemToDelete
  {
    st.(query := query)
  }

  // ----- delete -----

  /** `handleDelete(item)`: remember the item and open the dialog. */
  function HandleDelete(st: CrudState, item: Item): (st': CrudState)
    ensures st'.itemToDelete == Some(item) && st'.deleteDialogOpen
    ensures st'.query == st.query
  {
    st.(itemToDelete := Some(item), deleteDialogOpen := true)
  }

  /** `confirmDelete()`: with an item recorded, report it, close the dialog and forget it. */
  function ConfirmDelete(p: CrudProps, st: CrudState): (r: (CrudState, seq<Callback>))
    ensures st.itemToDelete.None? ==> r == (st, [])
    ensures st.itemToDelete.Some? ==>
      && r.0 == st.(deleteDialogOpen := false, itemToDelete := None)
      && r.1 == if p.hasOnDelete then [OnDelete(st.itemToDelete.value)] else []
  {
    match st.itemToDelete
    case None => (st, [])
    case Some(item) =>
      (st.(deleteDialogOpen := false, itemToDelete := None),
       if p.hasOnDelete then [OnDelete(item)] else [])
  }

  /** Cancel (or closing the dialog): only the dialog closes; the recorded item stays. */
  function CancelDelete(st: CrudState): (st': CrudState)
    ensures !st'.deleteDialogOpen
    ensures st'.itemToDelete == st.itemToDelete && st'.query == st.query
  {
    st.(deleteDialogOpen := false)
  }

  /**
   Delete then confirm reports exactly the chosen item, once: a second
   confirmation finds nothing recorded and does nothing.
   */
  lemma DeleteConfirmedOnce(p: CrudProps, st: CrudState, item: Item)
    requires p.hasOnDelete
    ensures var (st1, calls1) := ConfirmDelete(p, HandleDelete(st, item));
      && calls1 == [OnDelete(item)]
      && !st1.deleteDialogOpen
      && ConfirmDelete(p, st1) == (st1, [])
  {
  }

  /**
   A cancelled delete leaves the item recorded; the next delete click
   replaces it, so a later confirmation reports the newly chosen item only.
   */
  lemma CancelThenDeleteOther(p: CrudProps, st: CrudState, first: Item, second: Item)
    requires p.hasOnDelete
    ensures CancelDelete(HandleDelete(st, first)).itemToDelete == Some(first)
    ensures ConfirmDelete(p, HandleDelete(CancelDelete(HandleDelete(st, first)), second)).1 == [OnDelete(second)]
  {
  }

  // ----- actions and columns -----

  /** The row's icon buttons: view, edit, delete, each only when its callback is given. */
  function ActionButtons(p: CrudProps): (bs: seq<ActionButton>)
    ensures ViewButton in bs <==> p.hasOnView
    ensures EditButton in bs <==> p.hasOnEdit
    ensures DeleteButton in bs <==> p.hasOnDelete
    ensures NoDup(bs)
  {
    (if p.hasOnView then [ViewButton] else [])
      + (if p.hasOnEdit then [EditButton] else [])
      + (if p.hasOnDelete then [DeleteButton] else [])
  }

  /** A click on a row's button: view and edit report the item; delete only opens the dialog. */
  function ClickAction(st: CrudState, b: ActionButton, item: Item): (r: (CrudState, seq<Callback>))
    ensures b == ViewButton ==> r == (st, [OnView(item)])
    ensures b == EditButton ==> r == (st, [OnEdit(item)])
    ensures b == DeleteButton ==> r.1 == [] && r.0 == HandleDelete(st, item)
  {
    match b
    case ViewButton => (st, [OnView(item)])
    case EditButton => (st, [OnEdit(item)])
    case DeleteButton => (HandleDelete(st, item), [])
  }

  /** No row button deletes on its own: `onDelete` is reached only through the confirmation. */
  lemma DeleteNeedsConfirmation(p: CrudProps, st: CrudState, b: ActionButton, item: Item, x: Item)
    requires b in ActionButtons(p)
    ensures OnDelete(x) !in ClickAction(st, b, item).1
    ensures b == DeleteButton ==> ConfirmDelete(p, ClickAction(st, b, item).0).1 == [OnDelete(item)]
  {
  }

  /** The header shows the create button only when `onCreate` is given. */
  predicate HasCreateButton(p: CrudProps)
  {
    p.hasOnCreate
  }

  /** A click on the header's create button reports `onCreate` and changes nothing else. */
  function ClickCreate(p: CrudProps, st: CrudState): (r: (CrudState, seq<Callback>))
    requires HasCreateButton(p)
    ensures r.0 == st
    ensures r.1 == [OnCreate]
  {
    (st, [OnCreate])
  }

  /**
   `onCreate` is reached only from the header: no row button and no delete
   confirmation reports it, and the header button exists exactly when the
   callback was given.
   */
  lemma CreateOnlyFromHeader(p: CrudProps, st: CrudState, b: ActionButton, item: Item)
    ensures OnCreate !in ClickAction(st, b, item).1
    ensures OnCreate !in ConfirmDelete(p, st).1
    ensures HasCreateButton(p) <==> p.hasOnCreate
    ensures HasCreateButton(p) ==> OnCreate in ClickCreate(p, st).1
  {
  }

  const ActionColumn: Column := Column("actions", "Actions")

  /** `[...columns, actionColumn]`: the caller's columns in order, then the actions column. */
  function TableColumns(columns: seq<Column>): (r: seq<Column>)
    ensures |r| == |columns| + 1
    ensures r[..|columns|] == columns
    ensures r[|columns|] == ActionColumn
  {
    columns + [ActionColumn]
  }
}

=== FILE: date_picker.dfy ===
/**
 The date picker: the month grid, day comparison, the min/max guard, selection
 and month navigation. A `Date` is a calendar date plus the milliseconds since
 its local midnight; values compare by time value, as `<` on `Date` objects does.
 */
module DatePicker {
  import opened Js
  import opened Calendar

  /** A `Date`: its local calendar date and the milliseconds into that day. */
  datatype DateTime = DateTime(date: CivilDate, ms: int)

  predicate ValidDateTime(t: DateTime)
  {
    Valid(t.date) && 0 <= t.ms < MsPerDay
  }

  /** `valueOf()`, counted in local time. */
  function TimeValue(t: DateTime): int
    requires 0 <= t.date.month < 12
  {
    DayNumber(t.date) * MsPerDay + t.ms
  }

  /** A grid cell: local midnight of that date. */
  function Midnight(c: CivilDate): DateTime
  {
    DateTime(c, 0)
  }

  datatype PickerProps = PickerProps(value: Option<DateTime>, minDate: Option<DateTime>, maxDate: Option<DateTime>)

  /** `selectedMonth` is a full date: navigation keeps its day of the month. */
  datatype PickerState = PickerState(open: bool, shown: CivilDate)

  datatype Callback = OnChange(date: DateTime)

  /** The picker starts closed, showing the current date, a parameter. */
  function Init(today: CivilDate): PickerState
  {
    PickerState(false, today)
  }

  // ----- the grid -----

  /** `getDaysInMonth`: day 0 of the next month is the last day of this one. */
  function MonthLength(y: int, m: int): int
  {
    MakeDate(y, m + 1, 0).day
  }

  function FirstWeekDay(y: int, m: int): int
  {
    WeekDay(MakeDate(y, m, 1))
  }

  /** Cell `i` of the grid of month `m` whose first falls on weekday `start`. */
  function Cell(y: int, m: int, start: int, i: int): (c: CivilDate)
    ensures Valid(c)
  {
    if i < start then MakeDate(y, m, 1 - start + i) else MakeDate(y, m, i - start + 1)
  }

  /** The cells: `startDayOfWeek` dates before the first, then the days of the month. */
  function Grid(shown: CivilDate): (g: seq<CivilDate>)
    ensures forall i :: 0 <= i < |g| ==> Valid(g[i])
  {
    var start := FirstWeekDay(shown.year, shown.month);
    var dim := MonthLength(shown.year, shown.month);
    if dim < 0 then []
    else seq(start + dim, i => Cell(shown.year, shown.month, start, i))
  }

  /** For a month within the year, `new Date(y, m + k, d)` with `k` in -1..1 is plain normalisation. */
  lemma MakeDateNear(y: int, m: int, d: int)
    requires 0 <= m < 12
    ensures MakeDate(y, m, d) == NormalizeDay(y, m, d)
    ensures var n := NextFirst(y, m); MakeDate(y, m + 1, d) == NormalizeDay(n.year, n.month, d)
    ensures var p := PrevFirst(y, m); MakeDate(y, m - 1, d) == NormalizeDay(p.year, p.month, d)
  {
  }

  /** `new Date(y, m + 1, 0).getDate()` is the length of month `m`. */
  lemma MonthLengthIsDaysInMonth(y: int, m: int)
    requires 0 <= m < 12
    ensures MonthLength(y, m) == DaysInMonth(y, m)
  {
    var n := NextFirst(y, m);
    MonthStep(y, m);
    MakeDateNear(y, m, 0);
    var p := PrevFirst(n.year, n.month);
    assert NormalizeDay(n.year, n.month, 0) == NormalizeDay(p.year, p.month, DaysInMonth(y, m));
  }

  /** One cell of the grid of a valid month. */
  lemma GridAt(shown: CivilDate, i: int)
    requires Valid(shown)
    ensures var y, m := shown.year, shown.month;
      |Grid(shown)| == FirstWeekDay(y, m) + DaysInMonth(y, m)
      && (0 <= i < FirstWeekDay(y, m) ==> Grid(shown)[i] == MakeDate(y, m, 1 - FirstWeekDay(y, m) + i))
      && (FirstWeekDay(y, m) <= i < |Grid(shown)| ==> Grid(shown)[i] == MakeDate(y, m, i - FirstWeekDay(y, m) + 1))
  {
    MonthLengthIsDaysInMonth(shown.year, shown.month);
  }

  /** The grid holds between 28 and 37 cells. */
  lemma GridLength(shown: CivilDate)
    requires Valid(shown)
    ensures |Grid(shown)| == FirstWeekDay(shown.year, shown.month) + DaysInMonth(shown.year, shown.month)
    ensures 28 <= |Grid(shown)| <= 37
  {
    GridAt(shown, 0);
  }

  /** Cell `i` lies `i - start` days after the first of the month. */
  lemma CellDayNumber(shown: CivilDate, i: int)
    requires Valid(shown) && 0 <= i < |Grid(shown)|
    ensures DayNumber(Grid(shown)[i])
      == DayNumber(CivilDate(shown.year, shown.month, 1)) - FirstWeekDay(shown.year, shown.month) + i
  {
    var y, m := shown.year, shown.month;
    var start := FirstWeekDay(y, m);
    var d := if i < start then 1 - start + i else i - start + 1;
    GridAt(shown, i);
    assert Grid(shown)[i] == MakeDate(y, m, d);
    NormalizeDayNumber(y, m, d);
    MakeDateNear(y, m, d);
  }

  /** The cells are consecutive dates, and the first of the month sits at index `WeekDay(1st)`. */
  lemma GridConsecutive(shown: CivilDate)
    requires Valid(shown)
    ensures var start := FirstWeekDay(shown.year, shown.month);
      forall i :: 0 <= i < |Grid(shown)| ==>
        DayNumber(Grid(shown)[i]) == DayNumber(CivilDate(shown.year, shown.month, 1)) - start + i
  {
    forall i | 0 <= i < |Grid(shown)|
      ensures DayNumber(Grid(shown)[i])
        == DayNumber(CivilDate(shown.year, shown.month, 1)) - FirstWeekDay(shown.year, shown.month) + i
    {
      CellDayNumber(shown, i);
    }
  }

  /** Stepping back by its own remainder lands on a multiple of seven. */
  lemma AlignDown(k: int)
    ensures (k - k % 7) % 7 == 0
  {
  }

  /** The grid's first cell is a Sunday, as the weekday header row assumes. */
  lemma GridStartsOnSunday(shown: CivilDate)
    requires Valid(shown)
    ensures WeekDay(Grid(shown)[0]) == 0
  {
    GridLength(shown);
    var first := CivilDate(shown.year, shown.month, 1);
    var k := DayNumber(first) + 4;
    assert FirstWeekDay(shown.year, shown.month) == k % 7 by {
      MakeDateKeepsValid(first);
    }
    assert DayNumber(Grid(shown)[0]) + 4 == k - k % 7 by {
      CellDayNumber(shown, 0);
    }
    AlignDown(k);
  }

  /** After the leading cells come days 1..n of the shown month, in order. */
  lemma GridMonthDays(shown: CivilDate)
    requires Valid(shown)
    ensures var start := FirstWeekDay(shown.year, shown.month);
      forall i :: start <= i < |Grid(shown)| ==> Grid(shown)[i] == CivilDate(shown.year, shown.month, i - start + 1)
  {
    var start := FirstWeekDay(shown.year, shown.month);
    forall i | start <= i < |Grid(shown)|
      ensures Grid(shown)[i] == CivilDate(shown.year, shown.month, i - start + 1)
    {
      GridAt(shown, i);
      MakeDateKeepsValid(CivilDate(shown.year, shown.month, i - start + 1));
    }
  }

  /** The leading cells are the last days of the previous month. */
  lemma GridLeadingCells(shown: CivilDate)
    requires Valid(shown)
    ensures var start := FirstWeekDay(shown.year, shown.month);
      var p := PrevFirst(shown.year, shown.month);
      forall i :: 0 <= i < start ==>
        Grid(shown)[i] == CivilDate(p.year, p.month, DaysInMonth(p.year, p.month) - start + 1 + i)
        && Grid(shown)[i].month != shown.month
  {
    var start := FirstWeekDay(shown.year, shown.month);
    forall i | 0 <= i < start
      ensures var p := PrevFirst(shown.year, shown.month);
        Grid(shown)[i] == CivilDate(p.year, p.month, DaysInMonth(p.year, p.month) - start + 1 + i)
        && Grid(shown)[i].month != shown.month
    {
      GridAt(shown, i);
      LeadingCellInPreviousMonth(shown.year, shown.month, 1 - start + i);
    }
  }

  /** A day between -5 and 0 of month `m` is a day of the previous month. */
  lemma LeadingCellInPreviousMonth(y: int, m: int, d: int)
    requires 0 <= m < 12 && -5 <= d <= 0
    ensures var p := PrevFirst(y, m);
      MakeDate(y, m, d) == CivilDate(p.year, p.month, DaysInMonth(p.year, p.month) + d)
      && MakeDate(y, m, d).month != m
  {
    MakeDateNear(y, m, d);
    var p := PrevFirst(y, m);
    assert NormalizeDay(y, m, d) == NormalizeDay(p.year, p.month, d + DaysInMonth(p.year, p.month));
  }

  // ----- comparisons -----

  /** `isSameDay`: equal day of month, month and full year. */
  predicate IsSameDay(a: CivilDate, b: CivilDate)
  {
    a.day == b.day && a.month == b.month && a.year == b.year
  }

  /** Same day is an equivalence, and on valid dates means the same day number. */
  lemma SameDayIsSameDayNumber(a: CivilDate, b: CivilDate)
    requires Valid(a) && Valid(b)
    ensures IsSameDay(a, a)
    ensures IsSameDay(a, b) <==> IsSameDay(b, a)
    ensures IsSameDay(a, b) <==> DayNumber(a) == DayNumber(b)
  {
    if DayNumber(a) == DayNumber(b) {
      DayNumberInjective(a, b);
    }
  }

  /** `isSelected`: false with no value. */
  function IsSelected(p: PickerProps, c: CivilDate): (b: bool)
    ensures p.value.None? ==> !b
    ensures p.value.Some? ==> (b <==> IsSameDay(c, p.value.value.date))
  {
    p.value.Some? && IsSameDay(c, p.value.value.date)
  }

  /** `isDisabled`: strictly before `minDate` or strictly after `maxDate`, by time value. */
  predicate IsDisabled(p: PickerProps, t: DateTime)
    requires 0 <= t.date.month < 12
    requires p.minDate.Some? ==> 0 <= p.minDate.value.date.month < 12
    requires p.maxDate.Some? ==> 0 <= p.maxDate.value.date.month < 12
  {
    (p.minDate.Some? && TimeValue(t) < TimeValue(p.minDate.value))
    || (p.maxDate.Some? && TimeValue(t) > TimeValue(p.maxDate.value))
  }

  predicate ValidProps(p: PickerProps)
  {
    && (p.value.Some? ==> ValidDateTime(p.value.value))
    && (p.minDate.Some? ==> ValidDateTime(p.minDate.value))
    && (p.maxDate.Some? ==> ValidDateTime(p.maxDate.value))
  }

  /**
   A cell is before `minDate` exactly when its day is earlier, or it is the
   same day and `minDate` is past midnight: a `minDate` taken from the clock
   disables its own day.
   */
  lemma CellBeforeMin(p: PickerProps, c: CivilDate)
    requires ValidProps(p) && Valid(c) && p.minDate.Some?
    ensures TimeValue(Midnight(c)) < TimeValue(p.minDate.value) <==>
      (DayNumber(c) < DayNumber(p.minDate.value.date)
       || (DayNumber(c) == DayNumber(p.minDate.value.date) && p.minDate.value.ms > 0))
  {
    var dc, dm := DayNumber(c), DayNumber(p.minDate.value.date);
    if dc < dm {
      assert dc * MsPerDay <= (dm - 1) * MsPerDay;
    } else if dc > dm {
      assert dc * MsPerDay >= (dm + 1) * MsPerDay;
    }
  }

  /** Whether a cell's button is disabled: outside the bounds, or outside the shown month. */
  predicate CellDisabled(p: PickerProps, shown: CivilDate, c: CivilDate)
    requires ValidProps(p) && 0 <= c.month < 12
  {
    IsDisabled(p, Midnight(c)) || c.month != shown.month
  }

  /** Leading cells are never clickable. */
  lemma LeadingCellsDisabled(p: PickerProps, shown: CivilDate)
    requires ValidProps(p) && Valid(shown)
    ensures forall i :: 0 <= i < FirstWeekDay(shown.year, shown.month) && i < |Grid(shown)| ==>
      CellDisabled(p, shown, Grid(shown)[i])
  {
    GridLeadingCells(shown);
  }

  // ----- handlers -----

  /** `handleDateSelect(date)`: emits and closes exactly when the date is within bounds. */
  function HandleDateSelect(p: PickerProps, st: PickerState, t: DateTime): (r: (PickerState, seq<Callback>))
    requires ValidProps(p) && 0 <= t.date.month < 12
    ensures IsDisabled(p, t) ==> r == (st, [])
    ensures !IsDisabled(p, t) ==> r == (st.(open := false), [OnChange(t)])
  {
    if p.minDate.Some? && TimeValue(t) < TimeValue(p.minDate.value) then (st, [])
    else if p.maxDate.Some? && TimeValue(t) > TimeValue(p.maxDate.value) then (st, [])
    else (st.(open := false), [OnChange(t)])
  }

  /** Clicking an enabled cell of the shown month selects that day at midnight and closes. */
  lemma ClickEnabledCell(p: PickerProps, st: PickerState, i: int)
    requires ValidProps(p) && Valid(st.shown)
    requires 0 <= i < |Grid(st.shown)| && !CellDisabled(p, st.shown, Grid(st.shown)[i])
    ensures var c := Grid(st.shown)[i];
      && c.year == st.shown.year && c.month == st.shown.month
      && HandleDateSelect(p, st, Midnight(c)) == (st.(open := false), [OnChange(Midnight(c))])
  {
    var start := FirstWeekDay(st.shown.year, st.shown.month);
    if i < start {
      GridLeadingCells(st.shown);
    } else {
      GridMonthDays(st.shown);
    }
  }

  /** The trigger button flips the popover. */
  function ToggleOpen(st: PickerState): (st': PickerState)
    ensures st'.open != st.open && st'.shown == st.shown
  {
    st.(open := !st.open)
  }

  /** `setMonth(getMonth() + delta)` on the shown date; the day of month is kept and may overflow. */
  function ShiftMonth(st: PickerState, delta: int): PickerState
  {
    st.(shown := MakeDate(st.shown.year, st.shown.month + delta, st.shown.day))
  }

  function NextMonth(st: PickerState): PickerState
  {
    ShiftMonth(st, 1)
  }

  function PrevMonth(st: PickerState): PickerState
  {
    ShiftMonth(st, -1)
  }

  /**
   When the day exists in the target month, navigation lands on the same day of
   the adjacent month; the open flag is untouched.
   */
  lemma NavigationSteps(st: PickerState)
    requires Valid(st.shown)
    ensures var n := NextFirst(st.shown.year, st.shown.month);
      st.shown.day <= DaysInMonth(n.year, n.month) ==> NextMonth(st).shown == n.(day := st.shown.day)
    ensures var p := PrevFirst(st.shown.year, st.shown.month);
      st.shown.day <= DaysInMonth(p.year, p.month) ==> PrevMonth(st).shown == p.(day := st.shown.day)
    ensures NextMonth(st).open == st.open && PrevMonth(st).open == st.open
  {
  }

  /** From a day the next month lacks, "next" skips that month: 31 January goes to March. */
  lemma NextSkipsShortMonth(st: PickerState)
    requires Valid(st.shown)
    ensures var n := NextFirst(st.shown.year, st.shown.month);
      var nn := NextFirst(n.year, n.month);
      st.shown.day > DaysInMonth(n.year, n.month) ==>
        NextMonth(st).shown == nn.(day := st.shown.day - DaysInMonth(n.year, n.month))
  {
    var n := NextFirst(st.shown.year, st.shown.month);
    MakeDateNear(st.shown.year, st.shown.month, st.shown.day);
    if st.shown.day > DaysInMonth(n.year, n.month) {
      var nn := NextFirst(n.year, n.month);
      assert NormalizeDay(n.year, n.month, st.shown.day)
        == NormalizeDay(nn.year, nn.month, st.shown.day - DaysInMonth(n.year, n.month));
    }
  }

  /** 31 January 2023 goes to 3 March; in the leap year 2024 to 2 March. */
  lemma NextFromJanuary31()
    ensures NextMonth(PickerState(true, CivilDate(2023, 0, 31))).shown == CivilDate(2023, 2, 3)
    ensures NextMonth(PickerState(true, CivilDate(2024, 0, 31))).shown == CivilDate(2024, 2, 2)
  {
    NextSkipsShortMonth(PickerState(true, CivilDate(2023, 0, 31)));
    NextSkipsShortMonth(PickerState(true, CivilDate(2024, 0, 31)));
  }
}

=== FILE: file_upload.dfy ===
/**
 The file-upload drop zone: the list of accepted files, a count limit checked
 before anything else, a per-file size limit, and removal by index.
 */
module FileUpload {
  import opened Js

  datatype File = File(name: string, size: int)

  /** The error message shown, by kind: the byte count inside the size message is not modelled. */
  datatype UploadError = TooMany(maxFiles: int) | TooLarge(name: string, maxSize: int)

  datatype UploadProps = UploadProps(multiple: bool, maxSize: Option<int>, maxFiles: Option<int>, disabled: bool)

  datatype UploadState = UploadState(files: seq<File>, error: Option<UploadError>, dragging: bool)

  datatype Callback = OnFilesChange(files: seq<File>)

  function Init(): UploadState
  {
    UploadState([], None, false)
  }

  /** A numeric limit, read as the component reads it: `undefined` and `0` both mean no limit. */
  predicate Limited(limit: Option<int>)
  {
    limit.Some? && limit.value != 0
  }

  /** `validateFile(file)`: the file fits, or the size message naming it. */
  function ValidateFile(p: UploadProps, f: File): (r: Option<UploadError>)
    ensures r.None? <==> !Limited(p.maxSize) || f.size <= p.maxSize.value
    ensures r.Some? ==> r.value == TooLarge(f.name, p.maxSize.value)
  {
    if Limited(p.maxSize) && f.size > p.maxSize.value then Some(TooLarge(f.name, p.maxSize.value)) else None
  }

  /** The loop over the incoming files: the valid ones in order, and the error the last rejection leaves. */
  function ValidateAll(p: UploadProps, incoming: seq<File>, error: Option<UploadError>): (r: (seq<File>, Option<UploadError>))
    ensures |r.0| <= |incoming|
    ensures forall f :: f in r.0 <==> f in incoming && ValidateFile(p, f).None?
    ensures r.1 != error ==> exists f :: f in incoming && ValidateFile(p, f) == r.1
    decreases |incoming|
  {
    if |incoming| == 0 then ([], error)
    else
      var e := ValidateFile(p, incoming[0]);
      var (valid, err) := ValidateAll(p, incoming[1..], if e.Some? then e else error);
      if e.None? then ([incoming[0]] + valid, err) else (valid, err)
  }

  /** `handleFiles(incoming)`. */
  function HandleFiles(p: UploadProps, st: UploadState, incoming: seq<File>): (r: (UploadState, seq<Callback>))
    // too many files: the list stays, nothing fires, and the count message is set, in either mode
    ensures Limited(p.maxFiles) && |st.files| + |incoming| > p.maxFiles.value ==>
      r == (st.(error := Some(TooMany(p.maxFiles.value))), [])
    // the callback fires exactly when at least one file is valid, and reports the new list
    ensures r.1 == [] || r.1 == [OnFilesChange(r.0.files)]
    ensures r.1 == [] ==> r.0.files == st.files
    ensures r.1 != [] ==> r.0.error.None?
    ensures r.1 != [] && p.multiple ==> r.0.files == st.files + ValidateAll(p, incoming, st.error).0
    ensures r.1 != [] && !p.multiple ==> r.0.files == ValidateAll(p, incoming, st.error).0
    ensures !(Limited(p.maxFiles) && |st.files| + |incoming| > p.maxFiles.value) ==>
      (r.1 != [] <==> |ValidateAll(p, incoming, st.error).0| > 0)
    ensures r.0.dragging == st.dragging
  {
    if Limited(p.maxFiles) && |st.files| + |incoming| > p.maxFiles.value then
      (st.(error := Some(TooMany(p.maxFiles.value))), [])
    else
      var (valid, err) := ValidateAll(p, incoming, st.error);
      if |valid| > 0 then
        var updated := if p.multiple then st.files + valid else valid;
        (st.(files := updated, error := None), [OnFilesChange(updated)])
      else (st.(error := err), [])
  }

  /** After an accepted batch the list respects the count limit, and every new file the size limit. */
  lemma AcceptedBatchWithinLimits(p: UploadProps, st: UploadState, incoming: seq<File>)
    requires HandleFiles(p, st, incoming).1 != []
    ensures Limited(p.maxFiles) ==> |HandleFiles(p, st, incoming).0.files| <= p.maxFiles.value
    ensures Limited(p.maxSize) ==>
      forall f :: f in HandleFiles(p, st, incoming).0.files && f !in st.files ==> f.size <= p.maxSize.value
  {
  }

  /**
   With the limit at one file, a single-file picker holding a file refuses a
   replacement: the count check adds the file being replaced.
   */
  lemma SingleModeCannotReplaceAtLimit(p: UploadProps, st: UploadState, f: File)
    requires !p.multiple && p.maxFiles == Some(1) && |st.files| == 1
    ensures HandleFiles(p, st, [f]).0.files == st.files
    ensures HandleFiles(p, st, [f]).0.error == Some(TooMany(1))
  {
  }

  /** Dragging over the zone shows the drag state unless disabled. */
  function DragOver(p: UploadProps, st: UploadState): (st': UploadState)
    ensures st'.dragging == (!p.disabled || st.dragging)
    ensures st'.files == st.files && st'.error == st.error
  {
    if !p.disabled then st.(dragging := true) else st
  }

  /** Leaving the zone always clears the drag state, disabled or not. */
  function DragLeave(st: UploadState): (st': UploadState)
    ensures !st'.dragging
    ensures st'.files == st.files && st'.error == st.error
  {
    st.(dragging := false)
  }

  /** Dragging over and back out leaves the zone as it was before the drag began. */
  lemma DragOverThenLeave(p: UploadProps, st: UploadState)
    requires !st.dragging
    ensures DragLeave(DragOver(p, st)) == st
    ensures !p.disabled ==> DragOver(p, st).dragging
  {
  }

  /** A drop clears the drag state and hands the files over, unless disabled. */
  function Drop(p: UploadProps, st: UploadState, incoming: seq<File>): (r: (UploadState, seq<Callback>))
    ensures !r.0.dragging
    ensures p.disabled ==> r == (st.(dragging := false), [])
    ensures !p.disabled ==> r == HandleFiles(p, st.(dragging := false), incoming)
  {
    var st' := st.(dragging := false);
    if !p.disabled then HandleFiles(p, st', incoming) else (st', [])
  }

  /** `files.filter((_, i) => i !== index)`, walked from position `from`. */
  function FilterOutIndex(files: seq<File>, index: int, from: nat): (r: seq<File>)
    requires from <= |files|
    ensures 0 <= index - from < |files| - from ==> r == files[from..index] + files[index + 1..]
    ensures !(from <= index < |files|) ==> r == files[from..]
    decreases |files| - from
  {
    if from == |files| then []
    else if from == index then FilterOutIndex(files, index, from + 1)
    else [files[from]] + FilterOutIndex(files, index, from + 1)
  }

  /** `removeFile(index)`: drops exactly that position, keeps the rest in order, and reports the list. */
  function RemoveFile(st: UploadState, index: int): (r: (UploadState, seq<Callback>))
    ensures 0 <= index < |st.files| ==> r.0.files == st.files[..index] + st.files[index + 1..]
    ensures 0 <= index < |st.files| ==> |r.0.files| == |st.files| - 1
    ensures !(0 <= index < |st.files|) ==> r.0.files == st.files
    ensures r.1 == [OnFilesChange(r.0.files)]
    ensures r.0.error == st.error
  {
    var updated := FilterOutIndex(st.files, index, 0);
    (st.(files := updated), [OnFilesChange(updated)])
  }
}

=== FILE: first_time_use.dfy ===
/**
 The onboarding flow: a step cursor moved by Next, Previous and the dot
 indicators, the optional per-step action, and which buttons show with which
 labels. Reading the current step's fields when the cursor does not index a
 step throws, as reading a property of `undefined` does.
 */
module FirstTimeUse {
  import opened Js

  /** A step as the flow reads it; `hasOnAction` says whether `onAction` is given. */
  datatype OnboardingStep = OnboardingStep(actionLabel: Option<string>, hasOnAction: bool, skipable: Option<bool>)

  datatype Labels = Labels(completeLabel: string, skipLabel: string, nextLabel: string, previousLabel: string)

  const DefaultLabels: Labels := Labels("Get Started", "Skip", "Next", "Previous")

  datatype Callback = OnAction(step: int) | OnComplete | OnSkip

  const UndefinedRead: string := "Cannot read properties of undefined"

  /** The cursor starts on the first step. */
  function Init(): int
  {
    0
  }

  predicate InRange(steps: seq<OnboardingStep>, current: int)
  {
    0 <= current < |steps|
  }

  /** A present, non-empty action label: `actionLabel` is truthy. */
  predicate HasActionLabel(s: OnboardingStep)
  {
    s.actionLabel.Some? && s.actionLabel.value != ""
  }

  /** `handleNext()`: run the step's action if it has both parts, then advance or complete. */
  function HandleNext(steps: seq<OnboardingStep>, current: int): (r: Result<(int, seq<Callback>)>)
    ensures r.Thrown? <==> !InRange(steps, current)
    ensures r.Ok? ==> var (next, calls) := r.value;
      var action := if HasActionLabel(steps[current]) && steps[current].hasOnAction then [OnAction(current)] else [];
      && (current < |steps| - 1 ==> next == current + 1 && calls == action)
      && (current == |steps| - 1 ==> next == current && calls == action + [OnComplete])
  {
    if !InRange(steps, current) then Thrown(UndefinedRead)
    else
      var s := steps[current];
      var action := if HasActionLabel(s) && s.hasOnAction then [OnAction(current)] else [];
      if current < |steps| - 1 then Ok((current + 1, action)) else Ok((current, action + [OnComplete]))
  }

  /** `handlePrevious()`: step back unless on the first step. */
  function HandlePrevious(current: int): (next: int)
    ensures current > 0 ==> next == current - 1
    ensures current <= 0 ==> next == current
    ensures next >= 0 || next == current
  {
    if current > 0 then current - 1 else current
  }

  /** `handleSkip()`. */
  function HandleSkip(): (calls: seq<Callback>)
    ensures calls == [OnSkip]
  {
    [OnSkip]
  }

  /** A dot indicator click jumps straight to its step. */
  function JumpTo(steps: seq<OnboardingStep>, index: int): (next: int)
    requires 0 <= index < |steps|
    ensures InRange(steps, next) && next == index
  {
    index
  }

  /** Every way of moving the cursor keeps it on a step, so the flow never throws. */
  lemma CursorStaysInRange(steps: seq<OnboardingStep>, current: int, index: int)
    requires InRange(steps, current)
    ensures HandleNext(steps, current).Ok? && InRange(steps, HandleNext(steps, current).value.0)
    ensures InRange(steps, HandlePrevious(current))
    ensures 0 <= index < |steps| ==> InRange(steps, JumpTo(steps, index))
  {
  }

  /** With no steps the very first render reads `steps[0]` and throws. */
  lemma NoStepsThrows()
    ensures HandleNext([], Init()).Thrown?
    ensures !InRange([], Init())
  {
  }

  /** Next from the first step reaches the last after `|steps| - 1` presses, then only completes. */
  lemma NextWalksToTheEnd(steps: seq<OnboardingStep>, current: int)
    requires InRange(steps, current)
    ensures var r := HandleNext(steps, current).value;
      (r.0 == current) <==> current == |steps| - 1
    ensures var r := HandleNext(steps, current).value;
      (OnComplete in r.1) <==> current == |steps| - 1
  {
  }

  /** Whether the Previous button shows. */
  predicate ShowPrevious(current: int)
  {
    current > 0
  }

  /** Whether the Skip button shows: unless the step opts out with `false`, and never on the last step. */
  predicate ShowSkip(steps: seq<OnboardingStep>, current: int)
    requires InRange(steps, current)
  {
    steps[current].skipable != Some(false) && current < |steps| - 1
  }

  /** The primary button's label. */
  function PrimaryLabel(steps: seq<OnboardingStep>, current: int, labels: Labels): (l: string)
    requires InRange(steps, current)
    ensures current == |steps| - 1 ==> l == labels.completeLabel
    ensures current < |steps| - 1 && HasActionLabel(steps[current]) ==> l == steps[current].actionLabel.value
    ensures current < |steps| - 1 && !HasActionLabel(steps[current]) ==> l == labels.nextLabel
  {
    if current == |steps| - 1 then labels.completeLabel
    else if HasActionLabel(steps[current]) then steps[current].actionLabel.value
    else labels.nextLabel
  }

  /**
   The buttons agree with what the handlers do: Previous shows exactly when it
   would move the cursor, and the complete label shows exactly when Next
   would complete rather than advance.
   */
  lemma ButtonsMatchHandlers(steps: seq<OnboardingStep>, current: int, labels: Labels)
    requires InRange(steps, current)
    ensures ShowPrevious(current) <==> HandlePrevious(current) != current
    ensures current == |steps| - 1 <==> OnComplete in HandleNext(steps, current).value.1
    ensures ShowSkip(steps, current) ==> HandleNext(steps, current).value.0 == current + 1
  {
  }

  datatype Dot = Active | Visited | Upcoming

  /** A dot's look: the current step, a step before it, or one after. */
  function DotState(current: int, index: int): (d: Dot)
    ensures d == Active <==> index == current
    ensures d == Visited <==> index < current
    ensures d == Upcoming <==> index > current
  {
    if index == current then Active else if index < current then Visited else Upcoming
  }
}

=== FILE: form_pattern.dfy ===
/**
 The generic form: field values, error messages and the touched set, with
 required-field validation on blur and on submit. `formData` and `errors` are
 records from field name to string; a missing entry reads as `undefined`.
 */
module FormPattern {
  import opened Js

  datatype Field = Field(name: string, fieldLabel: string, required: bool)

  datatype FormState = FormState(formData: map<string, string>, errors: map<string, string>, touched: seq<string>)

  datatype Callback = OnSubmit(data: map<string, string>)

  function Init(): FormState
  {
    FormState(map[], map[], [])
  }

  /** `record[name]` is truthy: present and not the empty string. */
  predicate Truthy(r: map<string, string>, name: string)
  {
    name in r && r[name] != ""
  }

  function RequiredMessage(f: Field): string
  {
    f.fieldLabel + " is required"
  }

  /** `handleChange(name, value)`: store the value; a showing error of that field is blanked. */
  function HandleChange(st: FormState, name: string, value: string): (st': FormState)
    ensures st'.formData == st.formData[name := value]
    ensures Truthy(st.errors, name) ==> st'.errors == st.errors[name := ""]
    ensures !Truthy(st.errors, name) ==> st'.errors == st.errors
    ensures st'.touched == st.touched
  {
    var errors := if Truthy(st.errors, name) then st.errors[name := ""] else st.errors;
    FormState(st.formData[name := value], errors, st.touched)
  }

  /** Typing touches only its own field: every other value and error is kept. */
  lemma ChangeIsLocal(st: FormState, name: string, value: string, other: string)
    requires other != name
    ensures var st' := HandleChange(st, name, value);
      && (other in st'.formData <==> other in st.formData)
      && (other in st.formData ==> st'.formData[other] == st.formData[other])
      && (other in st'.errors <==> other in st.errors)
      && (other in st.errors ==> st'.errors[other] == st.errors[other])
      && !Truthy(st'.errors, name)
  {
  }

  /** `fields.find(f => f.name === name)`. */
  function Find(fields: seq<Field>, name: string): (r: Option<Field>)
    ensures r.Some? ==> r.value in fields && r.value.name == name
    ensures r.None? <==> forall f :: f in fields ==> f.name != name
  {
    if |fields| == 0 then None
    else if fields[0].name == name then Some(fields[0])
    else Find(fields[1..], name)
  }

  /** `handleBlur(name)`: mark touched, and flag the field if it is required and empty. */
  function HandleBlur(fields: seq<Field>, st: FormState, name: string): (st': FormState)
    requires NoDup(st.touched)
    ensures NoDup(st'.touched)
    ensures forall n :: n in st'.touched <==> n in st.touched || n == name
    ensures st'.formData == st.formData
    ensures var f := Find(fields, name);
      f.Some? && f.value.required && !Truthy(st.formData, name) ==>
        st'.errors == st.errors[name := RequiredMessage(f.value)]
    ensures var f := Find(fields, name);
      !(f.Some? && f.value.required && !Truthy(st.formData, name)) ==> st'.errors == st.errors
  {
    var f := Find(fields, name);
    var errors := if f.Some? && f.value.required && !Truthy(st.formData, name)
      then st.errors[name := RequiredMessage(f.value)] else st.errors;
    FormState(st.formData, errors, SetAdd(st.touched, name))
  }

  /** The `newErrors` record `handleSubmit` builds: the last failing field of a name wins. */
  function Validate(fields: seq<Field>, data: map<string, string>): (errs: map<string, string>)
    ensures errs.Keys == set f | f in fields && f.required && !Truthy(data, f.name) :: f.name
    ensures forall k :: k in errs ==>
      exists f :: f in fields && f.name == k && f.required && errs[k] == RequiredMessage(f)
    decreases |fields|
  {
    if |fields| == 0 then map[]
    else
      var prefix := fields[..|fields| - 1];
      var f := fields[|fields| - 1];
      assert fields == prefix + [f];
      var m := Validate(prefix, data);
      if f.required && !Truthy(data, f.name) then m[f.name := RequiredMessage(f)] else m
  }

  /** Some required field is empty. */
  predicate HasMissing(fields: seq<Field>, data: map<string, string>)
  {
    exists f :: f in fields && f.required && !Truthy(data, f.name)
  }

  /** `handleSubmit()`: either replace the errors and touch every field, or submit the values. */
  function HandleSubmit(fields: seq<Field>, st: FormState): (r: (FormState, seq<Callback>))
    ensures HasMissing(fields, st.formData) ==>
      && r.1 == []
      && r.0.errors == Validate(fields, st.formData)
      && r.0.formData == st.formData
      && (forall n :: n in r.0.touched <==> exists f :: f in fields && f.name == n)
    ensures !HasMissing(fields, st.formData) ==> r == (st, [OnSubmit(st.formData)])
  {
    var newErrors := Validate(fields, st.formData);
    if |newErrors.Keys| > 0 then
      var names := seq(|fields|, i requires 0 <= i < |fields| => fields[i].name);
      assert forall n :: n in names <==> exists f :: f in fields && f.name == n by {
        forall n | exists f :: f in fields && f.name == n
          ensures n in names
        {
          var f :| f in fields && f.name == n;
          var i :| 0 <= i < |fields| && fields[i] == f;
          assert names[i] == n;
        }
      }
      (FormState(st.formData, newErrors, SetOf(names)), [])
    else
      assert forall f | f in fields && f.required :: Truthy(st.formData, f.name) by {
        forall f | f in fields && f.required ensures Truthy(st.formData, f.name) {
          assert Truthy(st.formData, f.name) || f.name in newErrors.Keys;
        }
      }
      (st, [OnSubmit(st.formData)])
  }

  /** Whether a field's error line shows: touched and a non-empty message. */
  predicate ErrorShown(st: FormState, name: string)
  {
    name in st.touched && Truthy(st.errors, name)
  }

  /** `onSubmit` receives the values exactly when every required field is filled. */
  lemma SubmitIffComplete(fields: seq<Field>, st: FormState)
    ensures HandleSubmit(fields, st).1 == [OnSubmit(st.formData)]
      <==> forall f :: f in fields && f.required ==> Truthy(st.formData, f.name)
  {
  }

  /**
   After a rejected submit every empty required field shows its error, and a
   field whose error is shown hides it again as soon as it is typed into.
   */
  lemma RejectedSubmitShowsErrors(fields: seq<Field>, st: FormState, f: Field, value: string)
    requires f in fields && f.required && !Truthy(st.formData, f.name)
    ensures var st' := HandleSubmit(fields, st).0;
      ErrorShown(st', f.name) && !ErrorShown(HandleChange(st', f.name, value), f.name)
  {
    var st' := HandleSubmit(fields, st).0;
    assert f.name in st'.errors;
    var g :| g in fields && g.name == f.name && g.required && st'.errors[f.name] == RequiredMessage(g);
    assert |RequiredMessage(g)| > 0;
    assert f.name in st'.touched;
  }
}

=== FILE: glass_utils.dfy ===
/**
 The glassmorphism helpers: the light and dark variant class tables, the
 class-name builder and its defaults, the inline backdrop-filter styles, the
 `withGlass` wrapper's class string and the responsive presets.
 */
module GlassUtils {
  import opened Js
  import ThemeTypes
  import SlateTheme

  datatype GlassVariant = Subtle | Default | Strong | Heavy

  datatype GlassBlur = Sm | Md | Lg | Xl

  /** `GlassOptions`; an absent field takes its default. */
  datatype GlassOptions = GlassOptions(
    variant: Option<GlassVariant>,
    blur: Option<GlassBlur>,
    border: Option<bool>,
    shadow: Option<bool>,
    darkMode: Option<bool>)

  /** The options after defaulting. */
  datatype Resolved = Resolved(variant: GlassVariant, blur: GlassBlur, border: bool, shadow: bool, darkMode: bool)

  datatype GlassStyle = GlassStyle(
    backdropFilter: string,
    webkitBackdropFilter: string,
    backgroundColor: string,
    border: string,
    borderTop: string,
    borderLeft: string)

  datatype Breakpoint = Mobile | Tablet | Desktop

  function OrElse<T>(o: Option<T>, d: T): T
  {
    if o.Some? then o.value else d
  }

  /** The destructuring defaults: `default` variant, `md` blur, border on, shadow off, light mode. */
  function Resolve(o: GlassOptions): (r: Resolved)
    ensures o.variant.None? ==> r.variant == Default
    ensures o.blur.None? ==> r.blur == Md
    ensures o.border.None? ==> r.border
    ensures o.shadow.None? ==> !r.shadow
    ensures o.darkMode.None? ==> !r.darkMode
  {
    Resolved(OrElse(o.variant, Default), OrElse(o.blur, Md), OrElse(o.border, true),
      OrElse(o.shadow, false), OrElse(o.darkMode, false))
  }

  /** Defaults only fill gaps: fully specified options resolve to themselves. */
  lemma ResolveExplicit(r: Resolved)
    ensures Resolve(GlassOptions(Some(r.variant), Some(r.blur), Some(r.border), Some(r.shadow), Some(r.darkMode))) == r
  {
  }

  function BlurName(b: GlassBlur): (n: string)
    ensures |n| == 2
  {
    match b
    case Sm => "sm"
    case Md => "md"
    case Lg => "lg"
    case Xl => "xl"
  }

  /** `blurClasses[blur]`. */
  function BlurClass(b: GlassBlur): (c: string)
    ensures |c| == 16
  {
    "backdrop-blur-" + BlurName(b)
  }

  /** The blur each variant's own classes start with. */
  function IntrinsicBlur(v: GlassVariant): GlassBlur
  {
    match v
    case Subtle => Sm
    case Default => Md
    case Strong => Lg
    case Heavy => Xl
  }

  /** A table entry: a blur class, a space, then the rest of the entry's classes. */
  function Entry(b: GlassBlur, rest: string): (c: string)
    ensures |c| == 17 + |rest| && c[..16] == BlurClass(b) && c[16] == ' '
  {
    BlurClass(b) + " " + rest
  }

  /**
   The classes of each entry of `glassVariants` and `glassVariantsDark` after
   its leading blur class, as written in the two tables.
   */
  function VariantRest(v: GlassVariant, dark: bool): string
  {
    if dark then
      match v
      case Subtle => "bg-glass-bg-subtle-dark border border-glass-border-dark"
      case Default => "bg-glass-bg-default-dark border border-glass-border-dark border-t border-l border-glass-border-dark-highlight shadow-glass-md"
      case Strong => "bg-glass-bg-strong-dark border border-glass-border-dark-highlight shadow-glass-md"
      case Heavy => "bg-glass-bg-strong-dark border border-glass-border-dark-highlight shadow-glass-lg"
    else
      match v
      case Subtle => "bg-glass-bg-subtle border border-glass-border-light"
      case Default => "bg-glass-bg-default border border-glass-border-light border-t border-l border-glass-border-highlight shadow-glass-md"
      case Strong => "bg-glass-bg-strong border border-glass-border-highlight shadow-glass-md"
      case Heavy => "bg-glass-bg-strong border border-glass-border-highlight border-t border-l border-glass-border-glow shadow-glass-lg"
  }

  /**
   `(darkMode ? glassVariantsDark : glassVariants)[variant]`: in either table
   every entry opens with the blur class of its own blur step and a space.
   */
  function VariantClasses(v: GlassVariant, dark: bool): (c: string)
    ensures |c| >= 17 && c[..16] == BlurClass(IntrinsicBlur(v)) && c[16] == ' '
  {
    match v
    case Subtle => Entry(Sm, VariantRest(Subtle, dark))
    case Default => Entry(Md, VariantRest(Default, dark))
    case Strong => Entry(Lg, VariantRest(Strong, dark))
    case Heavy => Entry(Xl, VariantRest(Heavy, dark))
  }

  /** Within each table the four variants have four different entries. */
  lemma VariantEntriesDistinct(v: GlassVariant, w: GlassVariant, dark: bool)
    ensures VariantClasses(v, dark) == VariantClasses(w, dark) <==> v == w
  {
    if v != w {
      assert VariantClasses(v, dark)[..16] != VariantClasses(w, dark)[..16] by {
        BlurClassInjective(IntrinsicBlur(v), IntrinsicBlur(w));
      }
    }
  }

  const BorderClasses: string := "border border-white/10 border-t border-l border-white/20"

  const ShadowClasses: string := "shadow-glass-md"

  /** The class-name parts `getGlassClasses` keeps for resolved options, in order. */
  function ClassParts(r: Resolved): (parts: seq<string>)
    ensures parts == ["relative", BlurClass(r.blur), VariantClasses(r.variant, r.darkMode)]
      + (if r.border then [BorderClasses] else [])
      + (if r.shadow then [ShadowClasses] else [])
  {
    var blur, variant := BlurClass(r.blur), VariantClasses(r.variant, r.darkMode);
    var border := if r.border then BorderClasses else "";
    var shadow := if r.shadow then ShadowClasses else "";
    assert border == "" <==> !r.border by {
      assert |BorderClasses| > 0;
    }
    assert shadow == "" <==> !r.shadow by {
      assert |ShadowClasses| > 0;
    }
    NonEmptyThenOptional("relative", blur, variant, border, shadow);
    NonEmpty(["relative", blur, variant, border, shadow])
  }

  /** `filter(Boolean)` over three present parts and two optional ones. */
  lemma NonEmptyThenOptional(a: string, b: string, c: string, d: string, e: string)
    requires a != "" && b != "" && c != ""
    ensures NonEmpty([a, b, c, d, e]) == [a, b, c] + (if d == "" then [] else [d]) + (if e == "" then [] else [e])
  {
    var E := if e == "" then [] else [e];
    var D := if d == "" then [] else [d];
    assert [a, b, c, d, e] == ([a, b, c] + [d]) + [e];
    assert NonEmpty([a, b, c]) == [a, b, c] by {
      NonEmptyKeeps([a, b, c]);
    }
    assert NonEmpty([d]) == D by {
      NonEmptyOne(d);
    }
    assert NonEmpty([e]) == E by {
      NonEmptyOne(e);
    }
    assert NonEmpty([a, b, c] + [d]) == [a, b, c] + D by {
      NonEmptyAppend([a, b, c], [d]);
    }
    NonEmptyAppend([a, b, c] + [d], [e]);
  }

  lemma NonEmptyOne(x: string)
    ensures NonEmpty([x]) == if x == "" then [] else [x]
  {
    assert [x][1..] == [];
  }

  lemma {:induction false} NonEmptyKeeps(parts: seq<string>)
    requires forall i :: 0 <= i < |parts| ==> parts[i] != ""
    ensures NonEmpty(parts) == parts
    decreases |parts|
  {
    if |parts| > 0 {
      NonEmptyKeeps(parts[1..]);
    }
  }

  /** `getGlassClasses(options)`. */
  function GlassClasses(o: GlassOptions): (c: string)
    ensures c == Join(ClassParts(Resolve(o)), " ")
  {
    var r := Resolve(o);
    ClassList(["relative", BlurClass(r.blur), VariantClasses(r.variant, r.darkMode),
      if r.border then BorderClasses else "", if r.shadow then ShadowClasses else ""])
  }

  /**
   The blur option and the variant each bring a blur class: they agree exactly
   when the option is the variant's own blur, as it is with the defaults.
   */
  lemma BlurOptionMeetsVariant(r: Resolved)
    ensures (ClassParts(r)[1] == VariantClasses(r.variant, r.darkMode)[..16]) <==> r.blur == IntrinsicBlur(r.variant)
    ensures var d := Resolve(GlassOptions(None, None, None, None, None)); d.blur == IntrinsicBlur(d.variant)
  {
    var vb := BlurClass(IntrinsicBlur(r.variant));
    BlurClassInjective(r.blur, IntrinsicBlur(r.variant));
  }

  lemma BlurClassInjective(a: GlassBlur, b: GlassBlur)
    ensures BlurClass(a) == BlurClass(b) <==> a == b
  {
    if BlurClass(a) == BlurClass(b) {
      assert BlurName(a) == BlurClass(a)[14..] == BlurClass(b)[14..] == BlurName(b);
      assert BlurName(a)[0] == BlurName(b)[0] && BlurName(a)[1] == BlurName(b)[1];
    }
  }

  // ----- inline styles -----

  /** `blurValues[blur]`, in pixels. */
  function BlurPx(b: GlassBlur): (px: nat)
    ensures px % 4 == 0 && 12 <= px <= 36
  {
    match b
    case Sm => 12
    case Md => 20
    case Lg => 28
    case Xl => 36
  }

  function BlurRank(b: GlassBlur): nat
  {
    match b
    case Sm => 0
    case Md => 1
    case Lg => 2
    case Xl => 3
  }

  /** The pixel radius grows with the blur step: 12 < 20 < 28 < 36. */
  lemma BlurPxIncreasing(a: GlassBlur, b: GlassBlur)
    ensures BlurRank(a) < BlurRank(b) <==> BlurPx(a) < BlurPx(b)
    ensures BlurPx(a) == BlurPx(b) <==> a == b
  {
  }

  /** `bgValues[variant]` in the light or dark table. */
  function BackgroundColor(v: GlassVariant, dark: bool): string
  {
    if dark then
      match v
      case Subtle => "rgba(15, 23, 42, 0.25)"
      case Default => "rgba(15, 23, 42, 0.45)"
      case Strong => "rgba(15, 23, 42, 0.65)"
      case Heavy => "rgba(15, 23, 42, 0.75)"
    else
      match v
      case Subtle => "rgba(100, 116, 139, 0.08)"
      case Default => "rgba(100, 116, 139, 0.15)"
      case Strong => "rgba(100, 116, 139, 0.25)"
      case Heavy => "rgba(100, 116, 139, 0.35)"
  }

  /** `blur(Npx) saturate(200%)`. */
  function BackdropFilter(b: GlassBlur): (f: string)
    ensures |f| > 5 && f[..5] == "blur("
  {
    "blur(" + NatToString(BlurPx(b)) + "px) saturate(200%)"
  }

  /** `getGlassStyles(options)`: the same filter for both spellings, and the fixed borders. */
  function GlassStyles(o: GlassOptions): (st: GlassStyle)
    ensures st.backdropFilter == st.webkitBackdropFilter == BackdropFilter(Resolve(o).blur)
    ensures st.backgroundColor == BackgroundColor(Resolve(o).variant, Resolve(o).darkMode)
    ensures st.border == "1px solid rgba(203, 213, 225, 0.15)"
    ensures st.borderTop == st.borderLeft == "1px solid rgba(203, 213, 225, 0.35)"
  {
    var r := Resolve(o);
    var filter := BackdropFilter(r.blur);
    GlassStyle(filter, filter, BackgroundColor(r.variant, r.darkMode),
      "1px solid rgba(203, 213, 225, 0.15)",
      "1px solid rgba(203, 213, 225, 0.35)",
      "1px solid rgba(203, 213, 225, 0.35)")
  }

  /** A blur step's pixel radius written as a CSS length. */
  function PxText(b: GlassBlur): string
  {
    NatToString(BlurPx(b)) + "px"
  }

  lemma PxTexts()
    ensures PxText(Sm) == "12px" && PxText(Md) == "20px" && PxText(Lg) == "28px" && PxText(Xl) == "36px"
  {
    assert NatToString(1) == "1" && NatToString(2) == "2" && NatToString(3) == "3";
  }

  /** The inline-style radii are the slate theme's glass blur tokens, step for step. */
  lemma SlateBlurTokensMatch()
    ensures SlateTheme.Slate().glass.Some?
    ensures SlateTheme.Slate().glass.value.blur == ThemeTypes.Sizes4(PxText(Sm), PxText(Md), PxText(Lg), PxText(Xl))
  {
    SlateTheme.SlateBlurRamp();
    PxTexts();
  }

  /** Different blur steps give different filter strings: the pixel radius can be read back. */
  lemma BackdropFilterDecodes(a: GlassBlur, b: GlassBlur)
    requires BackdropFilter(a) == BackdropFilter(b)
    ensures a == b
  {
    var na, nb := NatToString(BlurPx(a)), NatToString(BlurPx(b));
    assert |na| == |nb| == 2;
    assert na == BackdropFilter(a)[5..7] == BackdropFilter(b)[5..7] == nb;
    NatToStringInjective(BlurPx(a), BlurPx(b));
    BlurPxIncreasing(a, b);
  }

  // ----- withGlass -----

  /**
   `withGlass(Component, defaults)` rendered with `variant` and `className`:
   the variant prop, else the default variant when truthy, else `default`;
   then the glass classes, one space, and the class name or nothing.
   */
  function WithGlassClassName(defaults: GlassOptions, variant: Option<GlassVariant>, className: Option<string>): (c: string)
    ensures var v := if variant.Some? then variant.value else OrElse(defaults.variant, Default);
      var glass := GlassClasses(defaults.(variant := Some(v)));
      && (className.None? ==> c == glass + " ")
      && (className.Some? ==> c == glass + " " + className.value)
  {
    var v := if variant.Some? then variant.value else OrElse(defaults.variant, Default);
    GlassClasses(defaults.(variant := Some(v))) + " " + OrElse(className, "")
  }

  /**
   With a non-empty class name the wrapper's string is the class list with
   that name appended; without one it ends in a stray space.
   */
  lemma WithGlassAppends(defaults: GlassOptions, variant: Option<GlassVariant>, className: string)
    ensures var v := if variant.Some? then variant.value else OrElse(defaults.variant, Default);
      var parts := ClassParts(Resolve(defaults.(variant := Some(v))));
      && (className != "" ==> WithGlassClassName(defaults, variant, Some(className)) == Join(parts + [className], " "))
      && WithGlassClassName(defaults, variant, None)[|WithGlassClassName(defaults, variant, None)| - 1] == ' '
  {
    var v := if variant.Some? then variant.value else OrElse(defaults.variant, Default);
    var parts := ClassParts(Resolve(defaults.(variant := Some(v))));
    JoinAppend(parts, [className], " ");
  }

  // ----- responsive presets -----

  /** `responsiveGlassVariants[bp]`: the blur and variant for a breakpoint. */
  function Responsive(bp: Breakpoint): (r: (GlassBlur, GlassVariant))
    ensures r.0 == IntrinsicBlur(r.1)
  {
    match bp
    case Mobile => (Sm, Subtle)
    case Tablet => (Md, Default)
    case Desktop => (Lg, Strong)
  }

  /** Wider screens get strictly more blur: 12px, then 20px, then 28px. */
  lemma ResponsiveBlurGrows()
    ensures BlurPx(Responsive(Mobile).0) < BlurPx(Responsive(Tablet).0) < BlurPx(Responsive(Desktop).0)
    ensures BlurPx(Responsive(Mobile).0) == 12 && BlurPx(Responsive(Desktop).0) == 28
  {
  }
}

=== FILE: gradient_utils.dfy ===
/**
 The gradient helpers: the preset table, direction angles, the class-name
 and inline-style builders, the linear/radial/conic/mesh string templates,
 text-gradient styles and the animation class. Angles are integers here.
 */
module GradientUtils {
  import opened Js

  datatype Variant = Primary | PrimarySubtle | Accent | AccentSubtle | Neutral | MeshSunset | Animated | Custom

  datatype Direction = ToRight | ToLeft | ToBottom | ToTop | ToBr | ToBl | ToTr | ToTl

  datatype GradientOptions = GradientOptions(
    variant: Option<Variant>,
    direction: Option<Direction>,
    animated: Option<bool>,
    colors: Option<seq<string>>,
    angle: Option<int>)

  /** A preset: its CSS background, and the colour stops and angle it was drawn from, when it has them. */
  datatype Preset = Preset(background: string, colors: Option<seq<string>>, angle: Option<int>, kind: Option<string>)

  datatype MeshStop = MeshStop(color: string, position: string, size: Option<string>)

  datatype TextGradientOptions = TextGradientOptions(colors: Option<seq<string>>, angle: Option<int>, variant: Option<Variant>)

  datatype TextStyle = TextStyle(background: string, webkitBackgroundClip: string, webkitTextFillColor: string, backgroundClip: string)

  datatype Animation = Flow | Mesh | Shimmer | Pulse

  // ----- presets -----

  const MeshSunsetStops: seq<MeshStop> := [
    MeshStop("rgba(255, 255, 255, 0.5)", "0% 0%", None),
    MeshStop("rgba(212, 212, 212, 0.5)", "100% 0%", None),
    MeshStop("rgba(163, 163, 163, 0.5)", "100% 100%", None),
    MeshStop("rgba(115, 115, 115, 0.5)", "0% 100%", None)]

  const MeshSunsetBackground: string :=
    "radial-gradient(at 0% 0%, rgba(255, 255, 255, 0.5) 0, transparent 50%), radial-gradient(at 100% 0%, rgba(212, 212, 212, 0.5) 0, transparent 50%), radial-gradient(at 100% 100%, rgba(163, 163, 163, 0.5) 0, transparent 50%), radial-gradient(at 0% 100%, rgba(115, 115, 115, 0.5) 0, transparent 50%)"

  /** `gradientPresets[p]` for every variant but `custom`. */
  function PresetOf(v: Variant): (p: Preset)
    requires v != Custom
    ensures v == MeshSunset <==> p.colors.None?
    ensures p.colors.Some? <==> p.angle.Some?
  {
    match v
    case Primary => Preset("linear-gradient(135deg, #ffffff 0%, #a3a3a3 100%)",
      Some(["#ffffff", "#a3a3a3"]), Some(135), None)
    case PrimarySubtle => Preset("linear-gradient(135deg, rgba(255, 255, 255, 0.2) 0%, rgba(163, 163, 163, 0.2) 100%)",
      Some(["rgba(255, 255, 255, 0.2)", "rgba(163, 163, 163, 0.2)"]), Some(135), None)
    case Accent => Preset("linear-gradient(135deg, #d4d4d4 0%, #737373 100%)",
      Some(["#d4d4d4", "#737373"]), Some(135), None)
    case AccentSubtle => Preset("linear-gradient(135deg, rgba(212, 212, 212, 0.2) 0%, rgba(115, 115, 115, 0.2) 100%)",
      Some(["rgba(212, 212, 212, 0.2)", "rgba(115, 115, 115, 0.2)"]), Some(135), None)
    case Neutral => Preset("linear-gradient(135deg, #262626 0%, #404040 100%)",
      Some(["#262626", "#404040"]), Some(135), None)
    case MeshSunset => Preset(
      MeshSunsetBackground,
      None, None, Some("mesh"))
    case Animated => Preset("linear-gradient(-45deg, #404040, #737373, #a3a3a3, #d4d4d4)",
      Some(["#404040", "#737373", "#a3a3a3", "#d4d4d4"]), Some(-45), None)
  }

  // ----- directions -----

  /** `directionToAngle[d]`. */
  function DirectionToAngle(d: Direction): (a: int)
    ensures 0 <= a <= 315 && a % 45 == 0
  {
    match d
    case ToRight => 90
    case ToLeft => 270
    case ToBottom => 180
    case ToTop => 0
    case ToBr => 135
    case ToBl => 225
    case ToTr => 45
    case ToTl => 315
  }

  /** The direction pointing the other way. */
  function Opposite(d: Direction): Direction
  {
    match d
    case ToRight => ToLeft
    case ToLeft => ToRight
    case ToBottom => ToTop
    case ToTop => ToBottom
    case ToBr => ToTl
    case ToTl => ToBr
    case ToBl => ToTr
    case ToTr => ToBl
  }

  /** The eight directions get eight different angles, and opposite directions are half a turn apart. */
  lemma AnglesDistinctAndOpposed(d: Direction, e: Direction)
    ensures DirectionToAngle(d) == DirectionToAngle(e) ==> d == e
    ensures DirectionToAngle(Opposite(d)) == (DirectionToAngle(d) + 180) % 360
    ensures Opposite(Opposite(d)) == d && Opposite(d) != d
  {
  }

  // ----- classes -----

  /** `variantClasses[variant]`. */
  function VariantClass(v: Variant): (c: string)
    ensures |c| > 9 && c[..9] == "gradient-"
  {
    match v
    case Primary => "gradient-primary"
    case PrimarySubtle => "gradient-primary-subtle"
    case Accent => "gradient-accent"
    case AccentSubtle => "gradient-accent-subtle"
    case Neutral => "gradient-neutral"
    case MeshSunset => "gradient-mesh"
    case Animated => "gradient-animated"
    case Custom => "gradient-custom"
  }

  /** The class-name parts `getGradientClasses` keeps, in order. */
  function GradientClassParts(o: GradientOptions): (parts: seq<string>)
    ensures |parts| == if o.animated == Some(true) then 3 else 2
    ensures parts[0] == "gradient-base"
    ensures parts[1] == VariantClass(if o.variant.Some? then o.variant.value else Primary)
    ensures o.animated == Some(true) ==> parts[2] == "gradient-animated"
  {
    var variant := if o.variant.Some? then o.variant.value else Primary;
    var animatedClass := if o.animated == Some(true) then "gradient-animated" else "";
    var all := ["gradient-base", VariantClass(variant), animatedClass];
    assert all[1..] == [VariantClass(variant), animatedClass];
    assert all[1..][1..] == [animatedClass];
    assert all[1..][1..][1..] == [];
    assert NonEmpty([animatedClass]) == if animatedClass == "" then [] else [animatedClass];
    assert NonEmpty(all[1..]) == [VariantClass(variant)] + NonEmpty([animatedClass]);
    assert NonEmpty(all) == ["gradient-base"] + NonEmpty(all[1..]);
    NonEmpty(all)
  }

  /** `getGradientClasses(options)`. */
  function GradientClasses(o: GradientOptions): (c: string)
    ensures c == Join(GradientClassParts(o), " ")
  {
    ClassList(["gradient-base",
      VariantClass(if o.variant.Some? then o.variant.value else Primary),
      if o.animated == Some(true) then "gradient-animated" else ""])
  }

  /**
   The `animated` variant already carries `gradient-animated`; asking for the
   animation as well lists that class twice.
   */
  lemma AnimatedVariantRepeatsClass()
    ensures var parts := GradientClassParts(GradientOptions(Some(Animated), None, Some(true), None, None));
      parts[1] == parts[2] == "gradient-animated"
  {
  }

  // ----- string templates -----

  /** `createLinearGradient(colors, angle)`. */
  function LinearGradient(colors: seq<string>, angle: int): (s: string)
    ensures |s| > 16 && s[..16] == "linear-gradient(" && s[|s| - 1] == ')'
  {
    "linear-gradient(" + IntToString(angle) + "deg, " + Join(colors, ", ") + ")"
  }

  /**
   The angle and the colour list can be read back from a linear gradient:
   the number ends at the first `d`, which no printed integer contains.
   */
  lemma LinearGradientDecodes(c1: seq<string>, a1: int, c2: seq<string>, a2: int)
    requires LinearGradient(c1, a1) == LinearGradient(c2, a2)
    ensures a1 == a2 && Join(c1, ", ") == Join(c2, ", ")
  {
    var n1, n2 := IntToString(a1), IntToString(a2);
    var r1, r2 := Tail(c1), Tail(c2);
    AfterOpening(c1, a1);
    AfterOpening(c2, a2);
    NoMarkerInNumber(a1);
    NoMarkerInNumber(a2);
    SplitAtMarker(n1, r1, n2, r2, 'd');
    IntToStringInjective(a1, a2);
    TailDecodes(c1);
    TailDecodes(c2);
  }

  /** What follows the number in a linear gradient. */
  function Tail(colors: seq<string>): string
  {
    "deg, " + Join(colors, ", ") + ")"
  }

  lemma AfterOpening(colors: seq<string>, angle: int)
    ensures LinearGradient(colors, angle)[16..] == IntToString(angle) + Tail(colors)
    ensures Tail(colors)[0] == 'd'
  {
    assert LinearGradient(colors, angle) == "linear-gradient(" + (IntToString(angle) + Tail(colors));
  }

  lemma NoMarkerInNumber(a: int)
    ensures forall k :: 0 <= k < |IntToString(a)| ==> IntToString(a)[k] != 'd'
  {
    IntToStringChars(a);
  }

  lemma TailDecodes(colors: seq<string>)
    ensures |Tail(colors)| >= 6 && Join(colors, ", ") == Tail(colors)[5..|Tail(colors)| - 1]
  {
  }

  /** Two ways of writing a string as a marker-free head and a tail starting with the marker agree. */
  lemma SplitAtMarker(n1: string, r1: string, n2: string, r2: string, stop: char)
    requires n1 + r1 == n2 + r2
    requires |r1| > 0 && r1[0] == stop && |r2| > 0 && r2[0] == stop
    requires forall k :: 0 <= k < |n1| ==> n1[k] != stop
    requires forall k :: 0 <= k < |n2| ==> n2[k] != stop
    ensures n1 == n2 && r1 == r2
  {
    var s := n1 + r1;
    FirstMarkerAt(n1, r1, stop);
    FirstMarkerAt(n2, r2, stop);
    assert n1 == s[..|n1|] == n2;
    assert r1 == s[|n1|..] == r2;
  }

  /** The index of the first `stop` in `s`, or `|s|`. */
  function FirstMarker(s: string, stop: char): nat
  {
    if |s| == 0 || s[0] == stop then 0 else 1 + FirstMarker(s[1..], stop)
  }

  lemma {:induction false} FirstMarkerAt(n: string, r: string, stop: char)
    requires |r| > 0 && r[0] == stop
    requires forall k :: 0 <= k < |n| ==> n[k] != stop
    ensures FirstMarker(n + r, stop) == |n|
    decreases |n|
  {
    if |n| == 0 {
      assert n + r == r;
    } else {
      assert (n + r)[1..] == n[1..] + r;
      FirstMarkerAt(n[1..], r, stop);
    }
  }

  /** `createLinearGradient(colors, angle = 135)`. */
  function CreateLinearGradient(colors: seq<string>, angle: Option<int>): (s: string)
    ensures angle.Some? ==> s == LinearGradient(colors, angle.value)
  {
    LinearGradient(colors, if angle.Some? then angle.value else 135)
  }

  /** `createRadialGradient(colors, shape = 'circle', position = 'center')`. */
  function CreateRadialGradient(colors: seq<string>, shape: Option<string>, position: Option<string>): (s: string)
    ensures |s| > 16 && s[..16] == "radial-gradient(" && s[|s| - 1] == ')'
  {
    var sh := if shape.Some? then shape.value else "circle";
    var pos := if position.Some? then position.value else "center";
    "radial-gradient(" + sh + " at " + pos + ", " + Join(colors, ", ") + ")"
  }

  /** `createConicGradient(colors, fromAngle = 0, position = 'center')`. */
  function CreateConicGradient(colors: seq<string>, fromAngle: Option<int>, position: Option<string>): (s: string)
    ensures |s| > 20 && s[..20] == "conic-gradient(from " && s[|s| - 1] == ')'
  {
    var a := if fromAngle.Some? then fromAngle.value else 0;
    var pos := if position.Some? then position.value else "center";
    "conic-gradient(from " + IntToString(a) + "deg at " + pos + ", " + Join(colors, ", ") + ")"
  }

  /** Leaving an argument out is passing its default: 135 degrees; a circle at the centre; 0 degrees at the centre. */
  lemma BuilderDefaults(colors: seq<string>)
    ensures CreateLinearGradient(colors, None) == LinearGradient(colors, 135)
    ensures CreateRadialGradient(colors, None, None) == CreateRadialGradient(colors, Some("circle"), Some("center"))
    ensures CreateConicGradient(colors, None, None) == CreateConicGradient(colors, Some(0), Some("center"))
  {
  }

  /** The primary preset is the linear gradient of its two colours, pinned at 0% and 100%, at its angle. */
  lemma PrimaryPresetIsLinear()
    ensures var p := PresetOf(Primary);
      p.background == LinearGradient([p.colors.value[0] + " 0%", p.colors.value[1] + " 100%"], p.angle.value)
  {
    var p := PresetOf(Primary);
    assert p.colors == Some(["#ffffff", "#a3a3a3"]) && p.angle == Some(135);
    var x0, x1 := p.colors.value[0], p.colors.value[1];
    assert x0 == "#ffffff" && x1 == "#a3a3a3";
    JoinTwo(x0 + " 0%", x1 + " 100%", ", ");
    Prints135();
    PrimaryText();
  }

  lemma JoinTwo(a: string, b: string, sep: string)
    ensures Join([a, b], sep) == a + sep + b
  {
    assert [a, b][1..] == [b];
  }

  lemma PrimaryText()
    ensures "linear-gradient(" + "135" + "deg, " + (("#ffffff" + " 0%") + ", " + ("#a3a3a3" + " 100%")) + ")"
      == "linear-gradient(135deg, #ffffff 0%, #a3a3a3 100%)"
  {
  }

  lemma Prints135()
    ensures IntToString(135) == "135"
  {
    assert NatToString(1) == "1";
    assert NatToString(13) == "13";
  }

  /** One stop of a mesh: a radial gradient at its position; a missing or empty size is `transparent 50%`. */
  function MeshLayer(stop: MeshStop): string
  {
    var size := if stop.size.Some? && stop.size.value != "" then stop.size.value else "transparent 50%";
    "radial-gradient(at " + stop.position + ", " + stop.color + " 0, " + size + ")"
  }

  function MeshLayers(stops: seq<MeshStop>): (layers: seq<string>)
    ensures |layers| == |stops|
    ensures forall i :: 0 <= i < |stops| ==> layers[i] == MeshLayer(stops[i])
  {
    if |stops| == 0 then [] else [MeshLayer(stops[0])] + MeshLayers(stops[1..])
  }

  /** `createMeshGradient(stops)`: one layer per stop, in order, comma-separated. */
  function CreateMeshGradient(stops: seq<MeshStop>): (s: string)
    ensures |stops| == 0 ==> s == ""
    ensures |stops| == 1 ==> s == MeshLayer(stops[0])
  {
    Join(MeshLayers(stops), ", ")
  }

  lemma {:induction false} MeshLayersAppend(a: seq<MeshStop>, b: seq<MeshStop>)
    ensures MeshLayers(a + b) == MeshLayers(a) + MeshLayers(b)
    decreases |a|
  {
    if |a| == 0 {
      assert a + b == b;
    } else {
      assert (a + b)[1..] == a[1..] + b;
      MeshLayersAppend(a[1..], b);
    }
  }

  /** A mesh of two stop lists is the two meshes, comma-separated. */
  lemma MeshConcat(a: seq<MeshStop>, b: seq<MeshStop>)
    requires |a| > 0 && |b| > 0
    ensures CreateMeshGradient(a + b) == CreateMeshGradient(a) + ", " + CreateMeshGradient(b)
  {
    MeshLayersAppend(a, b);
    JoinAppend(MeshLayers(a), MeshLayers(b), ", ");
  }

  // ----- styles -----

  /** The angle the custom-colour branch uses: an explicit angle (0 included), else the direction's, else 135. */
  function StyleAngle(o: GradientOptions): (a: int)
    ensures o.angle.Some? ==> a == o.angle.value
    ensures o.angle.None? && o.direction.Some? ==> a == DirectionToAngle(o.direction.value)
    ensures o.angle.None? && o.direction.None? ==> a == 135
  {
    if o.angle.Some? then o.angle.value
    else if o.direction.Some? then DirectionToAngle(o.direction.value)
    else 135
  }

  /** `getGradientStyles(options).background`. */
  function GradientBackground(o: GradientOptions): (bg: string)
    ensures o.colors.Some? && |o.colors.value| > 0 ==> bg == CreateLinearGradient(o.colors.value, Some(StyleAngle(o)))
    ensures !(o.colors.Some? && |o.colors.value| > 0) ==>
      var v := if o.variant.Some? then o.variant.value else Primary;
      bg == PresetOf(if v == Custom then Primary else v).background
  {
    if o.colors.Some? && |o.colors.value| > 0 then LinearGradient(o.colors.value, StyleAngle(o))
    else
      var v := if o.variant.Some? then o.variant.value else Primary;
      if v != Custom then PresetOf(v).background else PresetOf(Primary).background
  }

  /** `getTextGradientStyles(options)`: colours, else a preset, else white to grey. */
  function TextGradientStyles(o: TextGradientOptions): (st: TextStyle)
    ensures o.colors.Some? && |o.colors.value| > 0 ==> st.background == CreateLinearGradient(o.colors.value, o.angle)
    ensures !(o.colors.Some? && |o.colors.value| > 0) && o.variant.Some? && o.variant.value != Custom ==>
      st.background == PresetOf(o.variant.value).background
    ensures !(o.colors.Some? && |o.colors.value| > 0) && !(o.variant.Some? && o.variant.value != Custom) ==>
      st.background == CreateLinearGradient(["#ffffff", "#a3a3a3"], o.angle)
    ensures st.webkitBackgroundClip == "text" && st.backgroundClip == "text"
    ensures st.webkitTextFillColor == "transparent"
  {
    var gradient :=
      if o.colors.Some? && |o.colors.value| > 0 then CreateLinearGradient(o.colors.value, o.angle)
      else if o.variant.Some? && o.variant.value != Custom then PresetOf(o.variant.value).background
      else CreateLinearGradient(["#ffffff", "#a3a3a3"], o.angle);
    TextStyle(gradient, "text", "transparent", "text")
  }

  /**
   Without colours, text and box agree on every non-custom variant: both use
   that variant's preset background.
   */
  lemma TextMatchesBox(o: TextGradientOptions, g: GradientOptions)
    requires o.colors.None? && g.colors.None?
    requires o.variant == g.variant && o.variant.Some? && o.variant.value != Custom
    ensures TextGradientStyles(o).background == GradientBackground(g)
  {
  }

  /**
   With neither colours nor a variant, the text falls back to a two-colour
   gradient without stops, which differs from the primary preset the box uses.
   */
  lemma TextFallbackIsNotPrimary()
    ensures TextGradientStyles(TextGradientOptions(None, None, None)).background
      != GradientBackground(GradientOptions(None, None, None, None, None))
  {
    JoinTwo("#ffffff", "#a3a3a3", ", ");
    Prints135();
    assert |TextGradientStyles(TextGradientOptions(None, None, None)).background| == 41;
    assert |PresetOf(Primary).background| == 49;
  }

  /** The mesh animation's class is the mesh-sunset variant's class. */
  lemma MeshAnimationIsMeshClass()
    ensures GradientAnimation(Some(Mesh)) == VariantClass(MeshSunset)
  {
  }

  /** `getGradientAnimation(type)`, `flow` by default. */
  function GradientAnimation(t: Option<Animation>): (c: string)
    ensures t.None? ==> c == "gradient-flow"
    ensures |c| > 9 && c[..9] == "gradient-"
  {
    "gradient-" + AnimationName(if t.Some? then t.value else Flow)
  }

  function AnimationName(a: Animation): string
  {
    match a
    case Flow => "flow"
    case Mesh => "mesh"
    case Shimmer => "shimmer"
    case Pulse => "pulse"
  }
}

=== FILE: js.dfy ===
/**
 The small part of the JavaScript runtime the components lean on: optional
 values, `Array.prototype.join`, decimal rendering of integers, `padStart`,
 `slice` with negative indices, ASCII `toLowerCase`, `String.prototype.includes`
 and the insertion-ordered `Set`.
 */
module Js {

  datatype Option<+T> = None | Some(value: T)

  /** A call that either returns a value or throws an `Error` with a message. */
  datatype Result<+T> = Ok(value: T) | Thrown(message: string)

  /** `[a, b, c].join(sep)`: the empty array joins to the empty string. */
  function Join(parts: seq<string>, sep: string): (r: string)
    ensures |parts| == 0 ==> r == ""
    ensures |parts| == 1 ==> r == parts[0]
    ensures |parts| >= 2 ==> r == parts[0] + sep + Join(parts[1..], sep)
  {
    if |parts| == 0 then ""
    else if |parts| == 1 then parts[0]
    else parts[0] + sep + Join(parts[1..], sep)
  }

  /** `s` ends with `x`. */
  predicate EndsWith<T(==)>(s: seq<T>, x: seq<T>)
  {
    |x| <= |s| && s[|s| - |x|..] == x
  }

  /** A join is as long as its parts plus one separator between each neighbouring pair. */
  lemma {:induction false} JoinLength(parts: seq<string>, sep: string)
    requires |parts| >= 1
    ensures |Join(parts, sep)| == TotalLength(parts) + (|parts| - 1) * |sep|
    decreases |parts|
  {
    if |parts| >= 2 {
      JoinLength(parts[1..], sep);
      var n := |parts| - 2;
      assert n * |sep| + |sep| == (n + 1) * |sep|;
    }
  }

  /**
   What a join looks like: the parts in order with one separator between each
   neighbouring pair, so it opens with the first part, continues with the
   separator, and ends with the last part.
   */
  lemma JoinShape(parts: seq<string>, sep: string)
    requires |parts| >= 1
    ensures parts[0] <= Join(parts, sep)
    ensures |parts| >= 2 ==> parts[0] + sep <= Join(parts, sep)
    ensures EndsWith(Join(parts, sep), parts[|parts| - 1])
  {
    if |parts| >= 2 {
      assert Join(parts, sep) == (parts[0] + sep) + Join(parts[1..], sep);
    }
    JoinEnds(parts, sep);
  }

  lemma {:induction false} JoinEnds(parts: seq<string>, sep: string)
    requires |parts| >= 1
    ensures EndsWith(Join(parts, sep), parts[|parts| - 1])
    decreases |parts|
  {
    if |parts| >= 2 {
      var tail := parts[1..];
      JoinEnds(tail, sep);
      assert tail[|tail| - 1] == parts[|parts| - 1];
      assert Join(parts, sep) == (parts[0] + sep) + Join(tail, sep);
      EndsWithAppend(parts[0] + sep, Join(tail, sep), parts[|parts| - 1]);
    }
  }

  /** A suffix of `b` is a suffix of `a + b`. */
  lemma EndsWithAppend<T>(a: seq<T>, b: seq<T>, x: seq<T>)
    requires EndsWith(b, x)
    ensures EndsWith(a + b, x)
  {
    assert (a + b)[|a + b| - |x|..] == b[|b| - |x|..];
  }

  /** The summed length of the parts. */
  function TotalLength(parts: seq<string>): nat
  {
    if |parts| == 0 then 0 else |parts[0]| + TotalLength(parts[1..])
  }

  /** `parts.filter(Boolean)`: drops the empty strings, keeping the order. */
  function NonEmpty(parts: seq<string>): (r: seq<string>)
    ensures forall i :: 0 <= i < |r| ==> r[i] != ""
    ensures forall p :: p in r <==> p in parts && p != ""
    ensures |r| <= |parts|
  {
    if |parts| == 0 then []
    else if parts[0] == "" then NonEmpty(parts[1..])
    else [parts[0]] + NonEmpty(parts[1..])
  }

  /** `[...].filter(Boolean).join(' ')`, the idiom every class-name builder uses. */
  function ClassList(parts: seq<string>): string
  {
    Join(NonEmpty(parts), " ")
  }

  /** Joining two non-empty lists is joining each and gluing them with one more separator. */
  lemma {:induction false} JoinAppend(a: seq<string>, b: seq<string>, sep: string)
    requires |a| > 0 && |b| > 0
    ensures Join(a + b, sep) == Join(a, sep) + sep + Join(b, sep)
    decreases |a|
  {
    if |a| == 1 {
      assert (a + b)[1..] == b;
    } else {
      assert (a + b)[1..] == a[1..] + b;
      JoinAppend(a[1..], b, sep);
    }
  }

  /** `filter(Boolean)` distributes over concatenation. */
  lemma {:induction false} NonEmptyAppend(a: seq<string>, b: seq<string>)
    ensures NonEmpty(a + b) == NonEmpty(a) + NonEmpty(b)
    decreases |a|
  {
    if |a| == 0 {
      assert a + b == b;
    } else {
      assert (a + b)[1..] == a[1..] + b;
      NonEmptyAppend(a[1..], b);
    }
  }

  function Digit(d: nat): (c: char)
    requires d < 10
    ensures '0' <= c <= '9'
    ensures c as int - '0' as int == d
  {
    "0123456789"[d]
  }

  predicate IsDigit(c: char)
  {
    '0' <= c <= '9'
  }

  /** `String(n)` for a non-negative integer: decimal, no leading zeros. */
  function NatToString(n: nat): (r: string)
    ensures |r| >= 1
    ensures forall i :: 0 <= i < |r| ==> IsDigit(r[i])
    ensures n < 10 <==> |r| == 1
    ensures n >= 10 ==> r[0] != '0'
  {
    if n < 10 then [Digit(n)] else NatToString(n / 10) + [Digit(n % 10)]
  }

  /** `String(i)` for any integer. */
  function IntToString(i: int): string
  {
    if i < 0 then "-" + NatToString(-i) else NatToString(i)
  }

  lemma {:induction false} NatToStringInjective(a: nat, b: nat)
    requires NatToString(a) == NatToString(b)
    ensures a == b
  {
    if a >= 10 && b >= 10 {
      var ra, rb := NatToString(a), NatToString(b);
      assert ra[..|ra| - 1] == NatToString(a / 10);
      assert rb[..|rb| - 1] == NatToString(b / 10);
      NatToStringInjective(a / 10, b / 10);
      assert Digit(a % 10) == ra[|ra| - 1] == rb[|rb| - 1] == Digit(b % 10);
      DigitInjective(a % 10, b % 10);
    } else if a < 10 && b < 10 {
      assert Digit(a) == NatToString(a)[0] == NatToString(b)[0] == Digit(b);
      DigitInjective(a, b);
    }
  }

  /** `String(i)` is made of digits and at most a leading minus sign. */
  lemma IntToStringChars(i: int)
    ensures |IntToString(i)| >= 1
    ensures forall k :: 0 <= k < |IntToString(i)| ==> IsDigit(IntToString(i)[k]) || IntToString(i)[k] == '-'
    ensures IsDigit(IntToString(i)[0]) <==> i >= 0
  {
  }

  /** Different integers print differently. */
  lemma IntToStringInjective(a: int, b: int)
    requires IntToString(a) == IntToString(b)
    ensures a == b
  {
    LeadingMinus(a);
    LeadingMinus(b);
    if a < 0 {
      assert b < 0;
      assert IntToString(a)[1..] == NatToString(-a);
      assert IntToString(b)[1..] == NatToString(-b);
      NatToStringInjective(-a, -b);
    } else {
      assert b >= 0;
      NatToStringInjective(a, b);
    }
  }

  /** The printed form starts with a minus sign exactly for a negative integer. */
  lemma LeadingMinus(i: int)
    ensures |IntToString(i)| >= 1
    ensures IntToString(i)[0] == '-' <==> i < 0
  {
    if i >= 0 {
      assert IsDigit(NatToString(i)[0]);
    }
  }

  lemma DigitInjective(a: nat, b: nat)
    requires a < 10 && b < 10 && Digit(a) == Digit(b)
    ensures a == b
  {
  }

  /** `s.padStart(2, '0')`. */
  function PadStart2(s: string): (r: string)
    ensures |s| >= 2 ==> r == s
    ensures |s| < 2 ==> |r| == 2 && r[2 - |s|..] == s
    ensures forall i :: 0 <= i < |r| - |s| ==> r[i] == '0'
  {
    if |s| == 0 then "00" else if |s| == 1 then "0" + s else s
  }

  /** The start index `Array.prototype.slice(k)` resolves to. */
  function SliceIndex(k: int, len: nat): (r: nat)
    ensures r <= len
    ensures k >= 0 ==> r == if k <= len then k else len
    ensures k < 0 ==> r == if len + k >= 0 then len + k else 0
  {
    if k < 0 then (if len + k >= 0 then len + k else 0)
    else if k <= len then k else len
  }

  /** `xs.slice(k)`: a suffix of `xs`; a negative `k` keeps the last `-k` elements. */
  function SliceFrom<T>(xs: seq<T>, k: int): (r: seq<T>)
    ensures EndsWith(xs, r)
    ensures 0 <= k <= |xs| ==> r == xs[k..] && |r| == |xs| - k
    ensures k > |xs| ==> r == []
    ensures -|xs| <= k < 0 ==> |r| == -k
    ensures k < -|xs| ==> r == xs
  {
    xs[SliceIndex(k, |xs|)..]
  }

  /** `xs.slice(0, n)`: a prefix of `xs`; a negative `n` drops the last `-n` elements. */
  function SliceTo<T>(xs: seq<T>, n: int): (r: seq<T>)
    ensures r <= xs
    ensures 0 <= n <= |xs| ==> |r| == n
    ensures n > |xs| ==> r == xs
    ensures -|xs| <= n < 0 ==> |r| == |xs| + n
    ensures n < -|xs| ==> r == []
  {
    xs[..SliceIndex(n, |xs|)]
  }

  /** `xs.slice(0, k)` and `xs.slice(k)` split `xs` at the same place, so together they give it back. */
  lemma SliceSplit<T>(xs: seq<T>, k: int)
    ensures SliceTo(xs, k) + SliceFrom(xs, k) == xs
  {
    assert xs[..SliceIndex(k, |xs|)] + xs[SliceIndex(k, |xs|)..] == xs;
  }

  /** An ASCII capital letter. */
  predicate IsUpper(c: char)
  {
    'A' <= c <= 'Z'
  }

  /** `toLowerCase` restricted to ASCII letters: a capital moves 32 code points down to its small letter. */
  function LowerChar(c: char): (r: char)
    ensures IsUpper(c) ==> r as int == c as int + 32 && 'a' <= r <= 'z'
    ensures !IsUpper(c) ==> r == c
    ensures !IsUpper(r)
  {
    if IsUpper(c) then (c as int + 32) as char else c
  }

  /** `s.toLowerCase()` on ASCII: same length, no capital left, every other character kept in place. */
  function Lower(s: string): (r: string)
    ensures |r| == |s|
    ensures forall i :: 0 <= i < |r| ==> !IsUpper(r[i])
    ensures forall i :: 0 <= i < |s| && !IsUpper(s[i]) ==> r[i] == s[i]
    ensures forall i :: 0 <= i < |s| && IsUpper(s[i]) ==> r[i] as int == s[i] as int + 32
    ensures (forall i :: 0 <= i < |s| ==> !IsUpper(s[i])) ==> r == s
  {
    seq(|s|, i requires 0 <= i < |s| => LowerChar(s[i]))
  }

  lemma LowerAppend(a: string, b: string)
    ensures Lower(a + b) == Lower(a) + Lower(b)
  {
  }

  /** Lowercasing twice is lowercasing once. */
  lemma LowerIdempotent(s: string)
    ensures Lower(Lower(s)) == Lower(s)
  {
  }

  /** `s.includes(sub)`. */
  predicate Contains(s: string, sub: string)
  {
    exists i :: 0 <= i <= |s| - |sub| && OccursAt(s, sub, i)
  }

  predicate OccursAt(s: string, sub: string, i: int)
    requires 0 <= i <= |s| - |sub|
  {
    s[i..i + |sub|] == sub
  }

  /** A string containing `a + b` also contains `a`. */
  lemma ContainsPrefix(s: string, a: string, b: string)
    requires Contains(s, a + b)
    ensures Contains(s, a)
  {
    var i :| 0 <= i <= |s| - |a + b| && OccursAt(s, a + b, i);
    assert s[i..i + |a|] == (a + b)[..|a|] == a;
    assert OccursAt(s, a, i);
  }

  // ----- insertion-ordered Set -----

  predicate NoDup<T(==)>(s: seq<T>)
  {
    forall i, j :: 0 <= i < j < |s| ==> s[i] != s[j]
  }

  lemma NoDupCons<T>(x: T, s: seq<T>)
    ensures NoDup([x] + s) <==> x !in s && NoDup(s)
  {
    var xs := [x] + s;
    assert forall i :: 0 <= i < |s| ==> xs[i + 1] == s[i];
    if NoDup(xs) {
      forall i, j | 0 <= i < j < |s|
        ensures s[i] != s[j]
      {
        assert xs[i + 1] != xs[j + 1];
      }
      forall k | 0 <= k < |s|
        ensures s[k] != x
      {
        assert xs[0] != xs[k + 1];
      }
    }
  }

  /** `set.add(x)`: appended at the end unless already present. */
  function SetAdd<T(==,!new)>(s: seq<T>, x: T): (r: seq<T>)
    ensures NoDup(s) ==> NoDup(r)
    ensures forall y :: y in r <==> y in s || y == x
    ensures x in s ==> r == s
    ensures x !in s ==> r == s + [x]
  {
    if x in s then s else s + [x]
  }

  /** `set.delete(x)`, equally `array.filter(v => v !== x)`: every occurrence goes, the rest keep their order. */
  function Remove<T(==,!new)>(s: seq<T>, x: T): (r: seq<T>)
    ensures forall y :: y in r <==> y in s && y != x
    ensures |r| <= |s|
    ensures x !in s ==> r == s
    ensures NoDup(s) ==> NoDup(r)
    ensures NoDup(s) && x in s ==> |r| == |s| - 1
  {
    if |s| == 0 then []
    else if s[0] == x then
      assert NoDup(s) ==> NoDup(s[1..]) && x !in s[1..];
      Remove(s[1..], x)
    else
      assert NoDup(s) ==> NoDup(s[1..]) && s[0] !in s[1..];
      [s[0]] + Remove(s[1..], x)
  }

  /** Removal works element by element, so the survivors keep their relative order. */
  lemma {:induction false} RemoveAppend<T(!new)>(a: seq<T>, b: seq<T>, x: T)
    ensures Remove(a + b, x) == Remove(a, x) + Remove(b, x)
    decreases |a|
  {
    if |a| == 0 {
      assert a + b == b;
    } else {
      assert (a + b)[1..] == a[1..] + b;
      RemoveAppend(a[1..], b, x);
    }
  }

  /** `new Set(xs)`: first occurrences, in order. */
  function SetOf<T(==,!new)>(xs: seq<T>): (r: seq<T>)
    ensures NoDup(r)
    ensures forall y :: y in r <==> y in xs
    ensures |r| <= |xs|
    ensures NoDup(xs) ==> r == xs
  {
    SetOfFrom([], xs)
  }

  function SetOfFrom<T(==,!new)>(acc: seq<T>, xs: seq<T>): (r: seq<T>)
    requires NoDup(acc)
    ensures NoDup(r)
    ensures forall y :: y in r <==> y in acc || y in xs
    ensures |r| <= |acc| + |xs|
    ensures NoDup(acc + xs) ==> r == acc + xs
    decreases |xs|
  {
    if |xs| == 0 then acc
    else
      assert NoDup(acc + xs) ==> xs[0] !in acc && NoDup(acc + [xs[0]] + xs[1..]) by {
        if NoDup(acc + xs) {
          assert acc + [xs[0]] + xs[1..] == acc + xs;
          assert (acc + xs)[|acc|] == xs[0];
          forall k | 0 <= k < |acc|
            ensures acc[k] != xs[0]
          {
            assert (acc + xs)[k] == acc[k];
          }
        }
      }
      SetOfFrom(SetAdd(acc, xs[0]), xs[1..])
  }
}

=== FILE: otp_input.dfy ===
/**
 The one-time-code input: a string of at most `length` digits typed one box at
 a time or pasted at once. Typing writes into the array of characters
 `value.split('')`; writing past its end leaves holes, which `join('')` renders
 as nothing. Focus moves are modelled as the index they target.
 */
module OtpInput {
  import opened Js

  const DefaultLength: int := 6

  datatype OtpProps = OtpProps(length: int, value: Option<string>)

  datatype OtpState = OtpState(internalValue: string)

  datatype Effect = OnChange(value: string) | OnComplete(value: string) | Focus(index: int)

  datatype Key = Backspace | ArrowLeft | ArrowRight | OtherKey

  function Init(): OtpState
  {
    OtpState("")
  }

  function IsControlled(p: OtpProps): bool
  {
    p.value.Some?
  }

  function Value(p: OtpProps, st: OtpState): string
  {
    if IsControlled(p) then p.value.value else st.internalValue
  }

  /** The default pattern `/^[0-9]*$/`: every character is a decimal digit (the empty string passes). */
  predicate Digits(s: string)
  {
    forall i :: 0 <= i < |s| ==> IsDigit(s[i])
  }

  // ----- JavaScript arrays of strings with holes -----

  /** `value.split('')`: one single-character string per character. */
  function Split(s: string): (r: seq<string>)
    ensures |r| == |s|
    ensures forall i :: 0 <= i < |s| ==> r[i] == [s[i]]
  {
    seq(|s|, i requires 0 <= i < |s| => [s[i]])
  }

  /** `arr.join('')`; a hole is stored as `""`, which is how `join` renders it. */
  function Concat(arr: seq<string>): string
  {
    if |arr| == 0 then "" else arr[0] + Concat(arr[1..])
  }

  /** `arr[index] = x`: assigning past the end grows the array, with holes in between. */
  function Assign(arr: seq<string>, index: nat, x: string): (r: seq<string>)
    ensures |r| == if index < |arr| then |arr| else index + 1
  {
    if index < |arr| then arr[index := x] else arr + seq(index - |arr|, _ => "") + [x]
  }

  lemma {:induction false} ConcatAppend(a: seq<string>, b: seq<string>)
    ensures Concat(a + b) == Concat(a) + Concat(b)
    decreases |a|
  {
    if |a| > 0 {
      assert (a + b)[1..] == a[1..] + b;
      ConcatAppend(a[1..], b);
    } else {
      assert a + b == b;
    }
  }

  lemma {:induction false} ConcatSplit(s: string)
    ensures Concat(Split(s)) == s
    decreases |s|
  {
    if |s| > 0 {
      assert Split(s)[1..] == Split(s[1..]);
      ConcatSplit(s[1..]);
    }
  }

  lemma {:induction false} ConcatHoles(n: nat)
    ensures Concat(seq(n, _ => "")) == ""
    decreases n
  {
    if n > 0 {
      assert seq(n, _ => "")[1..] == seq(n - 1, _ => "");
      ConcatHoles(n - 1);
    }
  }

  /**
   Writing `x` (one character or `""`) into box `index` of `value`: inside the
   string it replaces, or with `""` removes, that character; past its end a
   character is appended and `""` changes nothing.
   */
  lemma WriteBox(value: string, index: nat, x: string)
    requires |x| <= 1
    ensures index < |value| ==> Concat(Assign(Split(value), index, x)) == value[..index] + x + value[index + 1..]
    ensures index >= |value| ==> Concat(Assign(Split(value), index, x)) == value + x
  {
    var arr := Split(value);
    if index < |value| {
      var r := arr[index := x];
      assert r == Split(value[..index]) + [x] + Split(value[index + 1..]);
      ConcatAppend(Split(value[..index]) + [x], Split(value[index + 1..]));
      ConcatAppend(Split(value[..index]), [x]);
      ConcatSplit(value[..index]);
      ConcatSplit(value[index + 1..]);
      assert Concat([x]) == x + Concat([]);
    } else {
      var holes := seq(index - |arr|, _ => "");
      ConcatAppend(arr + holes, [x]);
      ConcatAppend(arr, holes);
      ConcatSplit(value);
      ConcatHoles(index - |arr|);
      assert Concat([x]) == x + Concat([]);
    }
  }

  // ----- handlers -----

  /**
   The value `handleChange` computes: the typed character (or `""`) written into
   box `index` of `value.split('')`, joined and cut to `length`.
   */
  function Changed(p: OtpProps, st: OtpState, index: nat, typed: string): string
  {
    var x := if |typed| > 0 then [typed[0]] else "";
    SliceTo(Concat(Assign(Split(Value(p, st)), index, x)), p.length)
  }

  /**
   `handleChange(index, typed)`. The focus move happens first, inside the
   branch that writes the box, then `onChange` reports the new value, then
   `onComplete` fires when it is `length` characters long.
   */
  function HandleChange(p: OtpProps, st: OtpState, index: nat, typed: string): (r: (OtpState, seq<Effect>))
    // input failing the pattern changes nothing and fires nothing
    ensures !Digits(typed) ==> r == (st, [])
    // the state follows only when uncontrolled
    ensures Digits(typed) && IsControlled(p) ==> r.0 == st
    ensures Digits(typed) && !IsControlled(p) ==> r.0.internalValue == Changed(p, st, index, typed)
    // at most one focus move, then `onChange`, then `onComplete` exactly when the value is full
    ensures Digits(typed) ==>
      var v := Changed(p, st, index, typed);
      var k := |r.1| - (if |v| == p.length then 2 else 1);
      && 0 <= k <= 1
      && (forall i :: 0 <= i < k ==> r.1[i].Focus?)
      && r.1[k] == OnChange(v)
      && (|v| == p.length ==> r.1[k + 1] == OnComplete(v))
    // typing moves right, clearing a filled box moves left
    ensures forall e :: e in r.1 && e.Focus? ==>
      if |typed| > 0 then e.index == index + 1 < p.length else 0 <= e.index == index - 1 < |Value(p, st)| - 1
    // and the move always happens when that neighbour box exists
    ensures Digits(typed) && |typed| > 0 && index < p.length - 1 ==> r.1[0] == Focus(index + 1)
    ensures Digits(typed) && |typed| == 0 && 0 < index < |Split(Value(p, st))| ==> r.1[0] == Focus(index - 1)
  {
    if !Digits(typed) then (st, [])
    else
      var value := Value(p, st);
      var arr := Split(value);
      var focus :=
        if |typed| > 0 then (if index < p.length - 1 then [Focus(index + 1)] else [])
        else (if index > 0 && index < |arr| then [Focus(index - 1)] else []);
      var s := Changed(p, st, index, typed);
      var st' := if !IsControlled(p) then OtpState(s) else st;
      (st', focus + [OnChange(s)] + (if |s| == p.length then [OnComplete(s)] else []))
  }

  /**
   A typed character lands in its box, only its first character counts, and a
   box past the end appends; clearing a box removes its character and shifts
   the rest left. The result is cut to `length`.
   */
  lemma TypedValue(p: OtpProps, st: OtpState, index: nat, typed: string)
    requires Digits(typed) && p.length >= 0
    ensures var v := Value(p, st);
      var x := if |typed| > 0 then [typed[0]] else "";
      && (index < |v| ==> Changed(p, st, index, typed) == SliceTo(v[..index] + x + v[index + 1..], p.length))
      && (index >= |v| ==> Changed(p, st, index, typed) == SliceTo(v + x, p.length))
  {
    var v := Value(p, st);
    WriteBox(v, index, if |typed| > 0 then [typed[0]] else "");
  }

  /** From a value no longer than `length`, one keystroke changes the length by at most one and keeps it within `length`. */
  lemma KeystrokeMovesLengthByOne(p: OtpProps, st: OtpState, index: nat, typed: string)
    requires Digits(typed) && p.length >= 0 && |Value(p, st)| <= p.length
    ensures |Changed(p, st, index, typed)| <= p.length
    ensures |Value(p, st)| - 1 <= |Changed(p, st, index, typed)| <= |Value(p, st)| + 1
    ensures Digits(Value(p, st)) ==> Digits(Changed(p, st, index, typed))
  {
    TypedValue(p, st, index, typed);
  }

  /** Keyboard navigation: the box focus moves to. */
  function HandleKeyDown(p: OtpProps, st: OtpState, index: int, key: Key): (focus: seq<Effect>)
    ensures |focus| <= 1
    ensures 0 <= index < p.length ==> forall e :: e in focus ==> e.Focus? && 0 <= e.index < p.length
    // backspace on an empty box steps back; arrows step while a neighbouring box exists
    ensures key == Backspace ==> (focus == [Focus(index - 1)] <==> index > 0 && index >= |Value(p, st)|)
    ensures key == Backspace && !(index > 0 && index >= |Value(p, st)|) ==> focus == []
    ensures key == ArrowLeft ==> focus == if index > 0 then [Focus(index - 1)] else []
    ensures key == ArrowRight ==> focus == if index < p.length - 1 then [Focus(index + 1)] else []
    ensures key == OtherKey ==> focus == []
  {
    var value := Value(p, st);
    var filled := 0 <= index < |value|;
    if key == Backspace && !filled && index > 0 then [Focus(index - 1)]
    else if key == ArrowLeft && index > 0 then [Focus(index - 1)]
    else if key == ArrowRight && index < p.length - 1 then [Focus(index + 1)]
    else []
  }

  /** After typing, focus moves right; after clearing a filled box, left; never outside the boxes. */
  lemma ChangeFocusInRange(p: OtpProps, st: OtpState, index: nat, typed: string)
    requires index < p.length
    ensures forall e :: e in HandleChange(p, st, index, typed).1 && e.Focus? ==> 0 <= e.index < p.length
  {
  }

  /** `handlePaste(data)`: the first `length` characters, accepted only if they are all digits. */
  function HandlePaste(p: OtpProps, st: OtpState, data: string): (r: (OtpState, seq<Effect>))
    ensures var pasted := SliceTo(data, p.length);
      && (!Digits(pasted) ==> r == (st, []))
      && (Digits(pasted) ==> |r.1| >= 1 && r.1[0] == OnChange(pasted))
      && (Digits(pasted) && !IsControlled(p) ==> r.0.internalValue == pasted)
      && (Digits(pasted) ==> (OnComplete(pasted) in r.1 <==> |pasted| == p.length))
    ensures p.length >= 0 && Digits(SliceTo(data, p.length)) ==>
      r.1[0].value == if |data| <= p.length then data else data[..p.length]
  {
    var pasted := SliceTo(data, p.length);
    if !Digits(pasted) then (st, [])
    else
      var st' := if !IsControlled(p) then OtpState(pasted) else st;
      (st', [OnChange(pasted)] + (if |pasted| == p.length then [OnComplete(pasted), Focus(p.length - 1)] else []))
  }

  /** The effect that runs when `length` or the value changes: an over-long value is cut to `length`. */
  function TruncateEffect(p: OtpProps, st: OtpState): (r: (OtpState, seq<Effect>))
    ensures |Value(p, st)| <= p.length ==> r == (st, [])
    ensures p.length >= 0 && |Value(p, st)| > p.length ==>
      r.1 == [OnChange(Value(p, st)[..p.length])]
      && (IsControlled(p) ==> r.0 == st)
      && (!IsControlled(p) ==> r.0.internalValue == Value(p, st)[..p.length])
  {
    var value := Value(p, st);
    if |value| > p.length then
      var truncated := SliceTo(value, p.length);
      var st' := if !IsControlled(p) then OtpState(truncated) else st;
      (st', [OnChange(truncated)])
    else (st, [])
  }

  /** Once truncated, an uncontrolled value has settled: the effect fires no more. */
  lemma TruncateSettles(p: OtpProps, st: OtpState)
    requires !IsControlled(p) && p.length >= 0
    ensures var st' := TruncateEffect(p, st).0; TruncateEffect(p, st') == (st', [])
  {
  }
}

=== FILE: pagination.dfy ===
/**
 The pagination bar: a window of page numbers around the current page, the
 first and last pages outside the window, an ellipsis for every gap, and the
 first / previous / next / last buttons.
 */
module Pagination {

  const DefaultMaxVisiblePages: int := 7

  /** One entry of the page list: a page number, or the `'...'` marker. */
  datatype Item = Page(n: int) | Ellipsis

  /** The window `[start, end]` of consecutive pages shown around the current page. */
  datatype Window = Window(start: int, end: int)

  function ComputeWindow(currentPage: int, totalPages: int, maxVisiblePages: int): (w: Window)
    ensures w.start >= 1 && w.end <= totalPages
  {
    var half := maxVisiblePages / 2;
    var start0 := Max(1, currentPage - half);
    var end0 := Min(totalPages, currentPage + half);
    var end1 := if currentPage <= half then Min(totalPages, maxVisiblePages - 1) else end0;
    var start1 := if currentPage >= totalPages - half then Max(1, totalPages - maxVisiblePages + 2) else start0;
    Window(start1, end1)
  }

  function Max(a: int, b: int): int { if a >= b then a else b }
  function Min(a: int, b: int): int { if a <= b then a else b }

  /** The pages `lo, lo + 1, ..., hi`, empty when `lo > hi`. */
  function Run(lo: int, hi: int): (r: seq<Item>)
    ensures |r| == if lo <= hi then hi - lo + 1 else 0
    ensures forall i :: 0 <= i < |r| ==> r[i] == Page(lo + i)
  {
    seq(if lo <= hi then hi - lo + 1 else 0, i => Page(lo + i))
  }

  /** A run lists exactly the pages from `lo` to `hi`, without markers, each page followed by its successor. */
  lemma RunPages(lo: int, hi: int)
    ensures forall p :: Page(p) in Run(lo, hi) <==> lo <= p <= hi
    ensures Ellipsis !in Run(lo, hi)
    ensures WellFormed(Run(lo, hi))
  {
    var r := Run(lo, hi);
    forall p | lo <= p <= hi
      ensures Page(p) in r
    {
      assert r[p - lo] == Page(p);
    }
  }

  /** `getPageNumbers()`. */
  function PageNumbers(currentPage: int, totalPages: int, maxVisiblePages: int): seq<Item>
  {
    var w := ComputeWindow(currentPage, totalPages, maxVisiblePages);
    Assemble(w.start, w.end, totalPages)
  }

  /** Page 1 and a marker before the window, the window, then a marker and the last page after it. */
  function Assemble(start: int, end: int, totalPages: int): seq<Item>
  {
    var lead := if start > 1 then [Page(1)] + (if start > 2 then [Ellipsis] else []) else [];
    var trail := if end < totalPages then (if end < totalPages - 1 then [Ellipsis] else []) + [Page(totalPages)] else [];
    lead + Run(start, end) + trail
  }

  /** In range the window lies within `[1, totalPages]` and is empty only for two pages shown two at a time. */
  lemma WindowBounds(currentPage: int, totalPages: int, maxVisiblePages: int)
    requires 1 <= currentPage <= totalPages && maxVisiblePages >= 2
    ensures var w := ComputeWindow(currentPage, totalPages, maxVisiblePages);
      && 1 <= w.start <= w.end + 1
      && w.end <= totalPages
      && (w.start > w.end ==> w.start == 2 && w.end == 1 && totalPages == 2)
  {
  }

  lemma AssembleShape(start: int, end: int, totalPages: int)
    requires 1 <= start <= end + 1 && end <= totalPages
    requires start > end ==> start == 2 && end == 1 && totalPages == 2
    ensures var r := Assemble(start, end, totalPages);
      && |r| >= 1
      && r[0] == Page(1)
      && r[|r| - 1] == Page(totalPages)
      && WellFormed(r)
  {
    if start > end {
      assert Assemble(start, end, totalPages) == [Page(1), Page(2)];
    } else {
      var lead := if start > 1 then [Page(1)] + (if start > 2 then [Ellipsis] else []) else [];
      var trail := if end < totalPages then (if end < totalPages - 1 then [Ellipsis] else []) + [Page(totalPages)] else [];
      var run := Run(start, end);
      var r := lead + run + trail;
      assert r == Assemble(start, end, totalPages);
      forall i | 0 <= i < |r| ensures r[i] == if i < |lead| then lead[i] else if i < |lead| + |run| then Page(start + i - |lead|) else trail[i - |lead| - |run|] {
      }
    }
  }

  /** The page numbers of a list, in order. */
  function Numbers(items: seq<Item>): (r: seq<int>)
    ensures |r| <= |items|
  {
    if |items| == 0 then []
    else if items[0].Page? then [items[0].n] + Numbers(items[1..])
    else Numbers(items[1..])
  }

  predicate StrictlyIncreasing(xs: seq<int>)
  {
    forall i, j :: 0 <= i < j < |xs| ==> xs[i] < xs[j]
  }

  /**
   The shape of a well-formed page list: pages and markers, where a page next to
   a page is its successor and a marker stands between two pages and hides at
   least one page.
   */
  predicate WellFormed(items: seq<Item>)
  {
    && (forall i :: 0 <= i < |items| - 1 && items[i].Page? && items[i + 1].Page? ==> items[i + 1].n == items[i].n + 1)
    && (forall i :: 0 <= i < |items| && items[i].Ellipsis? ==>
          0 < i < |items| - 1 && items[i - 1].Page? && items[i + 1].Page? && items[i + 1].n >= items[i - 1].n + 2)
  }

  /** Every page of the list lies in `[1, totalPages]`, wherever the current page and however wide the window. */
  lemma PagesInRange(currentPage: int, totalPages: int, maxVisiblePages: int)
    requires totalPages >= 1
    ensures forall i :: 0 <= i < |PageNumbers(currentPage, totalPages, maxVisiblePages)|
                && PageNumbers(currentPage, totalPages, maxVisiblePages)[i].Page?
                ==> 1 <= PageNumbers(currentPage, totalPages, maxVisiblePages)[i].n <= totalPages
  {
  }

  /**
   In range, the list starts at page 1, ends at the last page, and is
   well formed: consecutive pages are adjacent and every marker hides a gap.
   */
  lemma PageListShape(currentPage: int, totalPages: int, maxVisiblePages: int)
    requires 1 <= currentPage <= totalPages && maxVisiblePages >= 2
    ensures var r := PageNumbers(currentPage, totalPages, maxVisiblePages);
      && |r| >= 1
      && r[0] == Page(1)
      && r[|r| - 1] == Page(totalPages)
      && WellFormed(r)
  {
    var w := ComputeWindow(currentPage, totalPages, maxVisiblePages);
    WindowBounds(currentPage, totalPages, maxVisiblePages);
    AssembleShape(w.start, w.end, totalPages);
  }

  /** A well-formed list is a strictly increasing sequence of pages, so no page appears twice. */
  lemma {:induction false} WellFormedIncreasing(items: seq<Item>)
    requires WellFormed(items)
    requires |items| >= 1 ==> items[0].Page?
    ensures StrictlyIncreasing(Numbers(items))
    ensures |items| >= 1 ==> |Numbers(items)| >= 1 && Numbers(items)[0] == items[0].n
    decreases |items|
  {
    if |items| >= 2 {
      var rest := if items[1].Page? then items[1..] else items[2..];
      assert WellFormed(rest) by {
        forall i | 0 <= i < |rest| && rest[i].Ellipsis?
          ensures 0 < i < |rest| - 1
        {
          if items[1].Page? {
            assert items[i + 1] == rest[i];
          } else {
            assert items[i + 2] == rest[i];
          }
        }
      }
      WellFormedIncreasing(rest);
      if items[1].Page? {
        assert Numbers(items) == [items[0].n] + Numbers(items[1..]);
      } else {
        assert Numbers(items) == [items[0].n] + Numbers(items[1..]);
        assert Numbers(items[1..]) == Numbers(items[2..]) by {
          assert items[1..][1..] == items[2..];
        }
      }
      var ns := Numbers(items);
      assert ns[0] < ns[1];
      forall i, j | 0 <= i < j < |ns| ensures ns[i] < ns[j] {
        if i > 0 {
          assert ns[i] == Numbers(rest)[i - 1] && ns[j] == Numbers(rest)[j - 1];
        } else if j > 1 {
          assert ns[1] < ns[j] by {
            assert ns[1] == Numbers(rest)[0] && ns[j] == Numbers(rest)[j - 1];
          }
        }
      }
    } else if |items| == 1 {
      assert Numbers(items) == [items[0].n] + Numbers(items[1..]);
    }
  }

  /** The page numbers of the list strictly increase, so there are no duplicates. */
  lemma PagesIncrease(currentPage: int, totalPages: int, maxVisiblePages: int)
    requires 1 <= currentPage <= totalPages && maxVisiblePages >= 2
    ensures StrictlyIncreasing(Numbers(PageNumbers(currentPage, totalPages, maxVisiblePages)))
  {
    PageListShape(currentPage, totalPages, maxVisiblePages);
    WellFormedIncreasing(PageNumbers(currentPage, totalPages, maxVisiblePages));
  }

  /** With a window of three or more, the current page is always listed. */
  lemma CurrentPageListed(currentPage: int, totalPages: int, maxVisiblePages: int)
    requires 1 <= currentPage <= totalPages && maxVisiblePages >= 3
    ensures Page(currentPage) in PageNumbers(currentPage, totalPages, maxVisiblePages)
  {
    var w := ComputeWindow(currentPage, totalPages, maxVisiblePages);
    assert w.start <= currentPage <= w.end;
    var run := Run(w.start, w.end);
    assert run[currentPage - w.start] == Page(currentPage);
    assert Page(currentPage) in run;
  }

  /** With a window of two the current page can drop out: page 4 of 5 shows `1 ... 5`. */
  lemma CurrentPageMissedWithTwo()
    ensures PageNumbers(4, 5, 2) == [Page(1), Ellipsis, Page(5)]
    ensures Page(4) !in PageNumbers(4, 5, 2)
  {
    assert ComputeWindow(4, 5, 2) == Window(5, 5);
    assert Run(5, 5) == [Page(5)];
  }

  // ----- the navigation buttons -----

  datatype Button = First | Previous | Next | Last | PageButton(page: int)

  function Disabled(b: Button, currentPage: int, totalPages: int): (r: bool)
    ensures b.First? || b.Previous? ==> (r <==> currentPage == 1)
    ensures b.Next? || b.Last? ==> (r <==> currentPage == totalPages)
    ensures b.PageButton? ==> (r <==> b.page == currentPage)
  {
    match b
    case First => currentPage == 1
    case Previous => currentPage == 1
    case Next => currentPage == totalPages
    case Last => currentPage == totalPages
    case PageButton(p) => p == currentPage
  }

  /** The page a button asks for. */
  function Target(b: Button, currentPage: int, totalPages: int): int
  {
    match b
    case First => 1
    case Previous => currentPage - 1
    case Next => currentPage + 1
    case Last => totalPages
    case PageButton(p) => p
  }

  /** A click: an enabled button calls `onPageChange` once with its target; a disabled one does nothing. */
  function Click(b: Button, currentPage: int, totalPages: int): (calls: seq<int>)
    ensures |calls| <= 1
    ensures Disabled(b, currentPage, totalPages) <==> calls == []
    ensures b == First && currentPage != 1 ==> calls == [1]
    ensures b == Previous && currentPage != 1 ==> calls == [currentPage - 1]
    ensures b == Next && currentPage != totalPages ==> calls == [currentPage + 1]
    ensures b == Last && currentPage != totalPages ==> calls == [totalPages]
    ensures b.PageButton? && b.page != currentPage ==> calls == [b.page]
  {
    if Disabled(b, currentPage, totalPages) then [] else [Target(b, currentPage, totalPages)]
  }

  /**
   From a page in range, every enabled navigation button and every listed page
   asks for a page in range, so the bar can never steer out of `[1, totalPages]`.
   */
  lemma NavigationStaysInRange(b: Button, currentPage: int, totalPages: int, maxVisiblePages: int)
    requires 1 <= currentPage <= totalPages
    requires b.PageButton? ==> Page(b.page) in PageNumbers(currentPage, totalPages, maxVisiblePages)
    ensures forall p :: p in Click(b, currentPage, totalPages) ==> 1 <= p <= totalPages
  {
    if b.PageButton? {
      PagesInRange(currentPage, totalPages, maxVisiblePages);
    }
  }
}

=== FILE: search_filter.dfy ===
/**
 The search-and-filter bar: the query, and per filter group the list of
 chosen option values. A `Record<string, string[]>` is an association list
 with distinct keys in insertion order; spreading it and setting a key keeps
 an existing key in place and appends a new one.
 */
module SearchFilter {
  import opened Js

  type Filters = seq<(string, seq<string>)>

  datatype FilterOption = FilterOption(id: string, value: Option<string>)

  datatype SearchState = SearchState(query: string, activeFilters: Filters, filterValues: Filters)

  datatype Callback = OnSearchChange(query: string) | OnFilterChange(filters: Filters)

  function Init(): SearchState
  {
    SearchState("", [], [])
  }

  function Keys(r: Filters): (ks: seq<string>)
    ensures |ks| == |r|
    ensures forall k :: k in ks <==> exists v :: (k, v) in r
  {
    if |r| == 0 then [] else [r[0].0] + Keys(r[1..])
  }

  predicate WellFormed(r: Filters)
  {
    NoDup(Keys(r))
  }

  /** `r[key]`, or `undefined`. */
  function Get(r: Filters, key: string): (v: Option<seq<string>>)
    ensures v.Some? <==> key in Keys(r)
    ensures v.Some? ==> (key, v.value) in r
  {
    if |r| == 0 then None
    else if r[0].0 == key then Some(r[0].1)
    else Get(r[1..], key)
  }

  /** `{ ...r, [key]: v }`. */
  function Put(r: Filters, key: string, v: seq<string>): (r': Filters)
    requires WellFormed(r)
    ensures WellFormed(r')
    ensures Get(r', key) == Some(v)
    ensures forall k :: k != key ==> Get(r', k) == Get(r, k)
    ensures key in Keys(r) ==> Keys(r') == Keys(r)
    ensures key !in Keys(r) ==> Keys(r') == Keys(r) + [key]
  {
    if |r| == 0 then [(key, v)]
    else
      NoDupCons(r[0].0, Keys(r[1..]));
      if r[0].0 == key then
        assert ([(key, v)] + r[1..])[1..] == r[1..];
        [(key, v)] + r[1..]
      else
        var rest := Put(r[1..], key, v);
        assert ([r[0]] + rest)[1..] == rest;
        NoDupCons(r[0].0, Keys(rest));
        [r[0]] + rest
  }

  /** The group's list with `value` removed everywhere if present, appended otherwise. */
  function Toggle(values: seq<string>, value: string): (r: seq<string>)
    ensures value in values ==> forall x :: x in r <==> x in values && x != value
    ensures value !in values ==> r == values + [value]
  {
    if value in values then Remove(values, value) else values + [value]
  }

  /** Toggling twice restores which values are chosen; only the order may change. */
  lemma ToggleTwice(values: seq<string>, value: string)
    ensures forall x :: x in Toggle(Toggle(values, value), value) <==> x in values
  {
  }

  /** `handleSearchChange(value)`. */
  function HandleSearchChange(st: SearchState, value: string): (r: (SearchState, seq<Callback>))
    ensures r.0.query == value && r.0.activeFilters == st.activeFilters && r.0.filterValues == st.filterValues
    ensures r.1 == [OnSearchChange(value)]
  {
    (st.(query := value), [OnSearchChange(value)])
  }

  /**
   Typing changes only the query, which is reported: every checkbox and the
   badge count stay as they were, and a later filter toggle reports the same
   filters and leaves the same groups as without the typing.
   */
  lemma TypingKeepsFilters(st: SearchState, value: string, groupId: string, x: string, o: FilterOption)
    requires WellFormed(st.filterValues)
    ensures var (st', calls) := HandleSearchChange(st, value);
      && st'.query == value
      && calls == [OnSearchChange(value)]
      && (Checked(st', groupId, o) <==> Checked(st, groupId, o))
      && ActiveFilterCount(st') == ActiveFilterCount(st)
      && HandleFilterChange(st', groupId, x).1 == HandleFilterChange(st, groupId, x).1
      && HandleFilterChange(st', groupId, x).0 == HandleFilterChange(st, groupId, x).0.(query := value)
  {
  }

  /** `handleFilterChange(groupId, value)`: both maps become the updated one, which is also reported. */
  function HandleFilterChange(st: SearchState, groupId: string, value: string): (r: (SearchState, seq<Callback>))
    requires WellFormed(st.filterValues)
    ensures WellFormed(r.0.filterValues)
    ensures r.0.activeFilters == r.0.filterValues && r.0.query == st.query
    ensures r.1 == [OnFilterChange(r.0.filterValues)]
    ensures var before := if Get(st.filterValues, groupId).Some? then Get(st.filterValues, groupId).value else [];
      Get(r.0.filterValues, groupId) == Some(Toggle(before, value))
    ensures forall g :: g != groupId ==> Get(r.0.filterValues, g) == Get(st.filterValues, g)
  {
    var current := if Get(st.filterValues, groupId).Some? then Get(st.filterValues, groupId).value else [];
    var updated := Put(st.filterValues, groupId, Toggle(current, value));
    (st.(activeFilters := updated, filterValues := updated), [OnFilterChange(updated)])
  }

  /** Whether `value` is chosen in group `g`. */
  predicate Chosen(r: Filters, g: string, value: string)
  {
    Get(r, g).Some? && value in Get(r, g).value
  }

  /** A toggle flips whether that one value is chosen in that one group, and nothing else. */
  lemma FilterChangeFlipsOne(st: SearchState, groupId: string, value: string)
    requires WellFormed(st.filterValues)
    ensures var r' := HandleFilterChange(st, groupId, value).0.filterValues;
      && (Chosen(r', groupId, value) <==> !Chosen(st.filterValues, groupId, value))
      && (forall g, x :: (g, x) != (groupId, value) ==> (Chosen(r', g, x) <==> Chosen(st.filterValues, g, x)))
  {
  }

  /** Toggling the same value twice restores every group's chosen values. */
  lemma FilterChangeTwice(st: SearchState, groupId: string, value: string)
    requires WellFormed(st.filterValues)
    ensures var s1 := HandleFilterChange(st, groupId, value).0;
      var s2 := HandleFilterChange(s1, groupId, value).0;
      forall g, x :: Chosen(s2.filterValues, g, x) <==> Chosen(st.filterValues, g, x)
  {
    FilterChangeFlipsOne(st, groupId, value);
    FilterChangeFlipsOne(HandleFilterChange(st, groupId, value).0, groupId, value);
  }

  /** `clearAllFilters()`. */
  function ClearAllFilters(st: SearchState): (r: (SearchState, seq<Callback>))
    ensures r.0.activeFilters == [] && r.0.filterValues == [] && r.0.query == st.query
    ensures r.1 == [OnFilterChange([])]
    ensures forall g, x :: !Chosen(r.0.filterValues, g, x)
  {
    (st.(activeFilters := [], filterValues := []), [OnFilterChange([])])
  }

  /** `Object.values(r).flat()`. */
  function Flat(r: Filters): seq<string>
  {
    if |r| == 0 then [] else r[0].1 + Flat(r[1..])
  }

  /** A value shows as an active-filter chip exactly when some group has it chosen. */
  lemma {:induction false} FlatIsChosen(r: Filters, x: string)
    requires WellFormed(r)
    ensures x in Flat(r) <==> exists g :: Chosen(r, g, x)
    decreases |r|
  {
    if |r| > 0 {
      NoDupCons(r[0].0, Keys(r[1..]));
      FlatIsChosen(r[1..], x);
      if x in r[0].1 {
        assert Chosen(r, r[0].0, x);
      }
      if exists g :: Chosen(r[1..], g, x) {
        var g :| Chosen(r[1..], g, x);
        assert g != r[0].0;
        assert Chosen(r, g, x);
      }
      if exists g :: Chosen(r, g, x) {
        var g :| Chosen(r, g, x);
        if g != r[0].0 {
          assert Chosen(r[1..], g, x);
        }
      }
    }
  }

  /** Total number of chosen values, summed group by group. */
  function TotalCount(r: Filters): nat
  {
    if |r| == 0 then 0 else |r[0].1| + TotalCount(r[1..])
  }

  /** `activeFilterCount`. */
  function ActiveFilterCount(st: SearchState): nat
  {
    |Flat(st.activeFilters)|
  }

  /** The badge counts every chosen value across all groups, duplicates included. */
  lemma {:induction false} CountIsTotal(r: Filters)
    ensures |Flat(r)| == TotalCount(r)
    decreases |r|
  {
    if |r| > 0 {
      CountIsTotal(r[1..]);
    }
  }

  /** Clearing leaves no badge, and one toggle of an unchosen value raises the count by one. */
  lemma CountAfterToggle(st: SearchState, groupId: string, value: string)
    requires WellFormed(st.filterValues) && st.activeFilters == st.filterValues
    requires !Chosen(st.filterValues, groupId, value)
    ensures ActiveFilterCount(HandleFilterChange(st, groupId, value).0) == ActiveFilterCount(st) + 1
    ensures ActiveFilterCount(ClearAllFilters(st).0) == 0
  {
    var r := st.filterValues;
    var v := Toggle(if Get(r, groupId).Some? then Get(r, groupId).value else [], value);
    CountIsTotal(r);
    CountIsTotal(Put(r, groupId, v));
    PutCount(r, groupId, v);
  }

  /** Setting a key changes the total by the difference in that key's list length. */
  lemma {:induction false} PutCount(r: Filters, key: string, v: seq<string>)
    requires WellFormed(r)
    ensures var old_ := if Get(r, key).Some? then |Get(r, key).value| else 0;
      TotalCount(Put(r, key, v)) == TotalCount(r) - old_ + |v|
    decreases |r|
  {
    if |r| > 0 {
      NoDupCons(r[0].0, Keys(r[1..]));
      if r[0].0 != key {
        PutCount(r[1..], key, v);
      }
    }
  }

  /** `option.value || option.id`: the value an option contributes. */
  function OptionValue(o: FilterOption): (v: string)
    ensures o.value.Some? && o.value.value != "" ==> v == o.value.value
    ensures !(o.value.Some? && o.value.value != "") ==> v == o.id
  {
    if o.value.Some? && o.value.value != "" then o.value.value else o.id
  }

  /** A checkbox is checked iff its option's value is chosen in its group. */
  predicate Checked(st: SearchState, groupId: string, o: FilterOption)
  {
    Chosen(st.filterValues, groupId, OptionValue(o))
  }

  /** Clicking a checkbox flips it and leaves every other group's boxes alone. */
  lemma CheckboxFlips(st: SearchState, groupId: string, o: FilterOption, g: string, o2: FilterOption)
    requires WellFormed(st.filterValues)
    ensures var st' := HandleFilterChange(st, groupId, OptionValue(o)).0;
      (Checked(st', groupId, o) <==> !Checked(st, groupId, o))
      && (g != groupId ==> (Checked(st', g, o2) <==> Checked(st, g, o2)))
  {
    FilterChangeFlipsOne(st, groupId, OptionValue(o));
  }

  /** The chip's remove button toggles a chosen value, which unchooses it. */
  lemma ChipRemoves(st: SearchState, groupId: string, value: string)
    requires WellFormed(st.filterValues) && Chosen(st.filterValues, groupId, value)
    ensures !Chosen(HandleFilterChange(st, groupId, value).0.filterValues, groupId, value)
  {
    FilterChangeFlipsOne(st, groupId, value);
  }
}

=== FILE: slate_theme.dfy ===
/** The slate theme, the one theme whose data is part of this model. */
module SlateTheme {
  import opened Js
  import opened ThemeTypes

  function SlateGray(): map<nat, string>
  {
    map[0 := "#0f172a", 1 := "#1e293b", 2 := "#334155", 3 := "#475569", 4 := "#64748b",
        5 := "#94a3b8", 6 := "#cbd5e1", 7 := "#e2e8f0", 8 := "#f1f5f9", 9 := "#f8fafc"]
  }

  function Slate(): Theme
  {
    Theme(
      name := "slate",
      displayName := "Slate",
      colors := Colors(
        gray := SlateGray(),
        background := "#0f172a",
        surface := "#1e293b",
        elevated := "#334155",
        textPrimary := "#ffffff",
        textMuted := "#cbd5e1",
        textDisabled := "#64748b",
        borderDefault := "#334155",
        borderSubtle := "#1e293b",
        primary := "#64748b",
        primaryForeground := "#ffffff",
        secondary := "#94a3b8",
        secondaryForeground := "#ffffff",
        accent := "#cbd5e1",
        accentForeground := "#0f172a",
        destructive := "#ef4444",
        destructiveForeground := "#ffffff",
        success := "#22c55e",
        warning := "#f59e0b"),
      radius := Radius("0.25rem", "0.375rem", "0.5rem", "0.75rem", "9999px"),
      shadow := Shadow(
        "0 1px 2px 0 rgb(0 0 0 / 0.3)",
        "0 4px 6px -1px rgb(0 0 0 / 0.3), 0 2px 4px -2px rgb(0 0 0 / 0.3)",
        "0 10px 15px -3px rgb(0 0 0 / 0.3), 0 4px 6px -4px rgb(0 0 0 / 0.3)",
        "0 20px 25px -5px rgb(0 0 0 / 0.3), 0 8px 10px -6px rgb(0 0 0 / 0.3)"),
      fontFamily := FontFamily(
        ["Inter", "system-ui", "sans-serif"],
        ["JetBrains Mono", "ui-monospace", "SFMono-Regular", "monospace"]),
      fontSize := FontSize("0.75rem", "0.875rem", "1rem", "1.125rem", "1.25rem", "1.5rem", "1.875rem", "2.25rem"),
      spacing := Spacing("0.5rem", "0.75rem", "1rem", "1.5rem", "2rem", "3rem"),
      animation := Animation("150ms", "300ms", "500ms"),
      easing := Easing("cubic-bezier(0, 0, 0.2, 1)", "cubic-bezier(0.4, 0, 0.2, 1)"),
      glass := Some(Glass(
        blur := Sizes4("12px", "20px", "28px", "36px"),
        saturate := "200%",
        bg := Tones3("rgba(100, 116, 139, 0.08)", "rgba(100, 116, 139, 0.15)", "rgba(100, 116, 139, 0.25)"),
        bgDark := Tones3("rgba(15, 23, 42, 0.25)", "rgba(15, 23, 42, 0.45)", "rgba(15, 23, 42, 0.65)"),
        border := GlassBorder(
          "rgba(203, 213, 225, 0.15)", "rgba(203, 213, 225, 0.35)", "rgba(51, 65, 85, 0.3)",
          "rgba(203, 213, 225, 0.25)", "rgba(148, 163, 184, 0.5)"),
        shadow := Sizes4(
          "0 4px 12px -2px rgba(15, 23, 42, 0.3)",
          "0 8px 32px -4px rgba(15, 23, 42, 0.4), 0 0 0 1px rgba(203, 213, 225, 0.1) inset",
          "0 20px 50px -8px rgba(15, 23, 42, 0.5), 0 0 0 1px rgba(203, 213, 225, 0.15) inset",
          "0 20px 25px -5px rgba(15, 23, 42, 0.3), 0 8px 10px -6px rgba(15, 23, 42, 0.3)"))),
      gradient := Some(Gradient(
        primary := "linear-gradient(135deg, #64748b 0%, #475569 100%)",
        primarySubtle := "linear-gradient(135deg, rgba(100, 116, 139, 0.2) 0%, rgba(71, 85, 105, 0.2) 100%)",
        accent := "linear-gradient(135deg, #cbd5e1 0%, #94a3b8 100%)",
        accentSubtle := "linear-gradient(135deg, rgba(203, 213, 225, 0.2) 0%, rgba(148, 163, 184, 0.2) 100%)",
        neutral := "linear-gradient(135deg, #334155 0%, #64748b 100%)",
        meshSunset :=
          "radial-gradient(at 0% 0%, rgba(100, 116, 139, 0.5) 0, transparent 50%), "
          + "radial-gradient(at 100% 0%, rgba(148, 163, 184, 0.5) 0, transparent 50%), "
          + "radial-gradient(at 100% 100%, rgba(203, 213, 225, 0.5) 0, transparent 50%), "
          + "radial-gradient(at 0% 100%, rgba(15, 23, 42, 0.5) 0, transparent 50%)",
        animated := "linear-gradient(-45deg, #64748b, #94a3b8, #cbd5e1, #e2e8f0)",
        primaryStart := "#64748b",
        primaryEnd := "#475569",
        accentStart := "#cbd5e1",
        accentEnd := "#94a3b8")),
      motion := Some(Motion(
        spring := Spring("300,25,0.8", "150,20,1", "100,10,1", "400,30,0.5", "80,25,1.5"),
        duration := Durations("100ms", "200ms", "300ms", "500ms", "800ms"),
        easing := MotionEasing(
          "cubic-bezier(0.16, 1, 0.3, 1)", "cubic-bezier(0.25, 1, 0.5, 1)",
          "cubic-bezier(0.4, 0, 0.2, 1)", "cubic-bezier(0.34, 1.56, 0.64, 1)"),
        stagger := Stagger("0.1,0.3", "300,24,0"))),
      typography := Some(Typography(
        lineHeight := LineHeight("1.25", "1.5", "1.75"),
        letterSpacing := LetterSpacing("-0.025em", "0", "0.025em"),
        headingScale := HeadingScale("2.25rem", "1.875rem", "1.5rem", "1.25rem", "1.125rem", "1rem"),
        fontWeight := FontWeight("400", "500", "600", "700"))),
      zIndex := Some(ZIndex("20", "30", "50", "40", "60")),
      opacity := Some(Opacity("0.3", "0.6", "0.9")))
  }

  /** Slate's gray ramp has exactly the steps 0 through 9. */
  lemma SlateGrayKeys()
    ensures forall k: nat :: k in Slate().colors.gray <==> k < 10
  {
  }

  /** The concrete values a theme switch to slate propagates. */
  lemma SlateValues()
    ensures Slate().name == "slate"
    ensures Slate().colors.background == "#0f172a"
    ensures Slate().colors.primary == "#64748b"
    ensures Slate().radius.md == "0.375rem"
    ensures Slate().glass.Some? && Slate().glass.value.blur.md == "20px"
  {
  }

  /** Slate's glass blur ramp, smallest to largest. */
  lemma SlateBlurRamp()
    ensures Slate().glass.Some?
    ensures Slate().glass.value.blur == Sizes4("12px", "20px", "28px", "36px")
  {
  }

  /** The ramp's first steps coincide with the surface and border roles. */
  lemma SlateGrayMatchesRoles()
    ensures 0 in Slate().colors.gray && Slate().colors.gray[0] == Slate().colors.background
    ensures 1 in Slate().colors.gray && Slate().colors.gray[1] == Slate().colors.surface == Slate().colors.borderSubtle
    ensures 2 in Slate().colors.gray && Slate().colors.gray[2] == Slate().colors.elevated == Slate().colors.borderDefault
  {
  }

  /** Slate defines every optional group, so every conditional branch of the write pass fires. */
  lemma SlateHasAllOptionalGroups()
    ensures Slate().glass.Some? && Slate().gradient.Some? && Slate().motion.Some?
    ensures Slate().typography.Some? && Slate().zIndex.Some? && Slate().opacity.Some?
  {
  }

  /** Every semantic color role of slate is a non-empty string. */
  lemma SlateRolesNonEmpty()
    ensures forall i :: 0 <= i < |SemanticColors(Slate().colors)| ==> SemanticColors(Slate().colors)[i] != ""
  {
  }
}

=== FILE: stepper.dfy ===
/**
 The stepper: the status of each step relative to `currentStep`, the explicit
 override a step may carry, the click guard, connectors and the indicator.
 */
module Stepper {
  import opened Js

  datatype Status = Complete | Current | Pending

  /** A step as the stepper reads it: its id, an optional explicit status, and whether it has an icon. */
  datatype Step = Step(id: string, status: Option<Status>, hasIcon: bool)

  datatype Orientation = Horizontal | Vertical

  datatype StepperProps = StepperProps(
    steps: seq<Step>,
    currentStep: int,
    clickable: bool,
    orientation: Orientation)

  datatype Callback = OnStepClick(index: int)

  /** The indicator's content: a check mark, the step's icon, or its one-based number. */
  datatype Indicator = Check | Icon | Number(n: int)

  datatype Connector = PrimaryLine | DefaultLine

  /** `getStepStatus(index)`. */
  function StepStatus(currentStep: int, index: int): (s: Status)
    ensures s == Complete <==> index < currentStep
    ensures s == Current <==> index == currentStep
    ensures s == Pending <==> index > currentStep
  {
    if index < currentStep then Complete
    else if index == currentStep then Current
    else Pending
  }

  /** `step.status || getStepStatus(index)`: an explicit status wins. */
  function EffectiveStatus(p: StepperProps, index: int): (s: Status)
    requires 0 <= index < |p.steps|
    ensures p.steps[index].status.Some? ==> s == p.steps[index].status.value
    ensures p.steps[index].status.None? ==> s == StepStatus(p.currentStep, index)
  {
    if p.steps[index].status.Some? then p.steps[index].status.value else StepStatus(p.currentStep, index)
  }

  /** The indices whose computed status is `current`. */
  function CurrentIndices(n: nat, currentStep: int): set<int>
  {
    set i | 0 <= i < n && StepStatus(currentStep, i) == Current
  }

  /** Exactly one step is computed current when `currentStep` indexes a step, none otherwise. */
  lemma ExactlyOneCurrent(n: nat, currentStep: int)
    ensures 0 <= currentStep < n ==> CurrentIndices(n, currentStep) == {currentStep}
    ensures !(0 <= currentStep < n) ==> CurrentIndices(n, currentStep) == {}
  {
  }

  /** Whether the indicator button is enabled: `clickable && index < currentStep`. */
  predicate IsClickable(p: StepperProps, index: int)
  {
    p.clickable && index < p.currentStep
  }

  /** `handleStepClick(index)`. */
  function HandleStepClick(p: StepperProps, index: int): (calls: seq<Callback>)
    ensures calls == [OnStepClick(index)] <==> p.clickable && index < p.currentStep
    ensures calls != [] ==> calls == [OnStepClick(index)]
  {
    if p.clickable && index < p.currentStep then [OnStepClick(index)] else []
  }

  /**
   A click reaches the indicator only when it is enabled, and then it is
   forwarded: the button's guard and the handler's are the same condition.
   */
  lemma ClickForwardedIffEnabled(p: StepperProps, index: int)
    ensures HandleStepClick(p, index) != [] <==> IsClickable(p, index)
  {
  }

  /**
   Only computed-complete steps are clickable: an explicit `complete` status on
   a step at or after `currentStep` shows a check but the button stays disabled.
   */
  lemma OverrideDoesNotEnableClick(p: StepperProps, index: int)
    requires 0 <= index < |p.steps| && index >= p.currentStep
    ensures !IsClickable(p, index)
    ensures p.steps[index].status == Some(Complete) ==> EffectiveStatus(p, index) == Complete
  {
  }

  /** The line after step `index`: only in horizontal layout and not after the last step. */
  function ConnectorAfter(p: StepperProps, index: int): (c: Option<Connector>)
    requires 0 <= index < |p.steps|
    ensures c.Some? <==> p.orientation == Horizontal && index < |p.steps| - 1
    ensures c.Some? ==> (c.value == PrimaryLine <==> EffectiveStatus(p, index) == Complete)
  {
    if p.orientation == Horizontal && index < |p.steps| - 1 then
      Some(if EffectiveStatus(p, index) == Complete then PrimaryLine else DefaultLine)
    else None
  }

  /** The indicator content: a check when complete, else the icon if any, else the number. */
  function IndicatorContent(status: Status, hasIcon: bool, index: int): (c: Indicator)
    ensures c == Check <==> status == Complete
    ensures c == Icon <==> status != Complete && hasIcon
    ensures c.Number? ==> status != Complete && !hasIcon && c.n == index + 1
  {
    if status == Complete then Check
    else if hasIcon then Icon
    else Number(index + 1)
  }

  /** The numbers shown by the steps without icon that are not complete are their positions, counted from one. */
  lemma NumbersArePositions(p: StepperProps, index: int)
    requires 0 <= index < |p.steps| && !p.steps[index].hasIcon
    requires EffectiveStatus(p, index) != Complete
    ensures IndicatorContent(EffectiveStatus(p, index), false, index) == Number(index + 1)
  {
  }
}

=== FILE: table.dfy ===
/**
 The data table's sorting and row selection. Rows are identified by their key
 strings, `String(item[keyField])`; a JavaScript `Set<string>` is an
 insertion-ordered sequence without duplicates.
 */
module Table {
  import opened Js

  datatype Direction = Asc | Desc

  datatype TableProps = TableProps(
    keys: seq<string>,
    sortable: bool,
    sortColumn: Option<string>,
    sortDirection: Option<Direction>,
    selectedItems: Option<seq<string>>)

  /** The internal selection, which only an uncontrolled table would show. */
  datatype TableState = TableState(internalSelected: seq<string>)

  datatype Callback = OnSort(column: string, direction: Direction) | OnSelectionChange(selection: seq<string>)

  function InitialState(): TableState
  {
    TableState([])
  }

  /** `selectedItems` after the destructuring default `new Set()` replaces an omitted prop. */
  function DefaultedSelectedItems(p: TableProps): Option<seq<string>>
  {
    if p.selectedItems.Some? then p.selectedItems else Some([])
  }

  function SelectedProp(p: TableProps): seq<string>
  {
    if DefaultedSelectedItems(p).Some? then DefaultedSelectedItems(p).value else []
  }

  /** `selectedItems !== undefined`, evaluated on the defaulted prop. */
  function IsControlled(p: TableProps): bool
  {
    DefaultedSelectedItems(p).Some?
  }

  /** The selection the table displays. */
  function Selected(p: TableProps, st: TableState): seq<string>
  {
    if IsControlled(p) then SelectedProp(p) else st.internalSelected
  }

  /** The defaulted prop makes every table controlled, so the internal selection is never displayed. */
  lemma AlwaysControlled(p: TableProps, st: TableState)
    ensures IsControlled(p)
    ensures Selected(p, st) == SelectedProp(p)
    ensures p.selectedItems.None? ==> Selected(p, st) == []
  {
  }

  /** A header click: nothing unless sortable; otherwise descending exactly when re-clicking an ascending column. */
  function HandleSort(p: TableProps, columnId: string): (calls: seq<Callback>)
    ensures !p.sortable ==> calls == []
    ensures p.sortable ==> |calls| == 1 && calls[0].OnSort? && calls[0].column == columnId
    ensures p.sortable ==>
      (calls[0].direction == Desc <==> p.sortColumn == Some(columnId) && p.sortDirection == Some(Asc))
  {
    if !p.sortable then []
    else
      var direction := if p.sortColumn == Some(columnId) && p.sortDirection == Some(Asc) then Desc else Asc;
      [OnSort(columnId, direction)]
  }

  /** A parent that feeds every `onSort` back into `sortColumn` and `sortDirection`. */
  function ApplySort(p: TableProps, calls: seq<Callback>): TableProps
  {
    if |calls| == 1 && calls[0].OnSort? then
      p.(sortColumn := Some(calls[0].column), sortDirection := Some(calls[0].direction))
    else p
  }

  /**
   Under such a parent, clicking the same header again flips the direction
   between ascending and descending; the first click on a column sorts ascending.
   */
  lemma SortToggles(p: TableProps, columnId: string)
    requires p.sortable
    ensures p.sortColumn != Some(columnId) ==> HandleSort(p, columnId) == [OnSort(columnId, Asc)]
    ensures var q := ApplySort(p, HandleSort(p, columnId));
      HandleSort(q, columnId)[0].direction != HandleSort(p, columnId)[0].direction
  {
  }

  /** The header checkbox: every row key (duplicates collapsed), or the empty set; the state never changes. */
  function HandleSelectAll(p: TableProps, st: TableState, checked: bool): (r: (TableState, seq<Callback>))
    ensures r.0 == st
    ensures |r.1| == 1 && r.1[0].OnSelectionChange?
    ensures NoDup(r.1[0].selection)
    ensures forall k :: k in r.1[0].selection <==> checked && k in p.keys
    ensures checked && NoDup(p.keys) ==> r.1[0].selection == p.keys
  {
    var newSelection := if checked then SetOf(p.keys) else [];
    var st' := if !IsControlled(p) then TableState(newSelection) else st;
    (st', [OnSelectionChange(newSelection)])
  }

  /** A row checkbox: the displayed selection with exactly that key added or removed. */
  function HandleSelectRow(p: TableProps, st: TableState, key: string, checked: bool): (r: (TableState, seq<Callback>))
    ensures r.0 == st
    ensures |r.1| == 1 && r.1[0].OnSelectionChange?
    ensures NoDup(r.1[0].selection)
    ensures forall k :: k in r.1[0].selection <==> if k == key then checked else k in Selected(p, st)
  {
    var copy := SetOf(Selected(p, st));
    var newSelection := if checked then SetAdd(copy, key) else Remove(copy, key);
    var st' := if !IsControlled(p) then TableState(newSelection) else st;
    (st', [OnSelectionChange(newSelection)])
  }

  function AllSelected(p: TableProps, st: TableState): bool
  {
    |p.keys| > 0 && |Selected(p, st)| == |p.keys|
  }

  function SomeSelected(p: TableProps, st: TableState): bool
  {
    |Selected(p, st)| > 0 && |Selected(p, st)| < |p.keys|
  }

  /** The header checkbox is never both checked and indeterminate. */
  lemma SelectionFlagsExclusive(p: TableProps, st: TableState)
    ensures !(AllSelected(p, st) && SomeSelected(p, st))
    ensures AllSelected(p, st) ==> |p.keys| > 0
    ensures |Selected(p, st)| == 0 ==> !AllSelected(p, st) && !SomeSelected(p, st)
  {
  }

  /** With distinct keys, a parent echoing a checked select-all shows every row selected. */
  lemma SelectAllChecksHeader(p: TableProps, st: TableState)
    requires NoDup(p.keys) && |p.keys| > 0
    ensures var sel := HandleSelectAll(p, st, true).1[0].selection;
      AllSelected(p.(selectedItems := Some(sel)), st)
  {
  }

  /** Two rows sharing a key collapse to one entry, so select-all leaves the header indeterminate. */
  lemma DuplicateKeysLeaveHeaderIndeterminate(st: TableState)
    ensures var p := TableProps(["a", "a"], false, None, None, None);
      var sel := HandleSelectAll(p, st, true).1[0].selection;
      sel == ["a"] && !AllSelected(p.(selectedItems := Some(sel)), st)
        && SomeSelected(p.(selectedItems := Some(sel)), st)
  {
    var p := TableProps(["a", "a"], false, None, None, None);
    var sel := HandleSelectAll(p, st, true).1[0].selection;
    assert "a" in sel;
    assert NoDup(sel);
    assert |sel| == 1;
  }
}

=== FILE: theme_provider.dfy ===
/**
 The theme provider: it holds the requested theme name and the resolved theme,
 and on every change of the name writes the theme's tokens into the document's
 CSS custom properties. The property store is a map keyed by `CssVar`, one
 constructor per property the provider knows, plus `Other` for every property
 it never writes; `Name` renders each key as the property name. A property has
 one key: `Other(n)` stands for a property only when `Foreign(n)`, that is when
 no named key renders to `n`.
 */
module ThemeProvider {
  import opened Js
  import opened ThemeTypes
  import opened SlateTheme
  import opened ThemeRegistry

  datatype Role =
    | Background | Surface | Elevated | TextPrimary | TextMuted | TextDisabled
    | BorderDefault | BorderSubtle | Primary | PrimaryForeground | Secondary
    | SecondaryForeground | Accent | AccentForeground | Destructive
    | DestructiveForeground | Success | Warning

  datatype RadiusKey = RSm | RMd | RLg | RXl | RFull
  datatype FontKey = Sans | Mono
  datatype Size = Sm | Md | Lg | Xl
  datatype Tone = Subtle | Default | Strong
  datatype Edge = Light | Highlight | Dark | DarkHighlight | Glow
  datatype GradientKey =
    | GPrimary | GPrimarySubtle | GAccent | GAccentSubtle | GNeutral | GMeshSunset
    | GAnimated | GPrimaryStart | GPrimaryEnd | GAccentStart | GAccentEnd
  datatype DurationKey = Instant | DFast | DNormal | DSlow | Slower
  datatype EaseKey = OutExpo | OutQuart | InOut | EaseSpring
  datatype Level3 = Tight | Normal | Wide
  datatype WeightKey = WNormal | WMedium | WSemibold | WBold
  datatype Layer = Dropdown | Sticky | Modal | Popover | Tooltip
  datatype OpacityKey = OSubtle | OMedium | OStrong

  /** A CSS custom property of the document root. */
  datatype CssVar =
    | ColorGray(step: nat)
    | ColorRole(role: Role)
    | RadiusVar(radius: RadiusKey)
    | FontVar(font: FontKey)
    | GlassBlur(blur: Size)
    | GlassSaturate
    | GlassBg(tone: Tone, dark: bool)
    | GlassBorderVar(edge: Edge)
    | GlassShadow(shadow: Size)
    | GradientVar(gradient: GradientKey)
    | DurationVar(duration: DurationKey)
    | EaseVar(ease: EaseKey)
    | LineHeightVar(lineHeight: Level3)
    | LetterSpacingVar(letterSpacing: Level3)
    | FontWeightVar(weight: WeightKey)
    | ZVar(layer: Layer)
    | OpacityVar(opacity: OpacityKey)
    | Other(name: string)
  {
    predicate IsGlass() { GlassBlur? || GlassSaturate? || GlassBg? || GlassBorderVar? || GlassShadow? }
    predicate IsMotion() { DurationVar? || EaseVar? }
    predicate IsTypography() { LineHeightVar? || LetterSpacingVar? || FontWeightVar? }
  }

  /** `n` is not the name of any property the provider knows, so `Other(n)` is its only key. */
  ghost predicate Foreign(n: string)
  {
    forall w: CssVar :: !w.Other? ==> Name(w) != n
  }

  /**
   The inline style declaration of the document root, read as
   `getPropertyValue` reads it: the value of each property, `""` when unset.
   */
  type Store = CssVar -> string

  // ----- the token each property takes, group by group -----

  function RoleValue(c: Colors, r: Role): string
  {
    match r
    case Background => c.background
    case Surface => c.surface
    case Elevated => c.elevated
    case TextPrimary => c.textPrimary
    case TextMuted => c.textMuted
    case TextDisabled => c.textDisabled
    case BorderDefault => c.borderDefault
    case BorderSubtle => c.borderSubtle
    case Primary => c.primary
    case PrimaryForeground => c.primaryForeground
    case Secondary => c.secondary
    case SecondaryForeground => c.secondaryForeground
    case Accent => c.accent
    case AccentForeground => c.accentForeground
    case Destructive => c.destructive
    case DestructiveForeground => c.destructiveForeground
    case Success => c.success
    case Warning => c.warning
  }

  function RadiusValue(r: Radius, k: RadiusKey): string
  {
    match k
    case RSm => r.sm
    case RMd => r.md
    case RLg => r.lg
    case RXl => r.xl
    case RFull => r.full
  }

  function FontValue(f: FontFamily, k: FontKey): string
  {
    match k
    case Sans => Join(f.sans, ", ")
    case Mono => Join(f.mono, ", ")
  }

  function SizeValue(s: Sizes4, k: Size): string
  {
    match k case Sm => s.sm case Md => s.md case Lg => s.lg case Xl => s.xl
  }

  function ToneValue(t: Tones3, k: Tone): string
  {
    match k case Subtle => t.subtle case Default => t.default case Strong => t.strong
  }

  function EdgeValue(b: GlassBorder, e: Edge): string
  {
    match e
    case Light => b.light
    case Highlight => b.highlight
    case Dark => b.dark
    case DarkHighlight => b.darkHighlight
    case Glow => b.glow
  }

  function GradientValue(g: Gradient, k: GradientKey): string
  {
    match k
    case GPrimary => g.primary
    case GPrimarySubtle => g.primarySubtle
    case GAccent => g.accent
    case GAccentSubtle => g.accentSubtle
    case GNeutral => g.neutral
    case GMeshSunset => g.meshSunset
    case GAnimated => g.animated
    case GPrimaryStart => g.primaryStart
    case GPrimaryEnd => g.primaryEnd
    case GAccentStart => g.accentStart
    case GAccentEnd => g.accentEnd
  }

  function DurationValue(d: Durations, k: DurationKey): string
  {
    match k
    case Instant => d.instant
    case DFast => d.fast
    case DNormal => d.normal
    case DSlow => d.slow
    case Slower => d.slower
  }

  function EaseValue(e: MotionEasing, k: EaseKey): string
  {
    match k case OutExpo => e.outExpo case OutQuart => e.outQuart case InOut => e.inOut case EaseSpring => e.spring
  }

  function TypographyValue(t: Typography, v: CssVar): string
    requires v.IsTypography()
  {
    match v
    case LineHeightVar(l) =>
      (match l case Tight => t.lineHeight.tight case Normal => t.lineHeight.normal case Wide => t.lineHeight.relaxed)
    case LetterSpacingVar(l) =>
      (match l case Tight => t.letterSpacing.tight case Normal => t.letterSpacing.normal case Wide => t.letterSpacing.wide)
    case FontWeightVar(w) =>
      (match w case WNormal => t.fontWeight.normal case WMedium => t.fontWeight.medium
               case WSemibold => t.fontWeight.semibold case WBold => t.fontWeight.bold)
  }

  function LayerValue(z: ZIndex, l: Layer): string
  {
    match l
    case Dropdown => z.dropdown
    case Sticky => z.sticky
    case Modal => z.modal
    case Popover => z.popover
    case Tooltip => z.tooltip
  }

  function OpacityValue(o: Opacity, k: OpacityKey): string
  {
    match k case OSubtle => o.subtle case OMedium => o.medium case OStrong => o.strong
  }

  // ----- one pass of the synchronisation effect -----

  /**
   The value one pass writes to `v`, or `None` when the pass leaves `v` alone.
   Colors and the optional groups come from `next`, the theme the new name
   resolves to; radius and font families come from `prev`, the theme held in
   state when the effect runs. The glow border, the xl glass shadow, the in-out
   motion curve, springs, stagger and the heading scale are never written.
   */
  function Assigned(prev: Theme, next: Theme, v: CssVar): Option<string>
  {
    match v
    case ColorGray(k) => if k in next.colors.gray then Some(next.colors.gray[k]) else None
    case ColorRole(role) => Some(RoleValue(next.colors, role))
    case RadiusVar(k) => Some(RadiusValue(prev.radius, k))
    case FontVar(k) => Some(FontValue(prev.fontFamily, k))
    case GlassBlur(k) => if next.glass.Some? then Some(SizeValue(next.glass.value.blur, k)) else None
    case GlassSaturate => if next.glass.Some? then Some(next.glass.value.saturate) else None
    case GlassBg(t, dark) =>
      if next.glass.Some? then Some(ToneValue(if dark then next.glass.value.bgDark else next.glass.value.bg, t)) else None
    case GlassBorderVar(e) =>
      if next.glass.Some? && e != Glow then Some(EdgeValue(next.glass.value.border, e)) else None
    case GlassShadow(k) =>
      if next.glass.Some? && k != Xl then Some(SizeValue(next.glass.value.shadow, k)) else None
    case GradientVar(k) => if next.gradient.Some? then Some(GradientValue(next.gradient.value, k)) else None
    case DurationVar(k) => if next.motion.Some? then Some(DurationValue(next.motion.value.duration, k)) else None
    case EaseVar(k) =>
      if next.motion.Some? && k != InOut then Some(EaseValue(next.motion.value.easing, k)) else None
    case LineHeightVar(_) => if next.typography.Some? then Some(TypographyValue(next.typography.value, v)) else None
    case LetterSpacingVar(_) => if next.typography.Some? then Some(TypographyValue(next.typography.value, v)) else None
    case FontWeightVar(_) => if next.typography.Some? then Some(TypographyValue(next.typography.value, v)) else None
    case ZVar(l) => if next.zIndex.Some? then Some(LayerValue(next.zIndex.value, l)) else None
    case OpacityVar(k) => if next.opacity.Some? then Some(OpacityValue(next.opacity.value, k)) else None
    case Other(_) => None
  }

  /**
   What `Assigned` gives, group by group: the new theme's grays and semantic
   colors, the previous theme's radius and font families, and every token of a
   present optional group under its own property, the glow border, the xl glass
   shadow and the in-out curve excepted.
   */
  lemma AssignedByGroup(prev: Theme, next: Theme)
    ensures forall k :: k in next.colors.gray ==> Assigned(prev, next, ColorGray(k)) == Some(next.colors.gray[k])
    ensures forall role :: Assigned(prev, next, ColorRole(role)) == Some(RoleValue(next.colors, role))
    ensures forall k :: Assigned(prev, next, RadiusVar(k)) == Some(RadiusValue(prev.radius, k))
    ensures forall k :: Assigned(prev, next, FontVar(k)) == Some(FontValue(prev.fontFamily, k))
    // glass
    ensures next.glass.Some? ==> forall k :: Assigned(prev, next, GlassBlur(k)) == Some(SizeValue(next.glass.value.blur, k))
    ensures next.glass.Some? ==> Assigned(prev, next, GlassSaturate) == Some(next.glass.value.saturate)
    ensures next.glass.Some? ==> forall t :: Assigned(prev, next, GlassBg(t, false)) == Some(ToneValue(next.glass.value.bg, t))
    ensures next.glass.Some? ==> forall t :: Assigned(prev, next, GlassBg(t, true)) == Some(ToneValue(next.glass.value.bgDark, t))
    ensures next.glass.Some? ==> forall e :: e != Glow ==> Assigned(prev, next, GlassBorderVar(e)) == Some(EdgeValue(next.glass.value.border, e))
    ensures next.glass.Some? ==> forall k :: k != Xl ==> Assigned(prev, next, GlassShadow(k)) == Some(SizeValue(next.glass.value.shadow, k))
    // gradient
    ensures next.gradient.Some? ==> forall k :: Assigned(prev, next, GradientVar(k)) == Some(GradientValue(next.gradient.value, k))
    // motion
    ensures next.motion.Some? ==> forall k :: Assigned(prev, next, DurationVar(k)) == Some(DurationValue(next.motion.value.duration, k))
    ensures next.motion.Some? ==> forall k :: k != InOut ==> Assigned(prev, next, EaseVar(k)) == Some(EaseValue(next.motion.value.easing, k))
    // typography
    ensures next.typography.Some? ==>
      var ty := next.typography.value;
      && Assigned(prev, next, LineHeightVar(Tight)) == Some(ty.lineHeight.tight)
      && Assigned(prev, next, LineHeightVar(Normal)) == Some(ty.lineHeight.normal)
      && Assigned(prev, next, LineHeightVar(Wide)) == Some(ty.lineHeight.relaxed)
      && Assigned(prev, next, LetterSpacingVar(Tight)) == Some(ty.letterSpacing.tight)
      && Assigned(prev, next, LetterSpacingVar(Normal)) == Some(ty.letterSpacing.normal)
      && Assigned(prev, next, LetterSpacingVar(Wide)) == Some(ty.letterSpacing.wide)
      && Assigned(prev, next, FontWeightVar(WNormal)) == Some(ty.fontWeight.normal)
      && Assigned(prev, next, FontWeightVar(WMedium)) == Some(ty.fontWeight.medium)
      && Assigned(prev, next, FontWeightVar(WSemibold)) == Some(ty.fontWeight.semibold)
      && Assigned(prev, next, FontWeightVar(WBold)) == Some(ty.fontWeight.bold)
    // z-index and opacity
    ensures next.zIndex.Some? ==> forall l :: Assigned(prev, next, ZVar(l)) == Some(LayerValue(next.zIndex.value, l))
    ensures next.opacity.Some? ==> forall k :: Assigned(prev, next, OpacityVar(k)) == Some(OpacityValue(next.opacity.value, k))
  {
    AssignedCore(prev, next);
    AssignedGlass(prev, next);
    AssignedGradientMotion(prev, next);
    AssignedTypography(prev, next);
    AssignedLayersOpacity(prev, next);
  }

  /** The always-present groups: grays and colors from the new theme, radius and fonts from the previous one. */
  lemma AssignedCore(prev: Theme, next: Theme)
    ensures forall k :: k in next.colors.gray ==> Assigned(prev, next, ColorGray(k)) == Some(next.colors.gray[k])
    ensures forall role :: Assigned(prev, next, ColorRole(role)) == Some(RoleValue(next.colors, role))
    ensures forall k :: Assigned(prev, next, RadiusVar(k)) == Some(RadiusValue(prev.radius, k))
    ensures forall k :: Assigned(prev, next, FontVar(k)) == Some(FontValue(prev.fontFamily, k))

  {
  }

  /** A present glass group: every token but the glow border and the xl shadow. */
  lemma AssignedGlass(prev: Theme, next: Theme)
    // glass
    ensures next.glass.Some? ==> forall k :: Assigned(prev, next, GlassBlur(k)) == Some(SizeValue(next.glass.value.blur, k))
    ensures next.glass.Some? ==> Assigned(prev, next, GlassSaturate) == Some(next.glass.value.saturate)
    ensures next.glass.Some? ==> forall t :: Assigned(prev, next, GlassBg(t, false)) == Some(ToneValue(next.glass.value.bg, t))
    ensures next.glass.Some? ==> forall t :: Assigned(prev, next, GlassBg(t, true)) == Some(ToneValue(next.glass.value.bgDark, t))
    ensures next.glass.Some? ==> forall e :: e != Glow ==> Assigned(prev, next, GlassBorderVar(e)) == Some(EdgeValue(next.glass.value.border, e))
    ensures next.glass.Some? ==> forall k :: k != Xl ==> Assigned(prev, next, GlassShadow(k)) == Some(SizeValue(next.glass.value.shadow, k))

  {
  }

  /** A present gradient or motion group: every gradient, every duration, every easing but in-out. */
  lemma AssignedGradientMotion(prev: Theme, next: Theme)
    // gradient
    ensures next.gradient.Some? ==> forall k :: Assigned(prev, next, GradientVar(k)) == Some(GradientValue(next.gradient.value, k))
    // motion
    ensures next.motion.Some? ==> forall k :: Assigned(prev, next, DurationVar(k)) == Some(DurationValue(next.motion.value.duration, k))
    ensures next.motion.Some? ==> forall k :: k != InOut ==> Assigned(prev, next, EaseVar(k)) == Some(EaseValue(next.motion.value.easing, k))
  {
  }

  /** A present typography group: the line heights, letter spacings and font weights. */
  lemma AssignedTypography(prev: Theme, next: Theme)
    // typography
    ensures next.typography.Some? ==>
      var ty := next.typography.value;
      && Assigned(prev, next, LineHeightVar(Tight)) == Some(ty.lineHeight.tight)
      && Assigned(prev, next, LineHeightVar(Normal)) == Some(ty.lineHeight.normal)
      && Assigned(prev, next, LineHeightVar(Wide)) == Some(ty.lineHeight.relaxed)
      && Assigned(prev, next, LetterSpacingVar(Tight)) == Some(ty.letterSpacing.tight)
      && Assigned(prev, next, LetterSpacingVar(Normal)) == Some(ty.letterSpacing.normal)
      && Assigned(prev, next, LetterSpacingVar(Wide)) == Some(ty.letterSpacing.wide)
      && Assigned(prev, next, FontWeightVar(WNormal)) == Some(ty.fontWeight.normal)
      && Assigned(prev, next, FontWeightVar(WMedium)) == Some(ty.fontWeight.medium)
      && Assigned(prev, next, FontWeightVar(WSemibold)) == Some(ty.fontWeight.semibold)
      && Assigned(prev, next, FontWeightVar(WBold)) == Some(ty.fontWeight.bold)
  {
  }

  /** A present z-index or opacity group: every layer and every step. */
  lemma AssignedLayersOpacity(prev: Theme, next: Theme)
    // z-index and opacity
    ensures next.zIndex.Some? ==> forall l :: Assigned(prev, next, ZVar(l)) == Some(LayerValue(next.zIndex.value, l))
    ensures next.opacity.Some? ==> forall k :: Assigned(prev, next, OpacityVar(k)) == Some(OpacityValue(next.opacity.value, k))
  {
  }

  /**
   The style declaration after one pass: every assigned property takes its new
   value, every other property keeps its old one.
   */
  function Sync(store: Store, prev: Theme, next: Theme): (r: Store)
    // every gray step and every semantic color of the new theme
    ensures forall k :: k in next.colors.gray ==> r(ColorGray(k)) == next.colors.gray[k]
    ensures forall role :: r(ColorRole(role)) == RoleValue(next.colors, role)
    // radius and font families of the theme held before the switch
    ensures forall k :: r(RadiusVar(k)) == RadiusValue(prev.radius, k)
    ensures forall k :: r(FontVar(k)) == FontValue(prev.fontFamily, k)
    // a present optional group lands under its own properties
    ensures next.glass.Some? ==> forall k :: r(GlassBlur(k)) == SizeValue(next.glass.value.blur, k)
    ensures next.gradient.Some? ==> forall k :: r(GradientVar(k)) == GradientValue(next.gradient.value, k)
    ensures next.zIndex.Some? ==> forall l :: r(ZVar(l)) == LayerValue(next.zIndex.value, l)
    // every property the pass assigns holds the assigned value (group by group in AssignedByGroup)
    ensures forall v :: Assigned(prev, next, v).Some? ==> r(v) == Assigned(prev, next, v).value
    // nothing else changes
    ensures forall v :: Assigned(prev, next, v).None? ==> r(v) == store(v)
  {
    AssignedByGroup(prev, next);
    (v: CssVar) => if Assigned(prev, next, v).Some? then Assigned(prev, next, v).value else store(v)
  }

  /** An absent optional group leaves every property of that group as it was. */
  lemma AbsentGroupsUntouched(store: Store, prev: Theme, next: Theme, v: CssVar)
    requires || (v.IsGlass() && next.glass.None?)
             || (v.GradientVar? && next.gradient.None?)
             || (v.IsMotion() && next.motion.None?)
             || (v.IsTypography() && next.typography.None?)
             || (v.ZVar? && next.zIndex.None?)
             || (v.OpacityVar? && next.opacity.None?)
    ensures Sync(store, prev, next)(v) == store(v)
  {
  }

  /**
   Tokens the schema has but the pass never propagates, and every property
   foreign to the provider, keep their prior values, whatever the themes.
   */
  lemma UnpropagatedTokensUntouched(store: Store, prev: Theme, next: Theme, v: CssVar)
    requires v == GlassBorderVar(Glow) || v == GlassShadow(Xl) || v == EaseVar(InOut) || (v.Other? && Foreign(v.name))
    ensures Sync(store, prev, next)(v) == store(v)
  {
  }

  /** Running the pass twice with the same inputs gives the same store as running it once. */
  lemma SyncIdempotent(store: Store, prev: Theme, next: Theme)
    ensures forall v :: Sync(Sync(store, prev, next), prev, next)(v) == Sync(store, prev, next)(v)
  {
  }

  // ----- the provider's state machine -----

  /**
   The error the effect throws when `getTheme` hands it an inherited
   `Object.prototype` member: such a value has no `colors`, so reading
   `colors.gray` fails (the wording is V8's).
   */
  const NoColorsMessage: string := "Cannot read properties of undefined (reading 'gray')"

  /**
   The error an inherited member throws when it is called with `this`
   undefined and its first step converts `this` to an object (the wording is
   V8's for that conversion).
   */
  const NoReceiverMessage: string := "Cannot convert undefined or null to object"

  /**
   The first render's `useState(getTheme(name))`. React takes a function
   argument as a lazy initializer and calls it with `this` undefined, so a
   name looking up a receiver-converting inherited member throws during
   render, before any effect. Every other name lets the render through with
   the value `getTheme` handed over.
   */
  function InitialRender(cat: Catalog, name: string): (r: Result<Lookup>)
    ensures r.Thrown? <==> name in ReceiverMembers
    ensures r.Thrown? ==> r.message == NoReceiverMessage && r.message != NoColorsMessage
    ensures r.Ok? ==> r.value == JsGetTheme(cat, name)
  {
    match JsGetTheme(cat, name)
    case ThemeValue(t) =>
      assert name !in ReceiverMembers by { NotAnId(name); }
      Ok(ThemeValue(t))
    case PrototypeMember(m) =>
      if m in ReceiverMembers then
        assert |NoReceiverMessage| != |NoColorsMessage|;
        Thrown(NoReceiverMessage)
      else Ok(PrototypeMember(m))
  }

  /** No registry key is an inherited member name. */
  lemma NotAnId(name: string)
    ensures name in PrototypeMembers ==> name !in Ids
  {
    assert forall i :: 0 <= i < |Ids| ==> Ids[i] !in PrototypeMembers;
  }

  /**
   The theme the effect works with, looked up as `getTheme` does it: a
   registered name gives its theme, an inherited member name makes the pass
   throw at its first read, and any other name gives the default theme.
   */
  function Resolve(cat: Catalog, name: string): (r: Result<Theme>)
    ensures r.Ok? <==> name in Ids || name !in PrototypeMembers
    ensures r.Ok? ==> r.value == GetTheme(cat, name)
    ensures r.Thrown? ==> r.message == NoColorsMessage
  {
    match JsGetTheme(cat, name)
    case ThemeValue(t) => Ok(t)
    case PrototypeMember(_) => Thrown(NoColorsMessage)
  }

  datatype ProviderState = ProviderState(themeName: string, theme: Theme, store: Store)

  /** After every effect the held theme is the one the held name resolves to. */
  predicate Consistent(cat: Catalog, s: ProviderState)
  {
    Resolve(cat, s.themeName) == Ok(s.theme)
  }

  /**
   Mounting the provider: both states start from the requested name and the mount
   effect runs once, so on first mount radius and fonts come from the new theme too.
   A name that escapes the lookup's fallback makes the mount effect throw.
   */
  function Mount(cat: Catalog, store: Store, defaultThemeName: string): (r: Result<ProviderState>)
    ensures r.Ok? <==> Resolve(cat, defaultThemeName).Ok?
    // the render throws first for a receiver-converting member, the effect for the other inherited names
    ensures r.Thrown? ==> r.message == (if defaultThemeName in ReceiverMembers then NoReceiverMessage else NoColorsMessage)
    ensures r.Ok? ==> r.value.themeName == defaultThemeName && Consistent(cat, r.value)
    ensures r.Ok? ==> forall role :: r.value.store(ColorRole(role)) == RoleValue(GetTheme(cat, defaultThemeName).colors, role)
    ensures r.Ok? ==> forall k :: r.value.store(RadiusVar(k)) == RadiusValue(GetTheme(cat, defaultThemeName).radius, k)
    ensures r.Ok? && GetTheme(cat, defaultThemeName).glass.Some? ==>
              forall k :: r.value.store(GlassBlur(k)) == SizeValue(GetTheme(cat, defaultThemeName).glass.value.blur, k)
  {
    match InitialRender(cat, defaultThemeName)
    case Thrown(m) => Thrown(m)
    case Ok(_) =>
      match Resolve(cat, defaultThemeName)
      case Thrown(m) => Thrown(m)
      case Ok(t) => Ok(ProviderState(defaultThemeName, t, Sync(store, t, t)))
  }

  /**
   `setTheme(name)`: the raw name is stored as given. A name equal to the held
   one changes nothing, since the effect is keyed on the name alone; any other
   name runs one pass with the held theme as `prev` and the resolved theme as
   `next`, or throws when the name escapes the lookup's fallback.
   */
  function SetTheme(cat: Catalog, s: ProviderState, name: string): (r: Result<ProviderState>)
    requires Consistent(cat, s)
    ensures name == s.themeName ==> r == Ok(s)
    ensures name != s.themeName ==> (r.Ok? <==> Resolve(cat, name).Ok?)
    ensures r.Thrown? ==> r.message == NoColorsMessage
    ensures r.Ok? ==> r.value.themeName == name && Consistent(cat, r.value)
    ensures r.Ok? && name != s.themeName ==> r.value.store == Sync(s.store, s.theme, GetTheme(cat, name))
  {
    if name == s.themeName then Ok(s)
    else
      match Resolve(cat, name)
      case Thrown(m) => Thrown(m)
      case Ok(next) => Ok(ProviderState(name, next, Sync(s.store, s.theme, next)))
  }

  /**
   Switching to an inherited member name such as `"toString"` crashes the
   provider's effect. Mounting on one crashes too: in the effect for the four
   members that return without a receiver, already in the first render for
   the eight that need one.
   */
  lemma PrototypeNameThrows(cat: Catalog, s: ProviderState, name: string)
    requires Consistent(cat, s) && name != s.themeName
    requires name in PrototypeMembers
    ensures SetTheme(cat, s, name) == Thrown(NoColorsMessage)
    ensures name in ReceiverFreeMembers ==> Mount(cat, s.store, name) == Thrown(NoColorsMessage)
    ensures name in ReceiverMembers ==> Mount(cat, s.store, name) == Thrown(NoReceiverMessage)
  {
    NotAnId(name);
  }

  /** Mounting on `"valueOf"` fails in the first render, mounting on `"toString"` in the effect. */
  lemma MountFailurePoints(cat: Catalog, store: Store)
    ensures Mount(cat, store, "valueOf") == Thrown(NoReceiverMessage)
    ensures Mount(cat, store, "toString") == Thrown(NoColorsMessage)
    ensures NoReceiverMessage != NoColorsMessage
  {
    NotAnId("valueOf");
    NotAnId("toString");
    assert |NoReceiverMessage| != |NoColorsMessage|;
  }

  /**
   After a switch away from the held name the colors are the new theme's while
   radius and font families are still the previous theme's: they lag one switch behind.
   */
  lemma RadiusLagsOneSwitch(cat: Catalog, s: ProviderState, name: string)
    requires Consistent(cat, s) && name != s.themeName && Resolve(cat, name).Ok?
    ensures SetTheme(cat, s, name).Ok?
    ensures forall role :: SetTheme(cat, s, name).value.store(ColorRole(role)) == RoleValue(GetTheme(cat, name).colors, role)
    ensures forall k :: SetTheme(cat, s, name).value.store(RadiusVar(k)) == RadiusValue(GetTheme(cat, s.themeName).radius, k)
    ensures forall k :: SetTheme(cat, s, name).value.store(FontVar(k)) == FontValue(GetTheme(cat, s.themeName).fontFamily, k)
  {
  }

  /** Mount on `a`, switch to `b`, switch to `c`: radius shows `b`'s values while colors show `c`'s. */
  lemma TwoSwitches(cat: Catalog, store: Store, a: string, b: string, c: string)
    requires a != b && b != c
    requires Resolve(cat, a).Ok? && Resolve(cat, b).Ok? && Resolve(cat, c).Ok?
    ensures Mount(cat, store, a).Ok?
    ensures SetTheme(cat, Mount(cat, store, a).value, b).Ok?
    ensures var s1 := SetTheme(cat, Mount(cat, store, a).value, b).value;
      && SetTheme(cat, s1, c).Ok?
      && SetTheme(cat, s1, c).value.store(RadiusVar(RMd)) == GetTheme(cat, b).radius.md
      && SetTheme(cat, s1, c).value.store(ColorRole(Primary)) == GetTheme(cat, c).colors.primary
  {
    var s1 := SetTheme(cat, Mount(cat, store, a).value, b).value;
    RadiusLagsOneSwitch(cat, s1, c);
  }

  /** Setting the held name twice is the same as setting it once. */
  lemma SetThemeIdempotent(cat: Catalog, s: ProviderState, name: string)
    requires Consistent(cat, s)
    ensures SetTheme(cat, s, name).Ok? ==> SetTheme(cat, SetTheme(cat, s, name).value, name) == SetTheme(cat, s, name)
  {
  }

  /**
   An unknown name is reported verbatim while the resolved theme is the default
   one, unless it names an inherited member, which crashes the effect.
   */
  lemma UnknownNameKeptVerbatim(cat: Catalog, s: ProviderState, name: string)
    requires Consistent(cat, s) && name !in Ids && name != s.themeName
    ensures name in PrototypeMembers ==> SetTheme(cat, s, name).Thrown?
    ensures name !in PrototypeMembers ==>
      && SetTheme(cat, s, name).Ok?
      && SetTheme(cat, s, name).value.themeName == name
      && SetTheme(cat, s, name).value.theme == cat.midnightVelvet
  {
  }

  /** The values the name `"slate"` resolves to. */
  lemma SlateResolves(cat: Catalog)
    requires HoldsSlate(cat)
    ensures GetTheme(cat, "slate").colors.background == "#0f172a"
    ensures GetTheme(cat, "slate").radius.md == "0.375rem"
    ensures GetTheme(cat, "slate").glass.Some? && GetTheme(cat, "slate").glass.value.blur.md == "20px"
  {
    SlateNameRoundTrip(cat);
    SlateValues();
  }

  lemma LandsAfterSwitch(cat: Catalog, s: ProviderState, name: string)
    requires Consistent(cat, s) && name != s.themeName && Resolve(cat, name).Ok?
    ensures SetTheme(cat, s, name).Ok?
    ensures SetTheme(cat, s, name).value.store(ColorRole(Background)) == GetTheme(cat, name).colors.background
    ensures GetTheme(cat, name).glass.Some? ==>
              SetTheme(cat, s, name).value.store(GlassBlur(Md)) == GetTheme(cat, name).glass.value.blur.md
  {
  }

  /** Switching to slate: slate's colors and glass land, while radius keeps the previous theme's value. */
  lemma SwitchToSlate(cat: Catalog, s: ProviderState)
    requires HoldsSlate(cat) && Consistent(cat, s) && s.themeName != "slate"
    ensures SetTheme(cat, s, "slate").Ok?
    ensures SetTheme(cat, s, "slate").value.store(ColorRole(Background)) == "#0f172a"
    ensures SetTheme(cat, s, "slate").value.store(GlassBlur(Md)) == "20px"
    ensures SetTheme(cat, s, "slate").value.store(RadiusVar(RMd)) == s.theme.radius.md
  {
    SlateResolves(cat);
    LandsAfterSwitch(cat, s, "slate");
  }

  /** Mounting on slate writes slate's own radius: `--radius-md` is `0.375rem`. */
  lemma MountOnSlate(cat: Catalog, store: Store)
    requires HoldsSlate(cat)
    ensures Mount(cat, store, "slate").Ok?
    ensures Mount(cat, store, "slate").value.store(ColorRole(Background)) == "#0f172a"
    ensures Mount(cat, store, "slate").value.store(RadiusVar(RMd)) == "0.375rem"
  {
    SlateResolves(cat);
  }

  /** Leaving slate for a theme without glass keeps slate's glass properties, `--glass-blur-md` at `20px`. */
  lemma GlassSurvivesSwitch(cat: Catalog, store: Store, name: string)
    requires HoldsSlate(cat) && name != "slate" && Resolve(cat, name).Ok? && GetTheme(cat, name).glass.None?
    ensures Mount(cat, store, "slate").Ok?
    ensures SetTheme(cat, Mount(cat, store, "slate").value, name).Ok?
    ensures SetTheme(cat, Mount(cat, store, "slate").value, name).value.store(GlassBlur(Md)) == "20px"
  {
    var s := Mount(cat, store, "slate").value;
    SlateResolves(cat);
    assert s.store(GlassBlur(Md)) == "20px";
    AbsentGroupsUntouched(s.store, s.theme, GetTheme(cat, name), GlassBlur(Md));
  }

  // ----- the context hook -----

  datatype Context = Context(theme: Theme, themeName: string)

  function ContextOf(s: ProviderState): Context
  {
    Context(s.theme, s.themeName)
  }

  /** `useTheme()`: the provider's value, or an error when no provider is above the caller. */
  function UseTheme(ctx: Option<Context>): (r: Result<Context>)
    ensures ctx.None? <==> r.Thrown?
    ensures ctx.Some? ==> r == Ok(ctx.value)
    ensures r.Thrown? ==> r.message == "useTheme must be used within a ThemeProvider"
  {
    if ctx.None? then Thrown("useTheme must be used within a ThemeProvider") else Ok(ctx.value)
  }

  // ----- property names -----

  /** The custom-property name each key stands for. */
  function Name(v: CssVar): string
  {
    match v
    case ColorGray(k) => "--color-gray-" + NatToString(k)
    case ColorRole(r) => "--color-" + RoleName(r)
    case RadiusVar(k) => "--radius-" + (match k case RSm => "sm" case RMd => "md" case RLg => "lg" case RXl => "xl" case RFull => "full")
    case FontVar(k) => if k == Sans then "--font-sans" else "--font-mono"
    case GlassBlur(k) => "--glass-blur-" + SizeName(k)
    case GlassSaturate => "--glass-saturate"
    case GlassBg(t, dark) =>
      "--glass-bg-" + (match t case Subtle => "subtle" case Default => "default" case Strong => "strong")
        + (if dark then "-dark" else "")
    case GlassBorderVar(e) =>
      "--glass-border-"
        + (match e case Light => "light" case Highlight => "highlight" case Dark => "dark"
                   case DarkHighlight => "dark-highlight" case Glow => "glow")
    case GlassShadow(k) => "--glass-shadow-" + SizeName(k)
    case GradientVar(g) =>
      "--gradient-"
        + (match g
           case GPrimary => "primary" case GPrimarySubtle => "primary-subtle"
           case GAccent => "accent" case GAccentSubtle => "accent-subtle"
           case GNeutral => "neutral" case GMeshSunset => "mesh-sunset"
           case GAnimated => "animated" case GPrimaryStart => "primary-start"
           case GPrimaryEnd => "primary-end" case GAccentStart => "accent-start"
           case GAccentEnd => "accent-end")
    case DurationVar(d) =>
      "--duration-"
        + (match d case Instant => "instant" case DFast => "fast" case DNormal => "normal"
                   case DSlow => "slow" case Slower => "slower")
    case EaseVar(e) =>
      "--ease-" + (match e case OutExpo => "out-expo" case OutQuart => "out-quart" case InOut => "in-out" case EaseSpring => "spring")
    case LineHeightVar(l) => "--line-height-" + (match l case Tight => "tight" case Normal => "normal" case Wide => "relaxed")
    case LetterSpacingVar(l) => "--letter-spacing-" + (match l case Tight => "tight" case Normal => "normal" case Wide => "wide")
    case FontWeightVar(w) =>
      "--font-weight-" + (match w case WNormal => "normal" case WMedium => "medium" case WSemibold => "semibold" case WBold => "bold")
    case ZVar(l) =>
      "--z-" + (match l case Dropdown => "dropdown" case Sticky => "sticky" case Modal => "modal"
                        case Popover => "popover" case Tooltip => "tooltip")
    case OpacityVar(o) => "--opacity-" + (match o case OSubtle => "subtle" case OMedium => "medium" case OStrong => "strong")
    case Other(n) => n
  }

  function SizeName(k: Size): string
  {
    match k case Sm => "sm" case Md => "md" case Lg => "lg" case Xl => "xl"
  }

  function RoleName(r: Role): string
  {
    match r
    case Background => "background"
    case Surface => "surface"
    case Elevated => "elevated"
    case TextPrimary => "text-primary"
    case TextMuted => "text-muted"
    case TextDisabled => "text-disabled"
    case BorderDefault => "border-default"
    case BorderSubtle => "border-subtle"
    case Primary => "primary"
    case PrimaryForeground => "primary-foreground"
    case Secondary => "secondary"
    case SecondaryForeground => "secondary-foreground"
    case Accent => "accent"
    case AccentForeground => "accent-foreground"
    case Destructive => "destructive"
    case DestructiveForeground => "destructive-foreground"
    case Success => "success"
    case Warning => "warning"
  }

  /** Gray steps render to distinct property names, so no step overwrites another. */
  lemma GrayNamesDistinct(a: nat, b: nat)
    requires a != b
    ensures Name(ColorGray(a)) != Name(ColorGray(b))
  {
    if Name(ColorGray(a)) == Name(ColorGray(b)) {
      var p := "--color-gray-";
      assert (p + NatToString(a))[|p|..] == NatToString(a);
      assert (p + NatToString(b))[|p|..] == NatToString(b);
      NatToStringInjective(a, b);
    }
  }
}

=== FILE: theme_registry.dfy ===
/**
 The theme registry: nine themes under fixed ids, a default id, a lookup that
 falls back to the default, and the list of all themes in declaration order.
 Only slate's data is concrete; the other eight themes are the fields of a
 `Catalog`, so every statement here holds whatever their data is.
 */
module ThemeRegistry {
  import opened Js
  import opened ThemeTypes
  import opened SlateTheme

  /**
   The nine theme modules' values, in the registry's declaration order. The
   registry is generic in them; `HoldsSlate` pins the first to slate's data.
   */
  datatype Catalog = Catalog(
    slate: Theme,
    midnightVelvet: Theme,
    neonIntimacy: Theme,
    roseWhisper: Theme,
    darkDesire: Theme,
    sultrySunset: Theme,
    etherealSilk: Theme,
    noirSeduction: Theme,
    velvetNight: Theme)

  predicate HoldsSlate(cat: Catalog)
  {
    cat.slate == Slate()
  }

  const DefaultId: string := "midnight-velvet"

  /** The registry's keys, in declaration order. */
  const Ids: seq<string> := [
    "slate", "midnight-velvet", "neon-intimacy", "rose-whisper", "dark-desire",
    "sultry-sunset", "ethereal-silk", "noir-seduction", "velvet-night"]

  /** `Object.values(themes)`: the themes in declaration order. */
  function AllThemes(cat: Catalog): (r: seq<Theme>)
    ensures |r| == |Ids| == 9
    ensures r[0] == cat.slate && r[1] == cat.midnightVelvet
  {
    [cat.slate, cat.midnightVelvet, cat.neonIntimacy, cat.roseWhisper, cat.darkDesire,
     cat.sultrySunset, cat.etherealSilk, cat.noirSeduction, cat.velvetNight]
  }

  /** The registry object: each id maps to the theme declared under it. */
  function Themes(cat: Catalog): map<string, Theme>
  {
    map["slate" := cat.slate, "midnight-velvet" := cat.midnightVelvet,
        "neon-intimacy" := cat.neonIntimacy, "rose-whisper" := cat.roseWhisper,
        "dark-desire" := cat.darkDesire, "sultry-sunset" := cat.sultrySunset,
        "ethereal-silk" := cat.etherealSilk, "noir-seduction" := cat.noirSeduction,
        "velvet-night" := cat.velvetNight]
  }

  /** The nine ids are pairwise distinct, so the registry has nine entries. */
  lemma IdsDistinct()
    ensures NoDup(Ids)
  {
    // Equal-length ids differ in their first character.
    assert Ids[2][0] == 'n' && Ids[5][0] == 's' && Ids[6][0] == 'e';
    assert Ids[3][0] == 'r' && Ids[8][0] == 'v';
  }

  /** Position i of `Object.values` holds the theme stored under the i-th key. */
  lemma ThemesAt(cat: Catalog, i: int)
    requires 0 <= i < |Ids|
    ensures Ids[i] in Themes(cat) && Themes(cat)[Ids[i]] == AllThemes(cat)[i]
  {
    IdsDistinct();
  }

  lemma ThemesKeys(cat: Catalog)
    ensures forall k :: k in Themes(cat) <==> k in Ids
  {
  }

  /** `getTheme(name)`: the registered theme, or the default theme for any other name. */
  function GetTheme(cat: Catalog, name: string): (t: Theme)
    ensures name in Ids ==> name in Themes(cat) && t == Themes(cat)[name]
    ensures name !in Ids ==> t == cat.midnightVelvet
    ensures t in AllThemes(cat)
  {
    ThemesKeys(cat);
    if name in Themes(cat) then Themes(cat)[name] else Themes(cat)[DefaultId]
  }

  /** The default id is a registry key, so the lookup is total. */
  lemma DefaultRegistered(cat: Catalog)
    ensures DefaultId in Themes(cat)
    ensures GetTheme(cat, DefaultId) == cat.midnightVelvet
  {
    ThemesAt(cat, 1);
  }

  /** `getAllThemes()` lists exactly the registry's values, position i holding the theme of the i-th id. */
  lemma AllThemesMatchRegistry(cat: Catalog)
    ensures forall i :: 0 <= i < |Ids| ==> AllThemes(cat)[i] == GetTheme(cat, Ids[i])
    ensures forall t :: t in AllThemes(cat) <==> t in Themes(cat).Values
  {
    forall i | 0 <= i < |Ids| ensures AllThemes(cat)[i] == GetTheme(cat, Ids[i]) {
      ThemesAt(cat, i);
    }
    forall t | t in AllThemes(cat) ensures t in Themes(cat).Values {
      var i :| 0 <= i < |AllThemes(cat)| && AllThemes(cat)[i] == t;
      ThemesAt(cat, i);
    }
  }

  /** The name slate reports is its own registry key, so a picker sending it back resolves to slate. */
  lemma SlateNameRoundTrip(cat: Catalog)
    requires HoldsSlate(cat)
    ensures GetTheme(cat, Slate().name) == Slate()
  {
    ThemesAt(cat, 0);
  }

  // ----- the lookup as the JavaScript object performs it -----

  /**
   The inherited members that come back without throwing when called with
   `undefined` as `this` (ECMA-262, section 20.1): `Object()` builds a fresh
   object, `toString` gives "[object Undefined]", `isPrototypeOf` answers
   false for a non-object argument, and `__proto__` is `Object.prototype`
   itself, which is not a function and is never called.
   */
  const ReceiverFreeMembers: set<string> := {"constructor", "toString", "isPrototypeOf", "__proto__"}

  /**
   The inherited members whose algorithm converts `this` to an object before
   anything else; with `this` undefined that conversion throws a TypeError.
   */
  const ReceiverMembers: set<string> := {
    "toLocaleString", "valueOf", "hasOwnProperty", "propertyIsEnumerable",
    "__defineGetter__", "__defineSetter__", "__lookupGetter__", "__lookupSetter__"}

  /** The names an ordinary object inherits from `Object.prototype`. */
  const PrototypeMembers: set<string> := {
    "constructor", "toString", "toLocaleString", "valueOf", "hasOwnProperty",
    "isPrototypeOf", "propertyIsEnumerable", "__proto__", "__defineGetter__",
    "__defineSetter__", "__lookupGetter__", "__lookupSetter__"}

  /** Every inherited member either returns without a receiver or needs one, never both. */
  lemma ReceiverSplit()
    ensures ReceiverFreeMembers + ReceiverMembers == PrototypeMembers
    ensures ReceiverFreeMembers !! ReceiverMembers
  {
  }

  /** What `themes[name] || themes[defaultTheme]` can evaluate to on a plain object. */
  datatype Lookup = ThemeValue(theme: Theme) | PrototypeMember(member: string)

  /** The lookup as written: an own key wins, an inherited member is truthy and wins next, then the default. */
  function JsGetTheme(cat: Catalog, name: string): (r: Lookup)
    ensures name in Ids ==> r == ThemeValue(GetTheme(cat, name))
    ensures name !in Ids && name !in PrototypeMembers ==> r == ThemeValue(GetTheme(cat, name))
    ensures name !in Ids && name in PrototypeMembers ==> r == PrototypeMember(name)
  {
    ThemesKeys(cat);
    if name in Themes(cat) then ThemeValue(Themes(cat)[name])
    else if name in PrototypeMembers then PrototypeMember(name)
    else ThemeValue(Themes(cat)[DefaultId])
  }

  /** The name `"toString"` escapes the fallback: the as-written lookup yields no theme at all. */
  lemma ToStringEscapesFallback(cat: Catalog)
    ensures "toString" !in Ids
    ensures JsGetTheme(cat, "toString") == PrototypeMember("toString")
    ensures JsGetTheme(cat, "toString") != ThemeValue(GetTheme(cat, "toString"))
  {
    assert |"toString"| == 8;
  }
}

=== FILE: theme_types.dfy ===
/**
 The theme schema: one record per token group. The ten groups every theme
 carries are plain fields; the six visual-effect groups are optional and are
 `Option`-valued, so a theme that lacks one says so in its value.
 */
module ThemeTypes {
  import opened Js

  /** The gray ramp is a record keyed by step number; the semantic roles are eighteen fixed strings. */
  datatype Colors = Colors(
    gray: map<nat, string>,
    background: string,
    surface: string,
    elevated: string,
    textPrimary: string,
    textMuted: string,
    textDisabled: string,
    borderDefault: string,
    borderSubtle: string,
    primary: string,
    primaryForeground: string,
    secondary: string,
    secondaryForeground: string,
    accent: string,
    accentForeground: string,
    destructive: string,
    destructiveForeground: string,
    success: string,
    warning: string)

  datatype Radius = Radius(sm: string, md: string, lg: string, xl: string, full: string)

  datatype Shadow = Shadow(sm: string, md: string, lg: string, xl: string)

  datatype FontFamily = FontFamily(sans: seq<string>, mono: seq<string>)

  datatype FontSize = FontSize(
    xs: string, sm: string, base: string, lg: string, xl: string,
    xl2: string, xl3: string, xl4: string)

  datatype Spacing = Spacing(xs: string, sm: string, md: string, lg: string, xl: string, xl2: string)

  datatype Animation = Animation(fast: string, normal: string, slow: string)

  datatype Easing = Easing(easeOut: string, easeInOut: string)

  datatype Sizes4 = Sizes4(sm: string, md: string, lg: string, xl: string)

  datatype Tones3 = Tones3(subtle: string, default: string, strong: string)

  datatype GlassBorder = GlassBorder(
    light: string, highlight: string, dark: string, darkHighlight: string, glow: string)

  datatype Glass = Glass(
    blur: Sizes4,
    saturate: string,
    bg: Tones3,
    bgDark: Tones3,
    border: GlassBorder,
    shadow: Sizes4)

  datatype Gradient = Gradient(
    primary: string,
    primarySubtle: string,
    accent: string,
    accentSubtle: string,
    neutral: string,
    meshSunset: string,
    animated: string,
    primaryStart: string,
    primaryEnd: string,
    accentStart: string,
    accentEnd: string)

  datatype Spring = Spring(snappy: string, gentle: string, bouncy: string, stiff: string, heavy: string)

  datatype Durations = Durations(instant: string, fast: string, normal: string, slow: string, slower: string)

  datatype MotionEasing = MotionEasing(outExpo: string, outQuart: string, inOut: string, spring: string)

  datatype Stagger = Stagger(container: string, item: string)

  datatype Motion = Motion(spring: Spring, duration: Durations, easing: MotionEasing, stagger: Stagger)

  datatype LineHeight = LineHeight(tight: string, normal: string, relaxed: string)

  datatype LetterSpacing = LetterSpacing(tight: string, normal: string, wide: string)

  datatype HeadingScale = HeadingScale(h1: string, h2: string, h3: string, h4: string, h5: string, h6: string)

  datatype FontWeight = FontWeight(normal: string, medium: string, semibold: string, bold: string)

  datatype Typography = Typography(
    lineHeight: LineHeight,
    letterSpacing: LetterSpacing,
    headingScale: HeadingScale,
    fontWeight: FontWeight)

  datatype ZIndex = ZIndex(dropdown: string, sticky: string, modal: string, popover: string, tooltip: string)

  datatype Opacity = Opacity(subtle: string, medium: string, strong: string)

  datatype Theme = Theme(
    name: string,
    displayName: string,
    colors: Colors,
    radius: Radius,
    shadow: Shadow,
    fontFamily: FontFamily,
    fontSize: FontSize,
    spacing: Spacing,
    animation: Animation,
    easing: Easing,
    glass: Option<Glass>,
    gradient: Option<Gradient>,
    motion: Option<Motion>,
    typography: Option<Typography>,
    zIndex: Option<ZIndex>,
    opacity: Option<Opacity>)

  /** The eighteen semantic color roles, in declaration order. */
  function SemanticColors(c: Colors): (r: seq<string>)
    ensures |r| == 18
    ensures r[0] == c.background && r[8] == c.primary && r[17] == c.warning
  {
    [c.background, c.surface, c.elevated, c.textPrimary, c.textMuted, c.textDisabled,
     c.borderDefault, c.borderSubtle, c.primary, c.primaryForeground, c.secondary,
     c.secondaryForeground, c.accent, c.accentForeground, c.destructive,
     c.destructiveForeground, c.success, c.warning]
  }
}

=== FILE: time_picker.dfy ===
/**
 The time picker: hour, minute and period state, the button label, the hour
 and minute lists, and the Apply action that builds a `Date` for today.
 A `Date` is modelled by what the picker reads or writes of it: hours and
 minutes of the day, and how many days `setHours` rolled past today.
 */
module TimePicker {
  import opened Js

  datatype Period = Am | Pm

  /** A `Date` value as the picker reads it: `getHours()` in 0..23 and `getMinutes()` in 0..59. */
  datatype Clock = Clock(hours: int, minutes: int)

  predicate ValidClock(c: Clock)
  {
    0 <= c.hours < 24 && 0 <= c.minutes < 60
  }

  /** The `Date` Apply emits: today plus `dayShift` days, at `hours:minutes:00.000`. */
  datatype Emitted = Emitted(dayShift: int, hours: int, minutes: int, seconds: int, milliseconds: int)

  datatype PickerState = PickerState(open: bool, hour: int, minute: int, period: Period)

  function PeriodOf(h: int): Period
  {
    if h >= 12 then Pm else Am
  }

  /**
   The initial state. The hour defaults through `||`, so midnight becomes 12.
   The period expression parses as `(getHours() ?? (12 >= 12)) ? 'pm' : 'am'`:
   no value or any non-zero hour gives `pm`, hour 0 gives `am`.
   */
  function Init(value: Option<Clock>): (st: PickerState)
    ensures !st.open
    ensures value.None? ==> st == PickerState(false, 12, 0, Pm)
    ensures value.Some? ==> st.hour == (if value.value.hours != 0 then value.value.hours else 12)
    ensures value.Some? ==> (st.period == Pm <==> value.value.hours != 0)
  {
    if value.None? then PickerState(false, 12, 0, Pm)
    else
      var h := value.value.hours;
      PickerState(false, if h != 0 then h else 12, value.value.minutes, if h != 0 then Pm else Am)
  }

  /**
   The effect on `[value]`: a present value overwrites hour, minute and period,
   so that the face, read on either dial, shows exactly that value.
   */
  function ValueEffect(value: Option<Clock>, st: PickerState): (st': PickerState)
    ensures value.None? ==> st' == st
    ensures value.Some? ==> st' == st.(hour := value.value.hours, minute := value.value.minutes, period := PeriodOf(value.value.hours))
    // the 12-hour face shows the value's hour with its period; the 24-hour face shows it as is
    ensures value.Some? && ValidClock(value.value) ==>
      && To24(Display12(st'.hour), st'.period) == value.value.hours
      && st'.hour == value.value.hours && st'.minute == value.value.minutes
    ensures st'.open == st.open
  {
    if value.None? then st
    else
      To24Bijective(1, Am, value.value.hours);
      st.(hour := value.value.hours, minute := value.value.minutes, period := PeriodOf(value.value.hours))
  }

  /** The initial period is wrong for a morning value, and the mount effect repairs it at once. */
  lemma MountRepairsPeriod(value: Clock)
    requires ValidClock(value) && 0 < value.hours < 12
    ensures Init(Some(value)).period == Pm
    ensures ValueEffect(Some(value), Init(Some(value))).period == Am
    ensures ValueEffect(Some(value), Init(Some(value))).hour == value.hours
  {
  }

  // ----- 12-hour conversion -----

  /** `h % 12 || 12`: the hour a 12-hour face shows. */
  function Display12(h: int): (r: int)
    ensures h >= 0 ==> 1 <= r <= 12
  {
    if h % 12 != 0 then h % 12 else 12
  }

  /** The 12-hour to 24-hour rule of `handleTimeSelect`. */
  function To24(h: int, p: Period): int
  {
    if p == Pm && h != 12 then h + 12 else if p == Am && h == 12 then 0 else h
  }

  /** On 1..12 with a period, the conversion is a bijection onto 0..23, inverse to the 12-hour face. */
  lemma To24Bijective(h: int, p: Period, h24: int)
    ensures 1 <= h <= 12 ==> 0 <= To24(h, p) < 24 && Display12(To24(h, p)) == h && PeriodOf(To24(h, p)) == p
    ensures 0 <= h24 < 24 ==> To24(Display12(h24), PeriodOf(h24)) == h24
  {
  }

  // ----- the label -----

  /** `formatTime(h, m)`. */
  function FormatTime(hour12: bool, h: int, m: int): string
  {
    if hour12 then
      IntToString(Display12(h)) + ":" + PadStart2(IntToString(m)) + " " + (if h >= 12 then "pm" else "am")
    else PadStart2(IntToString(h)) + ":" + PadStart2(IntToString(m))
  }

  function DigitValue(c: char): int
  {
    c as int - '0' as int
  }

  /** Reading back two decimal digits. */
  function ParseTwo(s: string): int
    requires |s| == 2
  {
    DigitValue(s[0]) * 10 + DigitValue(s[1])
  }

  lemma TwoDigits(n: int)
    requires 0 <= n < 100
    ensures |PadStart2(IntToString(n))| == 2
    ensures ParseTwo(PadStart2(IntToString(n))) == n
    ensures IsDigit(PadStart2(IntToString(n))[0]) && IsDigit(PadStart2(IntToString(n))[1])
  {
    var t := IntToString(n);
    if n >= 10 {
      assert t == NatToString(n / 10) + [Digit(n % 10)];
      assert NatToString(n / 10) == [Digit(n / 10)];
      assert PadStart2(t) == [Digit(n / 10), Digit(n % 10)];
    } else {
      assert t == [Digit(n)];
      assert PadStart2(t) == ['0', Digit(n)];
    }
  }

  /** The 24-hour label is `HH:MM`, both fields two digits, and reads back as the same time. */
  lemma Format24RoundTrip(h: int, m: int)
    requires 0 <= h < 24 && 0 <= m < 60
    ensures var s := FormatTime(false, h, m);
      |s| == 5 && s[2] == ':' && ParseTwo(s[..2]) == h && ParseTwo(s[3..]) == m
  {
    TwoDigits(h);
    TwoDigits(m);
    var s := FormatTime(false, h, m);
    assert s[..2] == PadStart2(IntToString(h));
    assert s[3..] == PadStart2(IntToString(m));
  }

  /** The 12-hour label shows an hour in 1..12, two-digit minutes, and `pm` exactly from noon on. */
  lemma Format12Shape(h: int, m: int)
    requires 0 <= h < 24 && 0 <= m < 60
    ensures var s := FormatTime(true, h, m);
      var d := IntToString(Display12(h));
      && s == d + ":" + PadStart2(IntToString(m)) + " " + (if h >= 12 then "pm" else "am")
      && 1 <= |d| <= 2
      && (s[|s| - 2..] == "pm" <==> h >= 12)
      && ParseTwo(s[|d| + 1..|d| + 3]) == m
  {
    TwoDigits(m);
    var d := IntToString(Display12(h));
    var p := PadStart2(IntToString(m));
    var x := if h >= 12 then "pm" else "am";
    HourDigits(Display12(h));
    var s := (d + ":") + (p + (" " + x));
    assert FormatTime(true, h, m) == s;
    assert s[|d| + 1..|d| + 3] == p;
    assert s[|s| - 2..] == x;
  }

  /** A 12-hour face's hour prints as one or two digits. */
  lemma HourDigits(n: int)
    requires 1 <= n <= 12
    ensures 1 <= |IntToString(n)| <= 2
  {
    if n >= 10 {
      assert NatToString(n) == NatToString(n / 10) + [Digit(n % 10)];
    }
  }

  // ----- the lists and the highlight -----

  function Hours(hour12: bool): (r: seq<int>)
    ensures hour12 ==> |r| == 12 && forall i :: 0 <= i < 12 ==> r[i] == i + 1
    ensures !hour12 ==> |r| == 24 && forall i :: 0 <= i < 24 ==> r[i] == i
  {
    if hour12 then seq(12, i => i + 1) else seq(24, i => i)
  }

  function Minutes(): (r: seq<int>)
    ensures |r| == 60 && forall i :: 0 <= i < 60 ==> r[i] == i
  {
    seq(60, i => i)
  }

  /** Whether the hour button `h` is highlighted for the held hour. */
  predicate Highlighted(hour12: bool, h: int, hour: int)
  {
    if hour12 then h == Display12(hour) else h == hour
  }

  /** For any held hour of the day, exactly one hour button is highlighted. */
  lemma ExactlyOneHourHighlighted(hour12: bool, hour: int)
    requires 0 <= hour < 24
    ensures exists i :: 0 <= i < |Hours(hour12)| && Highlighted(hour12, Hours(hour12)[i], hour)
    ensures forall i, j ::
      (0 <= i < |Hours(hour12)| && 0 <= j < |Hours(hour12)|
       && Highlighted(hour12, Hours(hour12)[i], hour) && Highlighted(hour12, Hours(hour12)[j], hour)) ==> i == j
  {
    if hour12 {
      assert Highlighted(hour12, Hours(hour12)[Display12(hour) - 1], hour);
    } else {
      assert Highlighted(hour12, Hours(hour12)[hour], hour);
    }
  }

  // ----- Apply -----

  /** `newDate.setHours(h)` on today's date: hours past 23 roll into the following days. */
  function SetHours(h: int, m: int): (e: Emitted)
    ensures 0 <= h < 24 ==> e == Emitted(0, h, m, 0, 0)
    ensures 0 <= e.hours < 24 && e.dayShift * 24 + e.hours == h
  {
    Emitted(h / 24, h % 24, m, 0, 0)
  }

  /**
   The hour `handleTimeSelect` passes to `setHours`, as written: it converts the
   held hour. That is right for an hour picked on the 12-hour dial, but an
   afternoon hour the value effect stored (13..23) gets twelve more and leaves the day.
   */
  function FinalHourAsWritten(hour12: bool, h: int, p: Period): (r: int)
    ensures !hour12 ==> r == h
    ensures hour12 && 1 <= h <= 12 ==> 0 <= r < 24 && Display12(r) == h && PeriodOf(r) == p
    ensures hour12 && 13 <= h <= 23 && p == Pm ==> r == h + 12 && r >= 24
  {
    To24Bijective(h, p, 0);
    if hour12 then To24(h, p) else h
  }

  /** The hour Apply evidently means: the time the face shows, `Display12(hour)` with the period. */
  function FinalHour(hour12: bool, h: int, p: Period): (r: int)
    ensures !hour12 ==> r == h
    ensures hour12 && 0 <= h < 24 ==> 0 <= r < 24 && Display12(r) == Display12(h) && PeriodOf(r) == p
  {
    To24Bijective(Display12(h), p, h);
    if hour12 then To24(Display12(h), p) else h
  }

  /** As written, applying an afternoon value shown on a 12-hour face adds twelve hours twice. */
  lemma ApplyAsWrittenSkipsADay()
    ensures FinalHourAsWritten(true, 15, Pm) == 27
    ensures SetHours(FinalHourAsWritten(true, 15, Pm), 0) == Emitted(1, 3, 0, 0, 0)
    ensures FinalHour(true, 15, Pm) == 15
  {
  }

  /** Apply: emit the chosen time of today, with seconds and milliseconds zeroed, and close. */
  function HandleTimeSelect(hour12: bool, st: PickerState): (r: (PickerState, seq<Emitted>))
    ensures !r.0.open
    ensures |r.1| == 1 && r.1[0].seconds == 0 && r.1[0].milliseconds == 0 && r.1[0].minutes == st.minute
    ensures !hour12 && 0 <= st.hour < 24 ==> r.1[0] == Emitted(0, st.hour, st.minute, 0, 0)
  {
    (st.(open := false), [SetHours(FinalHour(hour12, st.hour, st.period), st.minute)])
  }

  /** Opening the picker on a value and pressing Apply re-emits that same time, on either face. */
  lemma ApplyUnchangedKeepsValue(hour12: bool, value: Clock)
    requires ValidClock(value)
    ensures var st := ValueEffect(Some(value), Init(Some(value)));
      HandleTimeSelect(hour12, st).1 == [Emitted(0, value.hours, value.minutes, 0, 0)]
  {
    To24Bijective(Display12(value.hours), PeriodOf(value.hours), value.hours);
  }

  /** Picking an hour button `h`, a period, then Apply emits `h` on that period, today. */
  lemma ApplyPickedHour(st: PickerState, h: int, p: Period)
    requires 1 <= h <= 12
    ensures var picked := st.(hour := h, period := p);
      var e := HandleTimeSelect(true, picked).1[0];
      e.dayShift == 0 && Display12(e.hours) == h && PeriodOf(e.hours) == p
  {
    To24Bijective(h, p, 0);
  }
}

=== FILE: toast.dfy ===
/**
 Toasts: the provider's bounded queue (`showToast` appends and keeps the last
 `maxToasts` entries, `removeToast` drops an id) and a toast's close button,
 which hides it and, inside the provider, removes it from the queue. Toast ids
 come from `Math.random`; here the caller supplies them.
 */
module Toast {
  import opened Js

  datatype Variant = Default | Info | Success | Warning | Error | Glass

  /** What a toast displays; the provider passes it through untouched. */
  datatype ToastContent = ToastContent(title: Option<string>, description: Option<string>, variant: Variant, duration: int)

  datatype ToastItem = ToastItem(id: string, props: ToastContent)

  datatype Callback = OnClose

  const DefaultMaxToasts: int := 5

  const DefaultDuration: int := 5000

  const OutsideProvider: string := "useToast must be used within a ToastProvider"

  /** The queue after `showToast`, and the id it returns. */
  function ShowToast(queue: seq<ToastItem>, maxToasts: int, id: string, props: ToastContent): (r: (seq<ToastItem>, string))
    ensures r.1 == id
    ensures var all := queue + [ToastItem(id, props)];
      && (maxToasts == 0 ==> r.0 == all)
      && (maxToasts > 0 ==> r.0 == all[|all| - Min(|all|, maxToasts)..])
      && (maxToasts < 0 ==> r.0 == all[Min(|all|, -maxToasts)..])
  {
    (SliceFrom(queue + [ToastItem(id, props)], -maxToasts), id)
  }

  function Min(a: int, b: int): int
  {
    if a <= b then a else b
  }

  /** The ids in a queue, in order. */
  function Ids(queue: seq<ToastItem>): (ids: seq<string>)
    ensures |ids| == |queue|
    ensures forall i :: 0 <= i < |queue| ==> ids[i] == queue[i].id
  {
    if |queue| == 0 then [] else [queue[0].id] + Ids(queue[1..])
  }

  /**
   With a positive limit the queue never grows past it, the new toast is
   always last, and a full queue evicts exactly its oldest entry.
   */
  lemma ShowKeepsBound(queue: seq<ToastItem>, maxToasts: int, id: string, props: ToastContent)
    requires maxToasts >= 1
    ensures var q := ShowToast(queue, maxToasts, id, props).0;
      && |q| <= maxToasts
      && |q| > 0 && q[|q| - 1] == ToastItem(id, props)
      && (|queue| < maxToasts ==> q == queue + [ToastItem(id, props)])
      && (|queue| == maxToasts ==> q == queue[1..] + [ToastItem(id, props)])
  {
    var all := queue + [ToastItem(id, props)];
    if |queue| == maxToasts {
      assert all[1..] == queue[1..] + [ToastItem(id, props)];
    }
  }

  /** A limit of zero keeps every toast: `slice(-0)` is `slice(0)`. */
  lemma ZeroLimitKeepsAll(queue: seq<ToastItem>, id: string, props: ToastContent)
    ensures ShowToast(queue, 0, id, props).0 == queue + [ToastItem(id, props)]
    ensures |ShowToast(queue, 0, id, props).0| == |queue| + 1
  {
  }

  /** `removeToast(id)`: every entry with that id goes, the rest keep their order. */
  function RemoveToast(queue: seq<ToastItem>, id: string): (r: seq<ToastItem>)
    ensures forall t :: t in r <==> t in queue && t.id != id
    ensures |r| <= |queue|
  {
    if |queue| == 0 then []
    else (if queue[0].id == id then [] else [queue[0]]) + RemoveToast(queue[1..], id)
  }

  /** Removal works entry by entry: the survivors keep their order and their repetitions. */
  lemma {:induction false} RemoveToastAppend(a: seq<ToastItem>, b: seq<ToastItem>, id: string)
    ensures RemoveToast(a + b, id) == RemoveToast(a, id) + RemoveToast(b, id)
    decreases |a|
  {
    if |a| == 0 {
      assert a + b == b;
    } else {
      assert (a + b)[1..] == a[1..] + b;
      RemoveToastAppend(a[1..], b, id);
    }
  }

  lemma {:induction false} RemoveAbsent(queue: seq<ToastItem>, id: string)
    requires id !in Ids(queue)
    ensures RemoveToast(queue, id) == queue
    decreases |queue|
  {
    if |queue| > 0 {
      assert Ids(queue)[1..] == Ids(queue[1..]);
      RemoveAbsent(queue[1..], id);
    }
  }

  lemma {:induction false} RemoveLast(queue: seq<ToastItem>, t: ToastItem)
    requires t.id !in Ids(queue)
    ensures RemoveToast(queue + [t], t.id) == queue
    decreases |queue|
  {
    if |queue| == 0 {
      assert ([] + [t])[1..] == [];
    } else {
      assert (queue + [t])[1..] == queue[1..] + [t];
      assert Ids(queue)[1..] == Ids(queue[1..]);
      RemoveLast(queue[1..], t);
    }
  }

  /**
   Showing a toast with a fresh id while there is room, then removing that id,
   gives back the queue as it was.
   */
  lemma ShowThenRemove(queue: seq<ToastItem>, maxToasts: int, id: string, props: ToastContent)
    requires id !in Ids(queue)
    requires maxToasts == 0 || |queue| < maxToasts
    ensures RemoveToast(ShowToast(queue, maxToasts, id, props).0, id) == queue
  {
    RemoveLast(queue, ToastItem(id, props));
  }

  /** `Toast.handleClose()`: hide, then call `onClose` if given. */
  function HandleClose(hasOnClose: bool): (r: (bool, seq<Callback>))
    ensures !r.0
    ensures r.1 == if hasOnClose then [OnClose] else []
  {
    (false, if hasOnClose then [OnClose] else [])
  }

  /** The provider's answer to a toast's callbacks: `onClose` is `removeToast(id)` for that toast. */
  function ProviderDispatch(queue: seq<ToastItem>, id: string, calls: seq<Callback>): (r: seq<ToastItem>)
    ensures calls == [] ==> r == queue
    ensures calls != [] ==> id !in Ids(r)
    decreases |calls|
  {
    if |calls| == 0 then queue else ProviderDispatch(RemoveToast(queue, id), id, calls[1..])
  }

  /** Closing a toast the provider rendered removes it from the queue and keeps the others. */
  lemma CloseRemovesFromQueue(queue: seq<ToastItem>, id: string)
    ensures var q := ProviderDispatch(queue, id, HandleClose(true).1);
      && id !in Ids(q)
      && forall t :: t in queue && t.id != id ==> t in q
  {
    var calls := HandleClose(true).1;
    assert calls[1..] == [];
  }

  /** A toast with a positive duration schedules its own close. */
  predicate AutoDismisses(props: ToastContent)
  {
    props.duration > 0
  }

  /** `useToast()`: the context, or the error thrown outside a provider. */
  function UseToast<C>(context: Option<C>): (r: Result<C>)
    ensures context.Some? ==> r == Ok(context.value)
    ensures context.None? ==> r == Thrown(OutsideProvider)
  {
    match context
    case Some(c) => Ok(c)
    case None => Thrown(OutsideProvider)
  }
}

=== FILE: tree.dfy ===
/**
 The tree view: a set of expanded ids, node clicks that toggle and select, and
 the rows the recursive rendering produces.
 */
module Tree {
  import opened Js

  /** A node; an omitted `children` behaves as the empty list everywhere it is read. */
  datatype Node = Node(id: string, children: seq<Node>, disabled: bool)

  datatype Callback = OnSelect(id: string) | OnExpand(id: string) | OnCollapse(id: string)

  datatype TreeState = TreeState(expanded: seq<string>)

  function Init(defaultExpanded: seq<string>): TreeState
  {
    TreeState(SetOf(defaultExpanded))
  }

  predicate Valid(st: TreeState)
  {
    NoDup(st.expanded)
  }

  function HasChildren(n: Node): bool
  {
    |n.children| > 0
  }

  /** `toggleExpand(id)`: flips the membership of `id` and reports which way it went. */
  function ToggleExpand(st: TreeState, id: string): (r: (TreeState, seq<Callback>))
    requires Valid(st)
    ensures Valid(r.0)
    ensures forall x :: x != id ==> (x in r.0.expanded <==> x in st.expanded)
    ensures id in r.0.expanded <==> id !in st.expanded
    ensures r.1 == if id in st.expanded then [OnCollapse(id)] else [OnExpand(id)]
  {
    if id in st.expanded then (TreeState(Remove(st.expanded, id)), [OnCollapse(id)])
    else (TreeState(SetAdd(st.expanded, id)), [OnExpand(id)])
  }

  /** Toggling twice restores which ids are expanded, after one expand and one collapse. */
  lemma ToggleTwice(st: TreeState, id: string)
    requires Valid(st)
    ensures var (s1, c1) := ToggleExpand(st, id);
      var (s2, c2) := ToggleExpand(s1, id);
      (forall x :: x in s2.expanded <==> x in st.expanded)
      && {c1[0], c2[0]} == {OnExpand(id), OnCollapse(id)}
  {
  }

  /** `handleSelect(id)`: forwarded only when the tree is selectable. */
  function HandleSelect(selectable: bool, id: string): (calls: seq<Callback>)
    ensures calls == if selectable then [OnSelect(id)] else []
  {
    if selectable then [OnSelect(id)] else []
  }

  /**
   A click on a node's button. A disabled button receives no click; otherwise a
   node with children toggles first, and selection is attempted in every case.
   */
  function ClickNode(selectable: bool, st: TreeState, n: Node): (r: (TreeState, seq<Callback>))
    requires Valid(st)
    ensures Valid(r.0)
    ensures n.disabled ==> r == (st, [])
    ensures !n.disabled && !HasChildren(n) ==> r == (st, HandleSelect(selectable, n.id))
    ensures !n.disabled && HasChildren(n) ==>
      r.0 == ToggleExpand(st, n.id).0 && r.1 == ToggleExpand(st, n.id).1 + HandleSelect(selectable, n.id)
  {
    if n.disabled then (st, [])
    else if HasChildren(n) then
      var (st', calls) := ToggleExpand(st, n.id);
      (st', calls + HandleSelect(selectable, n.id))
    else (st, HandleSelect(selectable, n.id))
  }

  // ----- rendering -----

  /** A rendered row: the node's id, its depth and its left padding in pixels. */
  datatype Row = Row(id: string, level: nat, paddingLeft: nat)

  /** `level * 16 + 8` pixels: the padding tells the depth back, 16 pixels per level past the first 8. */
  function Indent(level: nat): (px: nat)
    ensures px == level * 16 + 8
    ensures px >= 8 && px % 16 == 8 && (px - 8) / 16 == level
  {
    level * 16 + 8
  }

  /**
   Deeper rows sit further right: a child is indented exactly one step of
   16 pixels past its parent, and two rows line up only at the same depth.
   */
  lemma IndentOrdersDepths(a: nat, b: nat)
    ensures Indent(a + 1) == Indent(a) + 16
    ensures Indent(a) < Indent(b) <==> a < b
    ensures Indent(a) == Indent(b) <==> a == b
  {
  }

  /** The rows one node renders: its own, then its children's when it has any and is expanded. */
  function NodeRows(n: Node, level: nat, expanded: seq<string>): seq<Row>
    decreases n, 1
  {
    [Row(n.id, level, Indent(level))]
      + (if HasChildren(n) && n.id in expanded then ListRows(n.children, level + 1, expanded) else [])
  }

  function ListRows(ns: seq<Node>, level: nat, expanded: seq<string>): seq<Row>
    decreases ns, 0
  {
    if |ns| == 0 then [] else NodeRows(ns[0], level, expanded) + ListRows(ns[1..], level, expanded)
  }

  // ----- an independent reading: all nodes in preorder, filtered by their ancestors -----

  /** A node of the forest with the ids of its ancestors, outermost first. */
  datatype Entry = Entry(id: string, ancestors: seq<string>)

  function NodeEntries(n: Node, ancestors: seq<string>): seq<Entry>
    decreases n, 1
  {
    [Entry(n.id, ancestors)] + ListEntries(n.children, ancestors + [n.id])
  }

  function ListEntries(ns: seq<Node>, ancestors: seq<string>): seq<Entry>
    decreases ns, 0
  {
    if |ns| == 0 then [] else NodeEntries(ns[0], ancestors) + ListEntries(ns[1..], ancestors)
  }

  /** The entries whose ancestors are all expanded, as rows at the depth their ancestry gives. */
  function Shown(es: seq<Entry>, expanded: seq<string>): seq<Row>
  {
    if |es| == 0 then []
    else
      (if forall a :: a in es[0].ancestors ==> a in expanded
       then [Row(es[0].id, |es[0].ancestors|, Indent(|es[0].ancestors|))] else [])
      + Shown(es[1..], expanded)
  }

  lemma {:induction false} ShownAppend(a: seq<Entry>, b: seq<Entry>, expanded: seq<string>)
    ensures Shown(a + b, expanded) == Shown(a, expanded) + Shown(b, expanded)
    decreases |a|
  {
    if |a| > 0 {
      assert (a + b)[1..] == a[1..] + b;
      ShownAppend(a[1..], b, expanded);
    } else {
      assert a + b == b;
    }
  }

  /** Below a collapsed ancestor nothing is shown. */
  lemma {:induction false} HiddenBelowCollapsed(ns: seq<Node>, ancestors: seq<string>, expanded: seq<string>)
    requires exists a :: a in ancestors && a !in expanded
    ensures Shown(ListEntries(ns, ancestors), expanded) == []
    decreases ns, 0
  {
    if |ns| > 0 {
      HiddenBelowCollapsedNode(ns[0], ancestors, expanded);
      HiddenBelowCollapsed(ns[1..], ancestors, expanded);
      ShownAppend(NodeEntries(ns[0], ancestors), ListEntries(ns[1..], ancestors), expanded);
    }
  }

  lemma {:induction false} HiddenBelowCollapsedNode(n: Node, ancestors: seq<string>, expanded: seq<string>)
    requires exists a :: a in ancestors && a !in expanded
    ensures Shown(NodeEntries(n, ancestors), expanded) == []
    decreases n, 1
  {
    var a :| a in ancestors && a !in expanded;
    assert a in ancestors + [n.id];
    HiddenBelowCollapsed(n.children, ancestors + [n.id], expanded);
    ShownAppend([Entry(n.id, ancestors)], ListEntries(n.children, ancestors + [n.id]), expanded);
    assert [Entry(n.id, ancestors)][1..] == [];
  }

  /**
   The recursive rendering shows exactly the nodes whose every ancestor is
   expanded, in preorder, each indented by its depth.
   */
  lemma {:induction false} RowsAreExpandedPaths(ns: seq<Node>, ancestors: seq<string>, expanded: seq<string>)
    requires forall a :: a in ancestors ==> a in expanded
    ensures ListRows(ns, |ancestors|, expanded) == Shown(ListEntries(ns, ancestors), expanded)
    decreases ns, 0
  {
    if |ns| > 0 {
      NodeRowsAreExpandedPaths(ns[0], ancestors, expanded);
      RowsAreExpandedPaths(ns[1..], ancestors, expanded);
      ShownAppend(NodeEntries(ns[0], ancestors), ListEntries(ns[1..], ancestors), expanded);
    }
  }

  lemma {:induction false} NodeRowsAreExpandedPaths(n: Node, ancestors: seq<string>, expanded: seq<string>)
    requires forall a :: a in ancestors ==> a in expanded
    ensures NodeRows(n, |ancestors|, expanded) == Shown(NodeEntries(n, ancestors), expanded)
    decreases n, 1
  {
    var head := [Entry(n.id, ancestors)];
    var below := ListEntries(n.children, ancestors + [n.id]);
    ShownAppend(head, below, expanded);
    assert head[1..] == [];
    assert Shown(head, expanded) == [Row(n.id, |ancestors|, Indent(|ancestors|))];
    if n.id in expanded {
      RowsAreExpandedPaths(n.children, ancestors + [n.id], expanded);
      if !HasChildren(n) {
        assert ListEntries(n.children, ancestors + [n.id]) == [];
      }
    } else {
      assert n.id in ancestors + [n.id];
      HiddenBelowCollapsed(n.children, ancestors + [n.id], expanded);
    }
  }

  /** From the roots: a node is rendered iff all its ancestors are expanded, at padding `level * 16 + 8`. */
  lemma RenderedRows(roots: seq<Node>, expanded: seq<string>)
    ensures ListRows(roots, 0, expanded) == Shown(ListEntries(roots, []), expanded)
  {
    RowsAreExpandedPaths(roots, [], expanded);
  }
}
